=== FILE: README.md ===
# EasyOpenXml.Excel in Dafny

EasyOpenXml.Excel is a small C# library that edits `.xlsx` workbooks through the
OpenXML SDK, behind an API in the style of the old COM spreadsheet controls:

- open a book;
- select a sheet by position;
- take a range handle (`Pos`) over a rectangle of cells;
- read and write values and styles through it, copy and paste a cell, merge
  and colour ranges;
- set the print area, delete rows, set the calculation mode, export the shared
  formulas as CSV;
- save and close.

This project models the core of that library and proves properties of the model:

- A1 address conversion (`AddressConverter`);
- the range handle (`PosProxy`);
- the style de-duplication layer (`StyleSpec`, `StyleManager`);
- the workbook-level operations (`ExcelInternal`);
- the public facade (`ExcelDocument`).

The OpenXML tree is modelled as values:

- A worksheet is a `Worksheet` datatype: sheet data (rows of cells), the column
  definitions and the merge list.
- A stylesheet is a `Stylesheet` datatype.

They sit in mutable objects:

- `Sheet.WorksheetPart` holds one worksheet.
- `Document.Workbook` holds the sheets, the shared-string table, the
  stylesheet, the defined names, the calculation properties and the
  calculation-chain flag.

The classes of the library become Dafny classes whose methods change these
objects in place, each with a `modifies` frame:

- `Grid.PosProxy`;
- `StyleManagement.StyleManager`;
- `Internal.ExcelInternal`;
- `Facade.ExcelDocument`.

Each loop of the source becomes a `while` loop, proved against a function
that states its result:

- the column-letter conversions;
- the rectangle walks of `SetValue`, `ApplyStyle`, `ApplySnapshot` and
  `SetBackColor`;
- the three passes of `RowDelete`;
- the CSV export;
- the column-style caches.

Exceptions are modelled as a `Result`, or as an `Outcome` naming the .NET
exception type.

Modules, one per concern:

| module | file | models |
|---|---|---|
| `Common` | common.dfy | Result/Option, 32-bit bounds, decimal text, ordinal and case-insensitive comparison, `string.Split`/`Trim` |
| `Address` | address.dfy | `AddressConverter` |
| `Sheet`, `Document`, `Styles` | sheet.dfy, workbook.dfy, styles.dfy | the OpenXML elements the core touches |
| `CellOrder`, `ColumnStyles`, `CellValues`, `Colors`, `Grid` | cellorder.dfy … grid.dfy | `PosProxy` |
| `StyleSpec`, `StyleManagement` | stylespec.dfy, stylemanager.dfy | `StyleSpec`, `StyleManager` |
| `RowDeletion`, `Csv`, `PrintAreas`, `Internal` | rowdelete.dfy … excelinternal.dfy | `ExcelInternal` |
| `Facade` | exceldocument.dfy | `ExcelDocument` |

Behaviours of the code that the model reproduces as written:

- **Cell placement: two different orders.** `GetOrCreateCell` places a new
  cell by column, then row. `GetOrCreateCellWithStyle` places it by an ordinal
  comparison of the column letters, so `AA1` goes before `B1`
  (`CellOrder.InsertInOrderIsOrdinal`).
- **Column style: two lookups that can disagree.**
  - The cache takes, for each column, the last `<col>` element that covers
    it, and keeps `null` when that element has no style.
  - The span map takes the last styled span.
  - `ColumnStyles.CacheAndSpansDisagree` exhibits an input where they differ.
- **Fill equality is case-sensitive** on the colour text
  (`StyleSpec.FillEqualsIsCaseSensitive`).
- **Regex `$` accepts a final newline.** The A1 pattern accepts one trailing
  newline, as the .NET regex `$` does.
- **Column letters overflow silently.** `FromColumnLetters` folds the letters
  in unchecked `int` arithmetic:
  - letters past column 2147483647 wrap around;
  - the letters of columns 2^31 to 2^32 ("FXSHRXX" and on) give a value that
    is not positive, so the address is rejected
    (`Address.TryParseA1RejectsWrappedColumns`);
  - the letters of a column 2^32 further on address the same cell
    (`Address.TryParseA1AliasesWideColumns`).

## Model

Source paths are relative to the repository root.

| member | source | states |
|---|---|---|
| Address.ToColumnLetters | src/EasyOpenXml.Excel/Internals/AddressConverter.cs:33-49 | a column ≤ 0 is ArgumentOutOfRange; otherwise the bijective base-26 letters of the column |
| Address.LettersValueOfColumnLetters | src/EasyOpenXml.Excel/Internals/AddressConverter.cs:33-62 | reading the letters of a column back gives the column |
| Address.ColumnLettersOfLettersValue | src/EasyOpenXml.Excel/Internals/AddressConverter.cs:33-62 | every upper-case letter string is the letters of its own value |
| Address.ColumnLettersInjective | src/EasyOpenXml.Excel/Internals/AddressConverter.cs:33-49 | different columns have different letters |
| Address.ToColumnName | src/EasyOpenXml.Excel/Internals/AddressConverter.cs:110-121 | "" for a column ≤ 0, otherwise the same letters as ToColumnLetters |
| Address.FromColumnLetters | src/EasyOpenXml.Excel/Internals/AddressConverter.cs:51-62 | the loop computes ColumnNumber: 0 for empty text or a non-letter, otherwise the case-insensitive base-26 value wrapped to an `int` as the unchecked `n * 26 + d` steps leave it |
| Address.ColumnNumberIgnoresCase | src/EasyOpenXml.Excel/Internals/AddressConverter.cs:56 | upper- and lower-case letters give the same number |
| Address.ColumnNumberOfColumnLetters | src/EasyOpenXml.Excel/Internals/AddressConverter.cs:33-62 | FromColumnLetters inverts ToColumnLetters on every `int` column; past int.MaxValue it gives the column wrapped to an `int` |
| Address.ToA1 | src/EasyOpenXml.Excel/Internals/AddressConverter.cs:10-15 | fails, with ArgumentOutOfRange, exactly when the column is ≤ 0 |
| Address.MatchA1 | src/EasyOpenXml.Excel/Internals/AddressConverter.cs:8 | a match yields a non-empty ASCII-letter group and a non-empty digit group |
| Address.MatchOfLettersDigits | src/EasyOpenXml.Excel/Internals/AddressConverter.cs:24 | letters followed by digits match, with exactly those two groups |
| Address.ParseRowDigits | src/EasyOpenXml.Excel/Internals/AddressConverter.cs:28 | `int.TryParse` of the digit group succeeds iff its value is at most int.MaxValue, and then yields that value |
| Address.TryParseA1 | src/EasyOpenXml.Excel/Internals/AddressConverter.cs:17-31 | success gives 1 ≤ column ≤ int.MaxValue and 1 ≤ row ≤ int.MaxValue; empty text or no regex match gives false with both outputs 0 |
| Address.TryParseA1OfWideColumn | src/EasyOpenXml.Excel/Internals/AddressConverter.cs:10-62 | the A1 text of any positive column parses to the column wrapped to an `int`, accepted exactly when that value is positive |
| Address.TryParseA1OfToA1 | src/EasyOpenXml.Excel/Internals/AddressConverter.cs:10-31 | parsing the A1 text of a coordinate within `int` range gives that coordinate back |
| Address.TryParseA1RejectsWrappedColumns | src/EasyOpenXml.Excel/Internals/AddressConverter.cs:28-30 | the letters of any column from 2^31 to 2^32 wrap to a value that is not positive, so the text is rejected |
| Address.TryParseA1AliasesWideColumns | src/EasyOpenXml.Excel/Internals/AddressConverter.cs:51-62 | the letters of column c + 2^32 parse exactly as those of column c |
| Address.TryParseA1RejectsRowZero | src/EasyOpenXml.Excel/Internals/AddressConverter.cs:28-30 | "A0" is rejected, though its outputs are already set to column 1 and row 0 |
| Address.TryParseA1Range | src/EasyOpenXml.Excel/Internals/AddressConverter.cs:64-98 | success gives normalised corners with columns and rows in 1..int.MaxValue; failure sets all four outputs to 0; blank text fails |
| Address.RangeOfTwoParts | src/EasyOpenXml.Excel/Internals/AddressConverter.cs:69-95 | a text "a:b" parses as the min/max corners of the two cells, and fails if either does |
| Address.ToAbsoluteA1 | src/EasyOpenXml.Excel/Internals/AddressConverter.cs:100-108 | fails iff the column is ≤ 0; otherwise "$" + letters + "$" + row digits |
| Address.RemoveMarkersOfAbsolute | src/EasyOpenXml.Excel/Internals/AddressConverter.cs:100-108 | removing the "$" markers from an absolute address gives its A1 text |
| Address.TryParseA1RangeOfAbsolute | src/EasyOpenXml.Excel/Internals/AddressConverter.cs:64-108 | a range written with absolute addresses parses back to its normalised corners |
| Address.TryParseA1RangeOfCell | src/EasyOpenXml.Excel/Internals/AddressConverter.cs:74-82 | a single cell parses as the one-cell range |
| Address.TryParseA1RangeRejectsTrailingColon | src/EasyOpenXml.Excel/Internals/AddressConverter.cs:75-88 | "A1:" is rejected: the empty part is not dropped by the split |
| Sheet.RowPos | src/EasyOpenXml.Excel/Internals/PosProxy.cs:189 | the first row with the given index, or the row count when there is none |
| Sheet.RowInsertPos | src/EasyOpenXml.Excel/Internals/PosProxy.cs:197 | the first row whose index is greater, or the row count |
| Sheet.CellPos | src/EasyOpenXml.Excel/Internals/PosProxy.cs:204 | the first cell whose reference equals the given one ignoring case, or the cell count |
| Sheet.A1Distinct | src/EasyOpenXml.Excel/Internals/PosProxy.cs:203-204 | the A1 texts of two coordinates are equal ignoring case only if the coordinates are equal |
| Sheet.CanonicalMatches | src/EasyOpenXml.Excel/Internals/PosProxy.cs:204 | in a well-formed row, a cell matches a coordinate's reference iff it lies in that column |
| Sheet.RowsWithRowKeeps | src/EasyOpenXml.Excel/Internals/PosProxy.cs:396-411 | finding or inserting a row keeps the rows well-formed, returns the row's position and changes no cell or row-style lookup |
| Sheet.CellInAfterCellInsert | src/EasyOpenXml.Excel/Internals/PosProxy.cs:206-218 | inserting a new cell at a coordinate makes it the cell there and changes no other coordinate |
| Sheet.CellAtWellFormed | src/EasyOpenXml.Excel/Internals/PosProxy.cs:204 | in a well-formed sheet the cell found at a coordinate has exactly that coordinate's reference |
| Sheet.GetOrCreateRow | src/EasyOpenXml.Excel/Internals/PosProxy.cs:396-411 | the row with the index is found or inserted in order, its position returned, and well-formedness kept; ExcelInternal.cs:382-405 is a second copy |
| CellOrder.CompareCellReference | src/EasyOpenXml.Excel/Internals/PosProxy.cs:266-277 | result in {-1, 0, 1}; an empty first reference is -1; a non-empty first with an empty second is 1 |
| CellOrder.CompareCellReferenceAntisymmetric | src/EasyOpenXml.Excel/Internals/PosProxy.cs:266-277 | swapping two non-empty references negates the result |
| CellOrder.CompareA1 | src/EasyOpenXml.Excel/Internals/PosProxy.cs:266-277 | two coordinates compare by column first, then by row |
| CellOrder.CellInsertPos | src/EasyOpenXml.Excel/Internals/PosProxy.cs:213-214 | the first cell that compares greater than the new reference, or the cell count |
| CellOrder.CellInsertWellFormed | src/EasyOpenXml.Excel/Internals/PosProxy.cs:206-218 | inserting a missing cell there keeps the row well-formed (ordered by column) |
| CellOrder.LetterPrefixOfA1 | src/EasyOpenXml.Excel/Internals/PosProxy.cs:490 | the leading letters of an A1 text are the column letters |
| CellOrder.CompareCellRefByColumn | src/EasyOpenXml.Excel/Internals/PosProxy.cs:520-526 | 0 iff the two letter prefixes are equal |
| CellOrder.InsertInOrderPos | src/EasyOpenXml.Excel/Internals/PosProxy.cs:498-518 | an empty reference is appended; otherwise the first cell whose column letters compare greater, or the end |
| CellOrder.InsertInOrderIsOrdinal | src/EasyOpenXml.Excel/Internals/PosProxy.cs:498-526 | AA1 goes before B1 under the ordinal column comparison, breaking column order, where GetOrCreateCell would put it after |
| CellOrder.FindCellInRowByColumnIndex | src/EasyOpenXml.Excel/Internals/PosProxy.cs:477-496 | None for a column < 1; otherwise the first cell whose letter prefix equals the column's letters |
| CellOrder.ColumnCellPosAgrees | src/EasyOpenXml.Excel/Internals/PosProxy.cs:477-496 | in a well-formed row the lookup by column agrees with the lookup by reference |
| ColumnStyles.SpanOf | src/EasyOpenXml.Excel/Internals/PosProxy.cs:656-662 | a styled column becomes a span: min defaults to 1, max to min |
| ColumnStyles.StyledSpans | src/EasyOpenXml.Excel/Internals/PosProxy.cs:652-665 | the spans are exactly those of the styled columns |
| ColumnStyles.LastSpanStyleOfColumns | src/EasyOpenXml.Excel/Internals/PosProxy.cs:652-678 | the span lookup, stated on the `<col>` definitions: no style iff no styled definition covers the column, otherwise the style of the last styled definition in document order that covers it |
| ColumnStyles.NewColumnStyleIndexMap | src/EasyOpenXml.Excel/Internals/PosProxy.cs:642-666 | no columns element gives no spans; otherwise the loop yields StyledSpans |
| ColumnStyles.LastSpanStyle | src/EasyOpenXml.Excel/Internals/PosProxy.cs:668-678 | None iff no span covers the column; otherwise the style of the last covering span |
| ColumnStyles.TryGetStyleIndex | src/EasyOpenXml.Excel/Internals/PosProxy.cs:668-678 | the backwards loop computes LastSpanStyle |
| ColumnStyles.BuildColumnStyleCache | src/EasyOpenXml.Excel/Internals/PosProxy.cs:456-475 | the dictionary holds, for each covered column, the style of the last column element covering it |
| Grid.CacheLookup | src/EasyOpenXml.Excel/Internals/PosProxy.cs:450-454 | a lookup in the built cache gives the column's style, or null when absent |
| ColumnStyles.CacheAndSpansDisagree | src/EasyOpenXml.Excel/Internals/PosProxy.cs:456-475 | the cache and the span map give different styles for column 1 of a concrete column list |
| CellValues.TableAfter | src/EasyOpenXml.Excel/Internals/PosProxy.cs:128 | a shared-string write leaves its text in the table; existing entries keep their positions; at most one entry is added |
| CellValues.TableAfterIdempotent | src/EasyOpenXml.Excel/Internals/PosProxy.cs:128 | writing the same value twice adds nothing the second time |
| CellValues.WrittenCell | src/EasyOpenXml.Excel/Internals/PosProxy.cs:113-176 | a write keeps reference, style and formula; null clears value and type; strings become shared strings; other values are inline or boolean |
| CellValues.ReadCell | src/EasyOpenXml.Excel/Internals/PosProxy.cs:62-95 | a missing cell reads null; a shared string reads as text; a boolean reads as "1" |
| CellValues.ReadCellIgnoresStyle | src/EasyOpenXml.Excel/Internals/PosProxy.cs:62-95 | the style index never changes the value read |
| CellValues.ReadWrittenShared | src/EasyOpenXml.Excel/Internals/PosProxy.cs:62-176 | a value written as a shared string reads back as its display text |
| CellValues.ReadWrittenBool | src/EasyOpenXml.Excel/Internals/PosProxy.cs:62-176 | a boolean written reads back as the same boolean |
| CellValues.ReadWrittenNull | src/EasyOpenXml.Excel/Internals/PosProxy.cs:62-176 | null written reads back as null |
| CellValues.ReadWrittenNumber | src/EasyOpenXml.Excel/Internals/PosProxy.cs:62-176 | a number written reads back through the double parser, or as its text when the parser rejects it |
| CellValues.Capture | src/EasyOpenXml.Excel/Internals/PosProxy.cs:293-313 | a snapshot holds the value read, whether it was a shared string, and the style index (0 when none) |
| CellValues.PasteReadsBack | src/EasyOpenXml.Excel/Internals/PosProxy.cs:293-325 | pasting a non-numeric snapshot into any cell reads back as the captured value |
| Colors.ToArgbHex | src/EasyOpenXml.Excel/Internals/PosProxy.cs:534-541 | eight characters: two upper-case hex digits each for A, R, G, B; StyleManager.cs:445-452 is a second copy |
| Colors.ReadArgbHexOfToArgbHex | src/EasyOpenXml.Excel/Internals/PosProxy.cs:534-541 | the hex text reads back to the same colour |
| Colors.ToArgbHexInjective | src/EasyOpenXml.Excel/Internals/PosProxy.cs:534-541 | different colours have different hex texts |
| Grid.WithMergeProperties | src/EasyOpenXml.Excel/Internals/PosProxy.cs:355-361 | adding a merge reference keeps the existing list as a prefix, adds at most one entry, is idempotent and is a no-op when the reference is present |
| Grid.InferredStyleByCoordinates | src/EasyOpenXml.Excel/Internals/PosProxy.cs:413-448 | the style of a new cell is the row style, else the column style, else that of the left neighbour, else that of the cell above, else the template, stated by coordinates |
| Grid.WithStyledCellByCoordinates | src/EasyOpenXml.Excel/Internals/PosProxy.cs:228-264 | the coordinate gets the existing cell, or a new one with the inferred style; no other coordinate or row style changes |
| Grid.BaseStyleAtCoordinate | src/EasyOpenXml.Excel/Internals/PosProxy.cs:589-632 | the base style is the cell's own, else the column span's, else the row's, else 0 |
| Grid.PosProxy.Create | src/EasyOpenXml.Excel/Internals/PosProxy.cs:30-58 | null document or part is ArgumentNull; a coordinate ≤ 0 is ArgumentOutOfRange; otherwise a handle with normalised corners, the column span map of the worksheet, no column cache yet and template style 0 |
| Grid.PosProxy.GetOrCreateCell | src/EasyOpenXml.Excel/Internals/PosProxy.cs:178-221 | without create nothing changes and a missing cell gives null; with create the coordinate holds the found or new cell; nothing else changes; well-formedness kept |
| Grid.PosProxy.WriteCellValue | src/EasyOpenXml.Excel/Internals/PosProxy.cs:113-176 | the cell becomes WrittenCell of itself and the shared-string table grows as TableAfter |
| Grid.PosProxy.SetValue | src/EasyOpenXml.Excel/Internals/PosProxy.cs:97-111 | every cell of the rectangle holds the written value, every other cell is unchanged, well-formedness kept |
| Grid.PosProxy.ApplyStyle | src/EasyOpenXml.Excel/Internals/PosProxy.cs:279-291 | every cell of the rectangle gets the style index, every other cell is unchanged |
| Grid.PosProxy.GetValue | src/EasyOpenXml.Excel/Internals/PosProxy.cs:62-95 | the value read is ReadCell of the top-left cell; the sheet is unchanged |
| Grid.PosProxy.CaptureSnapshot | src/EasyOpenXml.Excel/Internals/PosProxy.cs:293-313 | the snapshot is Capture of the top-left cell; the sheet is unchanged |
| Grid.PosProxy.ApplySnapshot | src/EasyOpenXml.Excel/Internals/PosProxy.cs:315-325 | every cell of the rectangle gets the snapshot's value, and its style when that is not 0 |
| Grid.PasteCompose | src/EasyOpenXml.Excel/Internals/PosProxy.cs:315-325 | writing the value and then applying the style is the paste |
| Grid.PasteKeepsSnapshot | src/EasyOpenXml.Excel/Internals/PosProxy.cs:293-325 | capturing a pasted cell gives back the value, and the style when that was not 0 |
| Grid.PosProxy.Merge | src/EasyOpenXml.Excel/Internals/PosProxy.cs:327-365 | a one-cell range changes nothing; otherwise the range reference is added to the merge list once |
| Grid.PosProxy.MergeAligned | src/EasyOpenXml.Excel/Internals/PosProxy.cs:367-393 | the stylesheet is ensured, the range merged and the top-left cell created; nothing else changes |
| Grid.PosProxy.GetColumnStyleIndex | src/EasyOpenXml.Excel/Internals/PosProxy.cs:450-454 | the cache is built once and the result is the column's style from it |
| Grid.PosProxy.InferStyleIndexForNewCell | src/EasyOpenXml.Excel/Internals/PosProxy.cs:413-448 | the result is InferredStyle with the cached column style |
| Grid.PosProxy.GetOrCreateCellWithStyle | src/EasyOpenXml.Excel/Internals/PosProxy.cs:228-264 | no sheet data without create gives null; a coordinate < 1 is ArgumentOutOfRange; otherwise the rows become WithStyledCell; the column cache is built only when a new cell goes into a row without a style |
| Grid.PosProxy.ResolveBaseStyleIndex | src/EasyOpenXml.Excel/Internals/PosProxy.cs:589-632 | the result is BaseStyle of the cell |
| Grid.PosProxy.SetBackColor | src/EasyOpenXml.Excel/Internals/PosProxy.cs:700-734 | every cell of the rectangle (via EnumerateTargetCells, lines 549-577) gets the format of its base style with a solid fill of the colour, and at most one format is added per distinct base style; on ArgumentOutOfRange the walk stopped at a cell of the rectangle, with the cells before it recoloured and that cell created; in both cases the style table only grows and no cell outside the rectangle changes |
| Grid.WalkDone | src/EasyOpenXml.Excel/Internals/PosProxy.cs:700-734 | the finished walk has recoloured the whole rectangle |
| Grid.WalkStop | src/EasyOpenXml.Excel/Internals/PosProxy.cs:700-734 | a visit that fails after creating its cell leaves the walk stopped there, the earlier cells stamped with the grown memo |
| Grid.StoppedOutside | src/EasyOpenXml.Excel/Internals/PosProxy.cs:549-577 | wherever the walk stopped, no coordinate outside the rectangle changed |
| StyleSpec.NewFontSpec | src/EasyOpenXml.Excel/Internals/StyleSpec.cs:64-74 | a null name becomes ""; every other field is kept |
| StyleSpec.FontEquals | src/EasyOpenXml.Excel/Internals/StyleSpec.cs:81-84 | field-by-field equality is value equality |
| StyleSpec.FillEquals | src/EasyOpenXml.Excel/Internals/StyleSpec.cs:146 | equality of the colour text is value equality |
| StyleSpec.EdgeEquals | src/EasyOpenXml.Excel/Internals/StyleSpec.cs:208 | line and colour equality is value equality |
| StyleSpec.BorderEquals | src/EasyOpenXml.Excel/Internals/StyleSpec.cs:252-253 | four-edge equality is value equality |
| StyleSpec.AlignmentEquals | src/EasyOpenXml.Excel/Internals/StyleSpec.cs:325 | equality of H, V and WrapText is value equality |
| StyleSpec.NullableEquals | src/EasyOpenXml.Excel/Internals/StyleSpec.cs:386-387 | two absent values are equal; absent and present are not; two present compare by value |
| StyleSpec.StyleKeyEquals | src/EasyOpenXml.Excel/Internals/StyleSpec.cs:379-384 | key equality is value equality |
| StyleSpec.FillEqualsIsCaseSensitive | src/EasyOpenXml.Excel/Internals/StyleSpec.cs:146 | "FFFF0000" and "ffff0000" are different fills |
| Common.Wrap32 | src/EasyOpenXml.Excel/Internals/StyleSpec.cs:102-115 | the 32-bit result of the unchecked arithmetic: congruent modulo 2^32, identity within range |
| StyleSpec.StyleKeyHashConsistent | src/EasyOpenXml.Excel/Internals/StyleSpec.cs:379-401 | equal keys hash equally, for any string and double hash functions |
| StyleSpec.MixAllIsPolynomial | src/EasyOpenXml.Excel/Internals/StyleSpec.cs:102-115 | a chain of unchecked `h * 31 + v` steps equals the exact base-31 polynomial reduced to an `int` once, wherever the steps wrap |
| StyleSpec.FontHashIsPolynomial | src/EasyOpenXml.Excel/Internals/StyleSpec.cs:102-117 | the font hash is the polynomial of its eight fields seeded with 17, reduced to an `int` |
| StyleSpec.BorderHashIsPolynomial | src/EasyOpenXml.Excel/Internals/StyleSpec.cs:267-278 | the border hash is the polynomial of its four edge hashes seeded with 17, reduced to an `int` |
| StyleSpec.AlignmentHashIsPolynomial | src/EasyOpenXml.Excel/Internals/StyleSpec.cs:337-346 | the alignment hash is the polynomial of its fields (an absent one counting -1) seeded with 17, reduced to an `int` |
| StyleSpec.StyleKeyHashIsPolynomial | src/EasyOpenXml.Excel/Internals/StyleSpec.cs:391-403 | the style-key hash is the polynomial of its five parts seeded with 17, reduced to an `int` |
| StyleManagement.ToBorderStyle | src/EasyOpenXml.Excel/Internals/StyleManager.cs:354-370 | the OpenXML border style of each line kind, none for no line |
| StyleManagement.ToBorderStyleInjective | src/EasyOpenXml.Excel/Internals/StyleManager.cs:354-370 | different line kinds give different border styles |
| StyleManagement.BuildFont | src/EasyOpenXml.Excel/Internals/StyleManager.cs:177-227 | name only when non-empty, size only when positive, flags copied, colour only when rgb, theme or index is given |
| StyleManagement.BuildFill | src/EasyOpenXml.Excel/Internals/StyleManager.cs:228-265 | a solid pattern with the fill's colour |
| StyleManagement.BuildEdge | src/EasyOpenXml.Excel/Internals/StyleManager.cs:295-353 | the edge's style is ToBorderStyle of its line; colour only when non-empty |
| StyleManagement.BuildBorder | src/EasyOpenXml.Excel/Internals/StyleManager.cs:266-294 | each of the four edges is BuildEdge of its spec |
| StyleManagement.DeriveFormat | src/EasyOpenXml.Excel/Internals/StyleManager.cs:109-158 | each given component replaces the base's and sets its apply flag; absent ones keep the base's; alignment keeps the base's axes it does not set |
| StyleManagement.DeriveNothingIsCopy | src/EasyOpenXml.Excel/Internals/StyleManager.cs:109-158 | deriving with no component gives the base format |
| StyleManagement.CreateDefaultStylesheet | src/EasyOpenXml.Excel/Internals/StyleManager.cs:372-407 | one font, the none and gray125 fills, one border, one style format and one cell format, with matching counts |
| StyleManagement.EnsureCollections | src/EasyOpenXml.Excel/Internals/StyleManager.cs:408-436 | every collection present; fills padded to the two defaults and formats to one when short |
| StyleManagement.EnsureCollectionsIdempotent | src/EasyOpenXml.Excel/Internals/StyleManager.cs:408-436 | ensuring twice is ensuring once |
| StyleManagement.DefaultStylesheetIsEnsured | src/EasyOpenXml.Excel/Internals/StyleManager.cs:372-436 | the default stylesheet needs no ensuring |
| StyleManagement.StyleManager.constructor | src/EasyOpenXml.Excel/Internals/StyleManager.cs:61-80 | the workbook's stylesheet (or the default) is ensured; all caches empty |
| StyleManagement.StyleManager.GetOrCreateFontId | src/EasyOpenXml.Excel/Internals/StyleManager.cs:177-227 | a cached font returns its id; a new one is appended and cached; the id indexes BuildFont of the spec; other collections unchanged |
| StyleManagement.StyleManager.GetOrCreateFillId | src/EasyOpenXml.Excel/Internals/StyleManager.cs:228-265 | the same for fills |
| StyleManagement.StyleManager.GetOrCreateBorderId | src/EasyOpenXml.Excel/Internals/StyleManager.cs:266-294 | the same for borders |
| StyleManagement.StyleManager.GetOrCreateStyle | src/EasyOpenXml.Excel/Internals/StyleManager.cs:95-172 | a cached key returns its index unchanged; a base index out of range is ArgumentOutOfRange; otherwise one derived format is appended and cached; collections only grow |
| StyleManagement.StyleManager.AppendFormat | src/EasyOpenXml.Excel/Internals/StyleManager.cs:160-171 | the format is appended, the count updated and the key cached with the new index |
| Document.Workbook.GetOrAddString | src/EasyOpenXml.Excel/Internals/PosProxy.cs:128 | the text is interned; its index holds it |
| Document.Workbook.GetStringByIndexOrEmpty | src/EasyOpenXml.Excel/Internals/PosProxy.cs:75 | the entry at a valid index, otherwise "" |
| Document.InternedIndex | src/EasyOpenXml.Excel/Internals/PosProxy.cs:128 | interning keeps the index of every existing entry |
| RowDeletion.ClearSharedFormulas | src/EasyOpenXml.Excel/Internals/ExcelInternal.cs:194-208 | every shared formula loses its type, shared index and reference and keeps its text; nothing else changes |
| RowDeletion.RemoveBlock | src/EasyOpenXml.Excel/Internals/ExcelInternal.cs:210-218 | the rows whose index lies in the block are removed, the rest kept in order |
| RowDeletion.ShiftRows | src/EasyOpenXml.Excel/Internals/ExcelInternal.cs:220-241 | rows below the block move up by the count and their cell references are rewritten |
| RowDeletion.DeleteRowBlock | src/EasyOpenXml.Excel/Internals/ExcelInternal.cs:190-241 | the three passes compute DeleteRows; on a well-formed sheet they succeed and keep it well-formed |
| RowDeletion.NoSharedAfterDelete | src/EasyOpenXml.Excel/Internals/ExcelInternal.cs:194-208 | no shared formula remains after a deletion |
| RowDeletion.KeptLookups | src/EasyOpenXml.Excel/Internals/ExcelInternal.cs:194-218 | after the first two passes, coordinates in the block are empty and the others are unchanged apart from cleared formulas |
| RowDeletion.DeleteRowsWellFormed | src/EasyOpenXml.Excel/Internals/ExcelInternal.cs:175-250 | deleting from a well-formed sheet succeeds and leaves it well-formed |
| RowDeletion.DeleteRowsLookups | src/EasyOpenXml.Excel/Internals/ExcelInternal.cs:175-250 | above the block every cell and row style is unchanged; below it each coordinate holds what was count rows lower |
| Csv.EscapeCsv | src/EasyOpenXml.Excel/Internals/ExcelInternal.cs:407-414 | null is ""; a text is kept as is iff it needs no quoting |
| Csv.ReadQuotedOfDoubled | src/EasyOpenXml.Excel/Internals/ExcelInternal.cs:407-414 | a quoted field with doubled quotes reads back as the original text |
| Csv.ReadRecordOfEscaped | src/EasyOpenXml.Excel/Internals/ExcelInternal.cs:338-344 | a line of escaped fields reads back as the fields |
| Csv.DecimalNeedsNoQuote | src/EasyOpenXml.Excel/Internals/ExcelInternal.cs:340-341 | the row and column numbers are written unquoted |
| Csv.RecordOfCanonical | src/EasyOpenXml.Excel/Internals/ExcelInternal.cs:322-329 | a cell with a valid A1 reference is exported with its row and column |
| Csv.SheetRecordsMembers | src/EasyOpenXml.Excel/Internals/ExcelInternal.cs:316-345 | a sheet's records are exactly those of its shared-formula cells |
| Csv.RecordsAppend | src/EasyOpenXml.Excel/Internals/ExcelInternal.cs:305-346 | the records of two sheet lists are the concatenation of each list's records |
| Csv.CellLinesAreLines | src/EasyOpenXml.Excel/Internals/ExcelInternal.cs:320-345 | the text built cell by cell is the lines of the sheet's records |
| Csv.ViewsTextAreLines | src/EasyOpenXml.Excel/Internals/ExcelInternal.cs:305-346 | the text built sheet by sheet is the lines of all records |
| Csv.ExportViews | src/EasyOpenXml.Excel/Internals/ExcelInternal.cs:290-355 | the loop over sheets computes ExportText: header then one line per shared formula |
| Csv.SheetLines | src/EasyOpenXml.Excel/Internals/ExcelInternal.cs:320-345 | the loop over a sheet's cells computes its lines |
| PrintAreas.RemovePrintAreas | src/EasyOpenXml.Excel/Internals/ExcelInternal.cs:120-128 | the loop computes WithoutPrintArea |
| PrintAreas.WithoutPrintAreaMembers | src/EasyOpenXml.Excel/Internals/ExcelInternal.cs:120-128 | a name is kept iff it is not a print area of that sheet |
| PrintAreas.WithoutPrintAreaIdempotent | src/EasyOpenXml.Excel/Internals/ExcelInternal.cs:120-128 | removing twice is removing once |
| PrintAreas.SheetPosition | src/EasyOpenXml.Excel/Internals/ExcelInternal.cs:110-116 | the first sheet with the current name, or the sheet count |
| PrintAreas.PrintAreaFormula | src/EasyOpenXml.Excel/Internals/ExcelInternal.cs:130-133 | a null sheet name is NullReference; a column ≤ 0 is ArgumentOutOfRange; otherwise 'name'!$A$1:$B$2 with quotes doubled |
| PrintAreas.PrintAreaSingle | src/EasyOpenXml.Excel/Internals/ExcelInternal.cs:96-144 | success iff the sheet is found and the columns are valid; then the sheet has exactly one print area, the last name |
| PrintAreas.PrintAreaKeepsOthers | src/EasyOpenXml.Excel/Internals/ExcelInternal.cs:120-141 | every name other than the sheet's print areas is kept, in order |
| PrintAreas.PrintAreaIdempotent | src/EasyOpenXml.Excel/Internals/ExcelInternal.cs:96-144 | setting the same print area twice equals setting it once |
| PrintAreas.SetPrintAreaText | src/EasyOpenXml.Excel/Internals/ExcelInternal.cs:146-155 | blank or unparsable text is Argument and changes nothing |
| PrintAreas.PrintAreaTextAgrees | src/EasyOpenXml.Excel/Internals/ExcelInternal.cs:146-155 | the text overload on an area text equals the numeric overload on its normalised corners |
| PrintAreas.AreaTextReadsBack | src/EasyOpenXml.Excel/Internals/ExcelInternal.cs:132 | the absolute area text parses back to the normalised corners |
| Internal.ModeProperties | src/EasyOpenXml.Excel/Internals/ExcelInternal.cs:266-279 | full calculation on load is off; the mode is manual or automatic as asked |
| Internal.SheetManager.SelectByIndex | src/EasyOpenXml.Excel/Internals/ExcelInternal.cs:52 | a 0-based index in range is selected; otherwise ArgumentOutOfRange and no change |
| Internal.ExcelInternal.constructor | src/EasyOpenXml.Excel/Internals/ExcelInternal.cs:12-15 | closed, with no document, sheet manager or clipboard |
| Internal.ExcelInternal.OpenBook | src/EasyOpenXml.Excel/Internals/ExcelInternal.cs:19-36 | a package that cannot be opened gives -1 and no change; otherwise 0, open, with a fresh sheet manager on sheet 0 |
| Internal.ExcelInternal.CloseBook | src/EasyOpenXml.Excel/Internals/ExcelInternal.cs:38-48 | a closed book is left alone; an open one is saved when asked, then closed and released |
| Internal.ExcelInternal.SelectSheet | src/EasyOpenXml.Excel/Internals/ExcelInternal.cs:50-53 | no sheet manager is NullReference; otherwise as SelectByIndex |
| Internal.ExcelInternal.SheetNames | src/EasyOpenXml.Excel/Internals/ExcelInternal.cs:55-56 | the sheet names in order, "" for a missing name |
| Internal.ExcelInternal.Pos | src/EasyOpenXml.Excel/Internals/ExcelInternal.cs:61-69 | each failure of the sheet lookup or handle creation is reported; success gives a fresh handle on the current part with normalised corners, the part's column span map, no column cache yet and template style 0 |
| Internal.ExcelInternal.PosAt | src/EasyOpenXml.Excel/Internals/ExcelInternal.cs:58-59 | the one-cell handle, with the same span map, empty cache and template style as `Pos` |
| Internal.ExcelInternal.SetClipboard | src/EasyOpenXml.Excel/Internals/ExcelInternal.cs:86-89 | the clipboard holds the snapshot, and GetClipboard then returns it |
| Internal.ExcelInternal.GetClipboard | src/EasyOpenXml.Excel/Internals/ExcelInternal.cs:91-94 | the snapshot last set, or none; the constructor starts with none and opening, closing and disposing keep it |
| Internal.ExcelInternal.PrintArea | src/EasyOpenXml.Excel/Internals/ExcelInternal.cs:96-144 | the defined names become SetPrintArea of the old ones |
| Internal.ExcelInternal.PrintAreaText | src/EasyOpenXml.Excel/Internals/ExcelInternal.cs:146-155 | blank or unparsable text is Argument with no change; otherwise SetPrintAreaText |
| Internal.ExcelInternal.Dispose | src/EasyOpenXml.Excel/Internals/ExcelInternal.cs:283-288 | the document is released and the book closed; sheet manager and clipboard are kept |
| Internal.ExcelInternal.RemoveCalcChain | src/EasyOpenXml.Excel/Internals/ExcelInternal.cs:371-380 | the calculation chain is gone |
| Internal.ExcelInternal.EnsureRecalcOnOpen | src/EasyOpenXml.Excel/Internals/ExcelInternal.cs:357-369 | the calculation properties ask for full calculation on load |
| Internal.ExcelInternal.SetCalculationMode | src/EasyOpenXml.Excel/Internals/ExcelInternal.cs:251-282 | a closed book is InvalidOperation; otherwise the properties are ModeProperties of the mode |
| Internal.ExcelInternal.RowDelete | src/EasyOpenXml.Excel/Internals/ExcelInternal.cs:175-250 | argument errors first; no sheet data changes nothing; otherwise the rows become DeleteRows, the calc chain is removed and recalculation forced; other sheets unchanged |
| Internal.ExcelInternal.ExportSharedFormulasCsv | src/EasyOpenXml.Excel/Internals/ExcelInternal.cs:290-355 | a closed book is InvalidOperation; a blank path is Argument; otherwise the text written is ExportText of all sheets |
| Facade.ExcelDocument.constructor | src/EasyOpenXml.Excel/ExcelDocument.cs:9-10 | a closed internal object, not disposed |
| Facade.ExcelDocument.InitializeFile | src/EasyOpenXml.Excel/ExcelDocument.cs:12-21 | a fresh internal object; an unopenable package fails; the disposed flag is untouched |
| Facade.ExcelDocument.SheetSelect | src/EasyOpenXml.Excel/ExcelDocument.cs:23-27 | disposed is ObjectDisposed with no change; otherwise as SelectSheet |
| Facade.ExcelDocument.SheetNames | src/EasyOpenXml.Excel/ExcelDocument.cs:29-36 | disposed is ObjectDisposed; otherwise the sheet names |
| Facade.ExcelDocument.SetValueAt | src/EasyOpenXml.Excel/ExcelDocument.cs:38-41 | the one-cell SetValue |
| Facade.ExcelDocument.SetValue | src/EasyOpenXml.Excel/ExcelDocument.cs:43-48 | each failure is reported with nothing changed; on success the rectangle holds the value, all else unchanged |
| Facade.ExcelDocument.FinalizeFile | src/EasyOpenXml.Excel/ExcelDocument.cs:50-54 | disposed is ObjectDisposed with no change; otherwise CloseBook |
| Facade.ExcelDocument.Dispose | src/EasyOpenXml.Excel/ExcelDocument.cs:62-67 | idempotent; the first call disposes the internal object and sets the flag |

## Left out

- `SheetManager`, `SharedStringManager`, `Guards`, `CellWrapperProxy` and the
  `Pos`/`CellWrapper` models are not part of this model. The model assumes:
  - `SheetManager` selects by 0-based position, starts on sheet 0, throws
    ArgumentOutOfRange outside the range, and resolves the current part
    through the sheet's relationship.
  - `SharedStringManager` interns a string (append when absent).
  - `Guards.EnsureOpened` throws InvalidOperationException.
- File and package I/O are parameters or left out:
  - opening a package is a parameter (the workbook, or nothing when it
    cannot be opened);
  - saving, the package dispose, creating the output directory and writing
    the CSV file are left out;
  - `ExportSharedFormulasCsv` returns the text it would write;
  - `Worksheet.Save`/`Workbook.Save` calls have no effect in the model.
- Floating point is left out:
  - a number is kept as its invariant-culture text;
  - `double.TryParse` and DateTime-to-OADate are a `DoubleReader` parameter;
  - font sizes are `real`.
- The string and double hash functions used by the `GetHashCode` methods are
  parameters.
- `Cell(...)` accessors of `ExcelInternal` (lines 71-84) return `CellWrapper`
  objects, which are not part of this model.
- `WarmUpCaches` has an empty body in the source and is not modelled.
- `MergeAligned` does not model the alignment style: that part of the body is
  commented out in the source.
- `EnumerateTargetCells` is not a separate member. It is folded into the
  `SetBackColor` walk (`RecolorRows`/`RecolorRow`), which visits the same
  cells in the same order.
- Facade.ExcelDocument.InitializeFile: does not dispose the `ExcelInternal`
  it replaces; the source does not either, and the model does not track the
  leaked package.
- Grid.PosProxy.SetValue: requires the end corner below int.MaxValue, because
  the source's `col++`/`row++` walk overflows there.
- Grid.PosProxy.ApplyStyle: the same int.MaxValue bound on the end corner.
- Grid.PosProxy.ApplySnapshot: the same int.MaxValue bound on the end corner.
- Grid.PosProxy.SetBackColor: the same int.MaxValue bound on the end corner,
  and enough room for the new cell formats in a `uint` index.
- Facade.ExcelDocument.SetValue: the same int.MaxValue bound on all four
  coordinates.
- Facade.ExcelDocument.SetValueAt: the same int.MaxValue bound on both
  coordinates.
- ColumnStyles.BuildColumnStyleCache: requires that no column's `Max` is
  uint.MaxValue, where the source's loop counter would wrap.
  - `GetColumnStyleIndex` therefore requires it whenever the cache is not yet built.
  - `InferStyleIndexForNewCell` requires it only when the cache is unbuilt and the row has no style.
  - `GetOrCreateCellWithStyle` requires it only when, in addition, the cell does not exist yet (`ConsultsColumnCache`).
- StyleManagement.StyleManager.constructor: takes the workbook itself, so
  the `ArgumentNullException` for a null document and the
  `InvalidOperationException` for a missing `WorkbookPart`
  (StyleManager.cs:63-64) are not modelled. The first cannot fire, because the
  grid handle's constructor has already rejected a null document. The second
  belongs to the package layer, which is not part of this model.
- Address.ToA1: writes the row with an ASCII `-` for a negative number. The
  source calls the current culture's `row.ToString()`, whose negative sign
  can be another character (U+2212 in some cultures). Negative rows only
  reach it through the unchecked `(int)` cast of a shifted row in
  `RowDelete`.
- Csv.ExportViews: writes the row and column fields with an ASCII `-` for a
  negative number, where the source uses the current culture's `ToString()`.
  A negative column comes from letters past column 2^31 wrapping around.
- Address.FromColumnLetters: upper-cases ASCII letters only. .NET's
  `ToUpperInvariant` also maps a few other letters onto `A`-`Z` (the dotless
  `ı` becomes `I`, the long `ſ` becomes `S`); `TryParseA1`'s pattern lets none
  of them through.
- Address.TryParseA1: reads the digit group of `(\d+)` as ASCII digits. .NET's
  `\d` also matches other Unicode decimal digits, which `int.TryParse` then
  rejects. So on such text the source returns false with the column already
  set, while the model returns false with both outputs 0.
- CellOrder.LetterPrefix: takes the leading run of ASCII letters where the
  source takes `char.IsLetter` (PosProxy.cs:490, 520-526). A stored reference
  that begins with a non-ASCII letter, such as "É1", gets an empty prefix in
  the model but "É" in the source. This changes where `InsertCellInOrder`
  places a cell next to it and what `FindCellByColumnName` finds.
- Common.EqualsIgnoreCase: folds ASCII letters only, where
  `StringComparison.OrdinalIgnoreCase` also folds other letters. References
  the core writes are ASCII, so only stored references with other letters
  compare differently.
- Logging (`Logger.cs`) and the demo console are not modelled.

=== FILE: address.dfy ===
/**
 * The A1 address codec: 1-based column numbers as bijective base-26 letters
 * (A = 1 ... Z = 26, AA = 27), cell addresses such as "B12", ranges such as
 * "A1:D20" (tolerating absolute markers `$`) and absolute text such as "$A$1".
 */
module Address {
  import opened Common

  predicate IsUpperLetter(c: char) {
    'A' <= c <= 'Z'
  }

  /** The letters of the address grammar `[A-Za-z]`; also what `char.IsLetter` accepts on addresses. */
  predicate IsAsciiLetter(c: char) {
    'A' <= c <= 'Z' || 'a' <= c <= 'z'
  }

  predicate AllUpperLetters(s: string) {
    forall i :: 0 <= i < |s| ==> IsUpperLetter(s[i])
  }

  predicate AllAsciiLetters(s: string) {
    forall i :: 0 <= i < |s| ==> IsAsciiLetter(s[i])
  }

  function Letter(d: nat): (c: char)
    requires d < 26
    ensures IsUpperLetter(c)
  {
    ('A' as int + d) as char
  }

  // ---------------------------------------------------------------------------
  // Column letters
  // ---------------------------------------------------------------------------

  /** The bijective base-26 numeral of `n`; empty exactly for 0. */
  function ColumnLetters(n: nat): (s: string)
    ensures |s| == 0 <==> n == 0
    ensures AllUpperLetters(s)
  {
    if n == 0 then "" else ColumnLetters((n - 1) / 26) + [Letter((n - 1) % 26)]
  }

  /** The number a run of upper-case letters denotes in bijective base 26. */
  function LettersValue(s: string): nat
    requires AllUpperLetters(s)
  {
    if s == [] then 0 else LettersValue(s[..|s| - 1]) * 26 + (s[|s| - 1] as int - 'A' as int + 1)
  }

  /** Decoding the letters of a column number gives the number back. */
  lemma {:induction false} LettersValueOfColumnLetters(n: nat)
    ensures LettersValue(ColumnLetters(n)) == n
  {
    if n > 0 {
      var s := ColumnLetters(n);
      assert s[..|s| - 1] == ColumnLetters((n - 1) / 26);
      LettersValueOfColumnLetters((n - 1) / 26);
    }
  }

  /** Every run of upper-case letters is the numeral of exactly one number: the codec is a bijection. */
  lemma {:induction false} ColumnLettersOfLettersValue(s: string)
    requires AllUpperLetters(s)
    ensures ColumnLetters(LettersValue(s)) == s
  {
    if s != [] {
      var p := s[..|s| - 1];
      var d := s[|s| - 1] as int - 'A' as int;
      var v := LettersValue(s);
      assert v == LettersValue(p) * 26 + d + 1;
      assert (v - 1) / 26 == LettersValue(p);
      assert (v - 1) % 26 == d;
      ColumnLettersOfLettersValue(p);
      assert s == p + [s[|s| - 1]];
    }
  }

  /** Column letters are injective. */
  lemma ColumnLettersInjective(m: nat, n: nat)
    requires ColumnLetters(m) == ColumnLetters(n)
    ensures m == n
  {
    LettersValueOfColumnLetters(m);
    LettersValueOfColumnLetters(n);
  }

  /**
   * `ToColumnLetters` (AddressConverter.cs): throws for a non-positive column,
   * otherwise builds the letters right to left.
   */
  method ToColumnLetters(col: Int32) returns (r: Result<string>)
    ensures col <= 0 ==> r == Err(ArgumentOutOfRange)
    ensures col > 0 ==> r == Ok(ColumnLetters(col))
  {
    if col <= 0 {
      return Err(ArgumentOutOfRange);
    }
    var result := "";
    var n: int := col;
    while n > 0
      invariant 0 <= n
      invariant ColumnLetters(col) == ColumnLetters(n) + result
      decreases n
    {
      n := n - 1;
      var c := Letter(n % 26);
      result := [c] + result;
      n := n / 26;
    }
    assert ColumnLetters(n) == "";
    assert ColumnLetters(col) == result by {
      assert ColumnLetters(n) + result == result;
    }
    return Ok(result);
  }

  /** `ToColumnName`: the same letters as `ToColumnLetters`, but "" instead of throwing. */
  method ToColumnName(col: Int32) returns (s: string)
    ensures col <= 0 ==> s == ""
    ensures col > 0 ==> s == ColumnLetters(col)
  {
    var c: int := col;
    s := "";
    while c > 0
      invariant c <= 0 ==> s == ColumnLetters(if col > 0 then col else 0)
      invariant c > 0 ==> ColumnLetters(col) == ColumnLetters(c) + s
      decreases c
    {
      c := c - 1;
      s := [Letter(c % 26)] + s;
      c := c / 26;
    }
  }

  /**
   * What `FromColumnLetters` computes: 0 for empty text or any non-letter,
   * otherwise the case-insensitive base-26 value in unchecked `int`
   * arithmetic, so letters past column 2147483647 wrap around.
   */
  function ColumnNumber(letters: string): Int32 {
    if letters == [] || !AllAsciiLetters(letters) then 0
    else Wrap32(LettersValue(UpperString(letters)))
  }

  /** Letters are matched case-insensitively. */
  lemma ColumnNumberIgnoresCase(a: string, b: string)
    requires UpperString(a) == UpperString(b)
    ensures ColumnNumber(a) == ColumnNumber(b)
  {
    assert |a| == |b|;
    assert AllAsciiLetters(a) <==> AllAsciiLetters(b) by {
      forall i | 0 <= i < |a| ensures IsAsciiLetter(a[i]) <==> IsAsciiLetter(b[i]) {
        assert ToUpper(a[i]) == ToUpper(b[i]);
      }
    }
  }

  /**
   * `FromColumnLetters`: folds the upper-cased letters left to right and returns
   * 0 as soon as a character is not a letter.
   */
  method FromColumnLetters(letters: string) returns (n: Int32)
    ensures n == ColumnNumber(letters)
  {
    if letters == [] {
      return 0;
    }
    var upper := UpperString(letters);
    n := 0;
    var i := 0;
    while i < |upper|
      invariant 0 <= i <= |upper|
      invariant AllAsciiLetters(letters[..i])
      invariant AllUpperLetters(upper[..i])
      invariant n == Wrap32(LettersValue(upper[..i]))
    {
      var ch := upper[i];
      if ch < 'A' || ch > 'Z' {
        assert !IsAsciiLetter(letters[i]);
        return 0;
      }
      assert upper[..i + 1][..i] == upper[..i];
      Wrap32Step(LettersValue(upper[..i]), 26, ch as int - 'A' as int + 1);
      n := Wrap32(n * 26 + (ch as int - 'A' as int + 1));
      i := i + 1;
    }
    assert upper[..i] == upper;
    assert letters[..i] == letters;
  }

  /**
   * The letters of any positive column decode to that column as unchecked
   * `int` arithmetic leaves it: the column itself up to 2147483647, a
   * wrapped-around value past it.
   */
  lemma ColumnNumberOfColumnLetters(n: nat)
    requires n >= 1
    ensures ColumnNumber(ColumnLetters(n)) == Wrap32(n)
    ensures n <= INT_MAX ==> ColumnNumber(ColumnLetters(n)) == n
  {
    var s := ColumnLetters(n);
    assert UpperString(s) == s;
    LettersValueOfColumnLetters(n);
  }

  // ---------------------------------------------------------------------------
  // A1 text
  // ---------------------------------------------------------------------------

  /** `ToA1(col, row)`: column letters then `row.ToString()`; throws for a non-positive column. */
  function ToA1(col: int, row: int): (r: Result<string>)
    ensures r.Err? <==> col <= 0
    ensures r.Err? ==> r.error == ArgumentOutOfRange
  {
    if col <= 0 then Err(ArgumentOutOfRange) else Ok(ColumnLetters(col) + IntToDecimal(row))
  }

  /** Length of the leading run of ASCII letters. */
  function LetterRun(s: string): (k: nat)
    ensures k <= |s|
    ensures AllAsciiLetters(s[..k])
    ensures k < |s| ==> !IsAsciiLetter(s[k])
  {
    if s == [] || !IsAsciiLetter(s[0]) then 0 else 1 + LetterRun(s[1..])
  }

  lemma LetterRunOfConcat(a: string, b: string)
    requires AllAsciiLetters(a)
    requires b == [] || !IsAsciiLetter(b[0])
    ensures LetterRun(a + b) == |a|
  {
    if a != [] {
      assert (a + b)[1..] == a[1..] + b;
      LetterRunOfConcat(a[1..], b);
    }
  }

  /** The two groups of `^([A-Za-z]+)(\d+)` matched against the whole of `s`. */
  function SplitLettersDigits(s: string): (m: Option<(string, string)>)
    ensures m.Some? ==> m.value.0 + m.value.1 == s && m.value.0 != [] && m.value.1 != []
    ensures m.Some? ==> AllAsciiLetters(m.value.0) && AllDigits(m.value.1)
  {
    var k := LetterRun(s);
    if k == 0 || k == |s| || !AllDigits(s[k..]) then None else Some((s[..k], s[k..]))
  }

  /**
   * The .NET regular expression `^([A-Za-z]+)(\d+)$`. Its `$` also matches just
   * before a final line feed, so "A1\n" matches with the groups "A" and "1".
   */
  function MatchA1(s: string): (m: Option<(string, string)>)
    ensures m.Some? ==> m.value.0 != [] && m.value.1 != []
    ensures m.Some? ==> AllAsciiLetters(m.value.0) && AllDigits(m.value.1)
  {
    var whole := SplitLettersDigits(s);
    if whole.Some? then whole
    else if s != [] && s[|s| - 1] == '\n' then SplitLettersDigits(s[..|s| - 1])
    else None
  }

  /** `TryParseA1`: its return value and the two out values, which are set even when it returns false. */
  datatype A1Parse = A1Parse(ok: bool, col: Int32, row: Int32)

  /** `int.TryParse` of the digit group: fails exactly when the value overflows an `int`. */
  function ParseRowDigits(d: string): (r: Option<Int32>)
    requires AllDigits(d) && d != []
    ensures r.Some? <==> DecimalValue(d) <= INT_MAX
    ensures r.Some? ==> r.value == DecimalValue(d)
  {
    if DecimalValue(d) <= INT_MAX then Some(DecimalValue(d)) else None
  }

  /**
   * `TryParseA1`: rejects empty text, text that is not letters then digits,
   * an overflowing row, a column that is not positive (zero, or letters whose
   * value wrapped negative) or a zero row. On rejection after a match the out
   * values hold the column and the row parsed so far.
   */
  function TryParseA1(a1: string): (p: A1Parse)
    ensures p.ok ==> 1 <= p.col <= INT_MAX && 1 <= p.row <= INT_MAX
    ensures a1 == [] ==> p == A1Parse(false, 0, 0)
    ensures MatchA1(a1).None? ==> p == A1Parse(false, 0, 0)
  {
    if a1 == [] then A1Parse(false, 0, 0)
    else
      var m := MatchA1(a1);
      if m.None? then A1Parse(false, 0, 0)
      else
        var col := ColumnNumber(m.value.0);
        var row := ParseRowDigits(m.value.1);
        if row.None? then A1Parse(false, col, 0)
        else A1Parse(col > 0 && row.value > 0, col, row.value)
  }

  /** Letters followed by digits match the A1 pattern with exactly those two groups. */
  lemma MatchOfLettersDigits(l: string, d: string)
    requires l != [] && AllAsciiLetters(l) && d != [] && AllDigits(d)
    ensures MatchA1(l + d) == Some((l, d))
  {
    var s := l + d;
    LetterRunOfConcat(l, d);
    assert s[..|l|] == l && s[|l|..] == d;
  }

  /**
   * The A1 text of any positive column and `int` row parses back to the
   * column as unchecked arithmetic leaves it, accepted exactly when that
   * value is positive.
   */
  lemma TryParseA1OfWideColumn(col: int, row: int)
    requires col >= 1 && 1 <= row <= INT_MAX
    ensures TryParseA1(ToA1(col, row).value) == A1Parse(Wrap32(col) > 0, Wrap32(col), row)
  {
    var letters := ColumnLetters(col);
    var digits := NatToDecimal(row);
    assert ToA1(col, row).value == letters + digits;
    assert AllAsciiLetters(letters) by { assert AllUpperLetters(letters); }
    var s := letters + digits;
    MatchOfLettersDigits(letters, digits);
    ColumnNumberOfColumnLetters(col);
    DecimalValueOfNatToDecimal(row);
    assert s != [] && MatchA1(s) == Some((letters, digits));
    assert ParseRowDigits(digits) == Some(row);
  }

  /** The A1 text of a cell parses back to exactly its column and row. */
  lemma TryParseA1OfToA1(col: int, row: int)
    requires 1 <= col <= INT_MAX && 1 <= row <= INT_MAX
    ensures TryParseA1(ToA1(col, row).value) == A1Parse(true, col, row)
  {
    TryParseA1OfWideColumn(col, row);
  }

  /**
   * Past the `int` range the column letters wrap: the letters of columns
   * 2147483648 ("FXSHRXX") to 2^32 give a value that is not positive, so
   * the text is rejected.
   */
  lemma TryParseA1RejectsWrappedColumns(col: int, row: int)
    requires INT_MAX < col <= TWO_32 && 1 <= row <= INT_MAX
    ensures !TryParseA1(ToA1(col, row).value).ok
  {
    TryParseA1OfWideColumn(col, row);
    Wrap32OfUnsignedRange(col);
  }

  /** The letters of a column 2^32 further on are read as the same cell as those of the column itself. */
  lemma TryParseA1AliasesWideColumns(col: int, row: int)
    requires col >= 1 && 1 <= row <= INT_MAX
    ensures TryParseA1(ToA1(col + TWO_32, row).value) == TryParseA1(ToA1(col, row).value)
  {
    TryParseA1OfWideColumn(col, row);
    TryParseA1OfWideColumn(col + TWO_32, row);
    Wrap32Periodic(col);
  }

  /** "A0" is rejected, yet leaves the parsed column in the out value. */
  lemma TryParseA1RejectsRowZero()
    ensures TryParseA1("A0") == A1Parse(false, 1, 0)
  {
    assert LetterRun("A0") == 1 by {
      assert "A0"[1..] == "0";
    }
    assert "A0"[..1] == "A" && "A0"[1..] == "0";
    assert DecimalValue("0") == 0 by {
      assert "0"[..0] == "";
    }
    assert UpperString("A") == "A";
    assert LettersValue("A") == 1 by {
      assert "A"[..0] == "";
    }
  }

  // ---------------------------------------------------------------------------
  // Ranges and absolute addresses
  // ---------------------------------------------------------------------------

  /** `TryParseA1Range`: its return value and the four out values. */
  datatype RangeParse = RangeParse(ok: bool, sx: int, sy: int, ex: int, ey: int)

  const RangeRejected := RangeParse(false, 0, 0, 0, 0)

  function Min(a: int, b: int): int { if a <= b then a else b }
  function Max(a: int, b: int): int { if a <= b then b else a }

  /**
   * `TryParseA1Range`: trims, removes every `$`, splits on `:`; one part is a
   * single cell, two parts are normalised to min/max, anything else fails with
   * all four outputs 0.
   */
  function TryParseA1Range(text: string): (r: RangeParse)
    ensures r.ok ==> 1 <= r.sx <= r.ex <= INT_MAX && 1 <= r.sy <= r.ey <= INT_MAX
    ensures !r.ok ==> r == RangeRejected
    ensures IsBlank(text) ==> !r.ok
  {
    if IsBlank(text) then RangeRejected
    else
      var t := RemoveAll(Trim(text), '$');
      var parts := Split(t, ':');
      if |parts| == 1 then
        var p := TryParseA1(parts[0]);
        if !p.ok then RangeRejected else RangeParse(true, p.col, p.row, p.col, p.row)
      else if |parts| == 2 then
        var p1 := TryParseA1(parts[0]);
        var p2 := TryParseA1(parts[1]);
        if !p1.ok || !p2.ok then RangeRejected
        else RangeParse(true, Min(p1.col, p2.col), Min(p1.row, p2.row), Max(p1.col, p2.col), Max(p1.row, p2.row))
      else RangeRejected
  }

  /** `ToAbsoluteA1`: `$`, the leading letters of the A1 text, `$`, the rest. */
  function ToAbsoluteA1(col: int, row: int): (r: Result<string>)
    ensures r.Err? <==> col <= 0
    ensures col > 0 ==> r == Ok("$" + ColumnLetters(col) + "$" + IntToDecimal(row))
  {
    var a1 := ToA1(col, row);
    if a1.Err? then Err(a1.error)
    else
      var k := LetterRun(a1.value);
      assert k == |ColumnLetters(col)| by {
        LetterRunOfConcat(ColumnLetters(col), IntToDecimal(row));
      }
      Ok("$" + a1.value[..k] + "$" + a1.value[k..])
  }

  /** A range text that needs no trimming and whose markers removed leave one `:` is parsed part by part. */
  lemma RangeOfTwoParts(text: string, a: string, b: string)
    requires !IsBlank(text) && Trim(text) == text
    requires RemoveAll(text, '$') == a + [':'] + b && ':' !in a && ':' !in b
    ensures var p1, p2 := TryParseA1(a), TryParseA1(b);
      TryParseA1Range(text)
        == if !p1.ok || !p2.ok then RangeRejected
           else RangeParse(true, Min(p1.col, p2.col), Min(p1.row, p2.row), Max(p1.col, p2.col), Max(p1.row, p2.row))
  {
    SplitAtSingle(a, b, ':');
  }

  lemma TrimOfAddress(s: string)
    requires s != [] && !IsWhiteSpace(s[0]) && !IsWhiteSpace(s[|s| - 1])
    ensures Trim(s) == s
  {
  }

  lemma RemoveAllConcat(a: string, b: string, c: char)
    ensures RemoveAll(a + b, c) == RemoveAll(a, c) + RemoveAll(b, c)
  {
    if a != [] {
      assert (a + b)[0] == a[0];
      assert (a + b)[1..] == a[1..] + b;
      RemoveAllConcat(a[1..], b, c);
    } else {
      assert a + b == b;
    }
  }

  lemma SplitAtSingle(a: string, b: string, c: char)
    requires c !in a && c !in b
    ensures Split(a + [c] + b, c) == [a, b]
  {
    var s := a + [c] + b;
    assert s[..|a|] == a;
    assert s[|a| + 1..] == b;
    assert c in s by { assert s[|a|] == c; }
    assert s[|a|] == c;
    assert IndexOf(s, c) == |a|;
  }

  lemma NoMarkersInA1(col: int, row: int)
    requires col >= 1 && row >= 1
    ensures '$' !in ToA1(col, row).value && ':' !in ToA1(col, row).value
    ensures ToA1(col, row).value != [] && IsUpperLetter(ToA1(col, row).value[0])
    ensures IsDigit(ToA1(col, row).value[|ToA1(col, row).value| - 1])
  {
    var l, d := ColumnLetters(col), NatToDecimal(row);
    assert ToA1(col, row).value == l + d;
    assert AllUpperLetters(l) && AllDigits(d);
  }

  lemma RemoveMarkers(l: string, d: string)
    requires '$' !in l && '$' !in d
    ensures RemoveAll("$" + l + "$" + d, '$') == l + d
  {
    assert RemoveAll("$", '$') == "" by { assert "$"[1..] == ""; }
    RemoveAllConcat("$", l, '$');
    assert RemoveAll("$" + l, '$') == l;
    RemoveAllConcat("$" + l, "$", '$');
    assert RemoveAll("$" + l + "$", '$') == l;
    RemoveAllConcat("$" + l + "$", d, '$');
  }

  /** Removing the `$` markers from absolute text gives the plain A1 text. */
  lemma RemoveMarkersOfAbsolute(col: int, row: int)
    requires col >= 1 && row >= 1
    ensures RemoveAll(ToAbsoluteA1(col, row).value, '$') == ToA1(col, row).value
  {
    var l, d := ColumnLetters(col), NatToDecimal(row);
    assert ToAbsoluteA1(col, row).value == "$" + l + "$" + d;
    assert '$' !in l by { assert AllUpperLetters(l); }
    assert '$' !in d by { assert AllDigits(d); }
    RemoveMarkers(l, d);
  }

  /** The absolute text of a cell: starts with `$`, ends with a digit, and is its A1 text once the markers are removed. */
  lemma AbsoluteText(col: int, row: int)
    requires col >= 1 && 1 <= row
    ensures var x, a := ToAbsoluteA1(col, row).value, ToA1(col, row).value;
      && x != [] && x[0] == '$' && IsDigit(x[|x| - 1])
      && RemoveAll(x, '$') == a && ':' !in a
  {
    var l, d := ColumnLetters(col), NatToDecimal(row);
    var x := ToAbsoluteA1(col, row).value;
    assert x == "$" + l + "$" + d;
    assert x[|x| - 1] == d[|d| - 1];
    RemoveMarkersOfAbsolute(col, row);
    NoMarkersInA1(col, row);
  }

  /** Joining two texts with `:`: markers are removed from each side, and untrimmed ends stay untrimmed. */
  lemma JoinedText(x: string, y: string)
    requires x != [] && x[0] == '$' && y != [] && IsDigit(y[|y| - 1])
    ensures var text := x + ":" + y;
      && !IsBlank(text) && Trim(text) == text
      && RemoveAll(text, '$') == RemoveAll(x, '$') + [':'] + RemoveAll(y, '$')
  {
    var text := x + ":" + y;
    assert text[0] == '$' && text[|text| - 1] == y[|y| - 1];
    assert !IsWhiteSpace(text[0]);
    TrimOfAddress(text);
    RemoveAllConcat(x + ":", y, '$');
    RemoveAllConcat(x, ":", '$');
    assert RemoveAll(":", '$') == [':'] by { assert ":"[1..] == []; }
  }

  /**
   * The text `ToAbsoluteA1(sx, sy) + ":" + ToAbsoluteA1(ex, ey)` parses back as a
   * range normalised to min/max: what a print area is written with is what a
   * print-area range is read with.
   */
  lemma TryParseA1RangeOfAbsolute(c1: int, r1: int, c2: int, r2: int)
    requires 1 <= c1 <= INT_MAX && 1 <= c2 <= INT_MAX && 1 <= r1 <= INT_MAX && 1 <= r2 <= INT_MAX
    ensures TryParseA1Range(ToAbsoluteA1(c1, r1).value + ":" + ToAbsoluteA1(c2, r2).value)
         == RangeParse(true, Min(c1, c2), Min(r1, r2), Max(c1, c2), Max(r1, r2))
  {
    var x := ToAbsoluteA1(c1, r1).value;
    var y := ToAbsoluteA1(c2, r2).value;
    AbsoluteText(c1, r1);
    AbsoluteText(c2, r2);
    JoinedText(x, y);
    RangeOfTwoParts(x + ":" + y, ToA1(c1, r1).value, ToA1(c2, r2).value);
    TryParseA1OfToA1(c1, r1);
    TryParseA1OfToA1(c2, r2);
  }

  /** The A1 text of one cell parses as the single-cell range of that cell. */
  lemma TryParseA1RangeOfCell(col: int, row: int)
    requires 1 <= col <= INT_MAX && 1 <= row <= INT_MAX
    ensures TryParseA1Range(ToA1(col, row).value) == RangeParse(true, col, row, col, row)
  {
    var a := ToA1(col, row).value;
    var l, d := ColumnLetters(col), NatToDecimal(row);
    assert a == l + d;
    assert !IsBlank(a) by { assert !IsWhiteSpace(a[0]); }
    TrimOfAddress(a);
    assert '$' !in a by { assert AllUpperLetters(l) && AllDigits(d); }
    assert ':' !in a by { assert AllUpperLetters(l) && AllDigits(d); }
    TryParseA1OfToA1(col, row);
  }

  /** A range text with a trailing separator, such as "A1:", is rejected. */
  lemma TryParseA1RangeRejectsTrailingColon(col: int, row: int)
    requires 1 <= col <= INT_MAX && 1 <= row <= INT_MAX
    ensures TryParseA1Range(ToA1(col, row).value + ":") == RangeRejected
  {
    var a := ToA1(col, row).value;
    var text := a + ":";
    NoMarkersInA1(col, row);
    assert !IsWhiteSpace(text[0]);
    TrimOfAddress(text);
    assert '$' !in text;
    assert a + [':'] + "" == text;
    RangeOfTwoParts(text, a, "");
  }
}

=== FILE: cellorder.dfy ===
/**
 * How the grid orders and finds cells within a row: the numeric
 * (column, row) comparison `GetOrCreateCell` inserts by, the ordinal
 * comparison of column letters `InsertCellInOrder` inserts by, and the
 * letter-prefix search `FindCellInRowByColumnIndex`.
 *
 * On a well-formed row the numeric insertion keeps the row well-formed and
 * the letter-prefix search finds the same cell as the reference search; the
 * ordinal insertion does not keep the order once columns have different
 * numbers of letters ("AA" sorts before "B").
 */
module CellOrder {
  import opened Common
  import opened Address
  import opened Sheet

  predicate NonEmpty(s: Option<string>) {
    s.Some? && s.value != ""
  }

  // ---------------------------------------------------------------------------
  // Numeric order (GetOrCreateCell)
  // ---------------------------------------------------------------------------

  /**
   * `CompareCellReference`: an absent or empty left reference sorts first,
   * then an absent or empty right one; otherwise by the column `TryParseA1`
   * leaves in its out value, then by the row (a reference that does not
   * parse counts with the out values it leaves, 0 when nothing matched).
   */
  function CompareCellReference(a: Option<string>, b: Option<string>): (r: int)
    ensures r == -1 || r == 0 || r == 1
    ensures !NonEmpty(a) ==> r == -1
    ensures NonEmpty(a) && !NonEmpty(b) ==> r == 1
  {
    if !NonEmpty(a) then -1
    else if !NonEmpty(b) then 1
    else
      var pa := TryParseA1(a.value);
      var pb := TryParseA1(b.value);
      var c := CompareInt(pa.col, pb.col);
      if c != 0 then c else CompareInt(pa.row, pb.row)
  }

  /** Between two present references the comparison is antisymmetric. */
  lemma CompareCellReferenceAntisymmetric(a: string, b: string)
    requires a != "" && b != ""
    ensures CompareCellReference(Some(a), Some(b)) == -CompareCellReference(Some(b), Some(a))
  {
  }

  /** Between canonical references the comparison is the (column, row) order. */
  lemma CompareA1(c1: int, r1: int, c2: int, r2: int)
    requires IsCoord(c1, r1) && IsCoord(c2, r2)
    ensures CompareCellReference(Some(A1(c1, r1)), Some(A1(c2, r2))) > 0 <==> c1 > c2 || (c1 == c2 && r1 > r2)
  {
    TryParseA1OfToA1(c1, r1);
    TryParseA1OfToA1(c2, r2);
  }

  /** A canonical cell of row `row` sorts after (`col`, `row`) exactly when its column is greater. */
  lemma CompareCanonical(c: Cell, col: int, row: int)
    requires IsCoord(col, row) && CanonicalCell(c, row)
    ensures CompareCellReference(c.reference, Some(A1(col, row))) > 0 <==> ColumnOf(c) > col
  {
    var p := TryParseA1(c.reference.value);
    assert c.reference.value == A1(p.col, row);
    CompareA1(p.col, row, col, row);
  }

  /** Where `GetOrCreateCell` inserts a new cell: before the first cell that compares greater, or at the end. */
  function CellInsertPos(cells: seq<Cell>, reference: string): (k: nat)
    ensures k <= |cells|
    ensures k < |cells| ==> CompareCellReference(cells[k].reference, Some(reference)) > 0
    ensures forall j :: 0 <= j < k ==> CompareCellReference(cells[j].reference, Some(reference)) <= 0
  {
    if cells == [] then 0
    else if CompareCellReference(cells[0].reference, Some(reference)) > 0 then 0
    else 1 + CellInsertPos(cells[1..], reference)
  }

  /** Inserting a cell between the cells of smaller and of greater column keeps the cells ascending by column. */
  lemma InsertAscending(cells: seq<Cell>, at: nat, x: Cell)
    requires at <= |cells| && x.reference.Some? && forall i :: 0 <= i < |cells| ==> cells[i].reference.Some?
    requires forall i, j :: 0 <= i < j < |cells| ==> ColumnOf(cells[i]) < ColumnOf(cells[j])
    requires forall i :: 0 <= i < at ==> ColumnOf(cells[i]) < ColumnOf(x)
    requires at < |cells| ==> ColumnOf(x) < ColumnOf(cells[at])
    ensures var r := InsertAt(cells, at, x);
      forall i, j :: 0 <= i < j < |r| ==> ColumnOf(r[i]) < ColumnOf(r[j])
  {
    var r := InsertAt(cells, at, x);
    forall i, j | 0 <= i < j < |r|
      ensures ColumnOf(r[i]) < ColumnOf(r[j])
    {
      if j == at {
        assert r[i] == cells[i];
      } else if i == at {
        assert r[j] == cells[j - 1];
        assert j - 1 == at || ColumnOf(cells[at]) < ColumnOf(cells[j - 1]);
      } else if i > at {
        assert r[i] == cells[i - 1] && r[j] == cells[j - 1];
      } else if j > at {
        assert r[i] == cells[i] && r[j] == cells[j - 1];
      }
    }
  }

  /** Inserting a missing cell where `GetOrCreateCell` inserts it keeps a well-formed row well-formed. */
  lemma CellInsertWellFormed(cells: seq<Cell>, col: int, row: int)
    requires IsCoord(col, row) && CellsWellFormed(cells, row)
    requires CellPos(cells, A1(col, row)) == |cells|
    ensures CellsWellFormed(InsertAt(cells, CellInsertPos(cells, A1(col, row)), NewCell(A1(col, row))), row)
  {
    var at := CellInsertPos(cells, A1(col, row));
    var x := NewCell(A1(col, row));
    var r := InsertAt(cells, at, x);
    CanonicalOfA1(col, row);
    assert ColumnOf(x) == col;
    forall i | 0 <= i < |cells|
      ensures ColumnOf(cells[i]) != col
      ensures CompareCellReference(cells[i].reference, Some(A1(col, row))) > 0 <==> ColumnOf(cells[i]) > col
    {
      CanonicalMatches(cells[i], col, row);
      CompareCanonical(cells[i], col, row);
    }
    forall i | 0 <= i < |r|
      ensures CanonicalCell(r[i], row)
    {
      if i != at {
        assert r[i] == cells[if i < at then i else i - 1];
      }
    }
    InsertAscending(cells, at, x);
  }

  // ---------------------------------------------------------------------------
  // Column letters (InsertCellInOrder, FindCellInRowByColumnIndex)
  // ---------------------------------------------------------------------------

  /** The leading letters of a reference: "BC12" gives "BC". */
  function LetterPrefix(s: string): (p: string)
    ensures AllAsciiLetters(p) && p <= s
  {
    s[..LetterRun(s)]
  }

  /** The letters of a canonical reference are the column's letters. */
  lemma LetterPrefixOfA1(col: int, row: int)
    requires IsCoord(col, row)
    ensures LetterPrefix(A1(col, row)) == ColumnLetters(col)
  {
    var letters := ColumnLetters(col);
    var digits := NatToDecimal(row);
    assert A1(col, row) == letters + digits;
    assert AllAsciiLetters(letters) by {
      assert forall i :: 0 <= i < |letters| ==> IsUpperLetter(letters[i]);
    }
    LetterRunOfConcat(letters, digits);
    assert (letters + digits)[..|letters|] == letters;
  }

  /** `CompareCellRefByColumn`: the ordinal comparison of the leading letters, ignoring the rows. */
  function CompareCellRefByColumn(a: string, b: string): (r: int)
    ensures r == 0 <==> LetterPrefix(a) == LetterPrefix(b)
  {
    OrdinalCompare(LetterPrefix(a), LetterPrefix(b))
  }

  /**
   * Where `InsertCellInOrder` puts a new cell: appended when its reference is
   * empty, otherwise before the first cell with a non-empty reference whose
   * letters compare ordinally greater.
   */
  function InsertInOrderPos(cells: seq<Cell>, newRef: Option<string>): (k: nat)
    ensures k <= |cells|
    ensures !NonEmpty(newRef) ==> k == |cells|
    ensures NonEmpty(newRef) && k < |cells| ==>
      NonEmpty(cells[k].reference) && CompareCellRefByColumn(cells[k].reference.value, newRef.value) > 0
    ensures NonEmpty(newRef) ==> forall j :: 0 <= j < k ==>
      !(NonEmpty(cells[j].reference) && CompareCellRefByColumn(cells[j].reference.value, newRef.value) > 0)
  {
    if !NonEmpty(newRef) || cells == [] then |cells|
    else if NonEmpty(cells[0].reference) && CompareCellRefByColumn(cells[0].reference.value, newRef.value) > 0 then 0
    else 1 + InsertInOrderPos(cells[1..], newRef)
  }

  /** The references of columns 2 and 27 in row 1, their letters and how they parse. */
  lemma ExampleReferences()
    ensures A1(2, 1) == "B1" && A1(27, 1) == "AA1"
    ensures LetterPrefix("B1") == "B" && LetterPrefix("AA1") == "AA"
    ensures TryParseA1("B1") == A1Parse(true, 2, 1) && TryParseA1("AA1") == A1Parse(true, 27, 1)
  {
    assert LetterRun("B1") == 1 by { assert "B1"[1..] == "1"; }
    assert LetterRun("AA1") == 2 by { assert "AA1"[1..] == "A1"; assert "A1"[1..] == "1"; }
    assert A1(2, 1) == "B1" by { assert ColumnLetters(2) == "B"; }
    assert A1(27, 1) == "AA1" by {
      assert ColumnLetters(1) == "A";
      assert ColumnLetters(27) == ColumnLetters(1) + "A";
    }
    TryParseA1OfToA1(2, 1);
    TryParseA1OfToA1(27, 1);
  }

  /**
   * The ordinal order is not the column order: in row 1 holding "B1", the new
   * cell "AA1" (column 27) is put before "B1" (column 2), which leaves the row
   * out of column order, while the numeric order puts it after.
   */
  lemma InsertInOrderIsOrdinal()
    ensures InsertInOrderPos([NewCell("B1")], Some("AA1")) == 0
    ensures CellInsertPos([NewCell("B1")], "AA1") == 1
    ensures !CellsWellFormed(InsertAt([NewCell("B1")], 0, NewCell("AA1")), 1)
  {
    ExampleReferences();
    assert OrdinalCompare("B", "AA") == 1;
    assert CompareCellReference(Some("B1"), Some("AA1")) == -1;
    assert [NewCell("B1")][1..] == [];
    var r := InsertAt([NewCell("B1")], 0, NewCell("AA1"));
    assert r[0] == NewCell("AA1") && r[1] == NewCell("B1");
    assert ColumnOf(r[0]) == 27 && ColumnOf(r[1]) == 2;
  }

  /** A cell whose non-empty reference starts with exactly the letters `colName`. */
  predicate InColumn(c: Cell, colName: string) {
    NonEmpty(c.reference) && LetterPrefix(c.reference.value) == colName
  }

  /** Position of the first cell in column `colName` by its letters, or `|cells|`. */
  function ColumnCellPos(cells: seq<Cell>, colName: string): (k: nat)
    ensures k <= |cells|
    ensures k < |cells| ==> InColumn(cells[k], colName)
    ensures forall j :: 0 <= j < k ==> !InColumn(cells[j], colName)
  {
    if cells == [] then 0
    else if InColumn(cells[0], colName) then 0
    else 1 + ColumnCellPos(cells[1..], colName)
  }

  /**
   * `FindCellInRowByColumnIndex`: nothing for a column below 1; otherwise the
   * first cell whose leading letters are the column's name.
   */
  method FindCellInRowByColumnIndex(cells: seq<Cell>, col: Int32) returns (r: Option<Cell>)
    ensures col < 1 ==> r.None?
    ensures col >= 1 ==> var k := ColumnCellPos(cells, ColumnLetters(col));
      r == if k < |cells| then Some(cells[k]) else None
  {
    if col < 1 {
      return None;
    }
    var colName := ToColumnName(col);
    var i := 0;
    while i < |cells|
      invariant 0 <= i <= |cells|
      invariant forall j :: 0 <= j < i ==> !InColumn(cells[j], colName)
    {
      if InColumn(cells[i], colName) {
        assert ColumnCellPos(cells, colName) == i;
        return Some(cells[i]);
      }
      i := i + 1;
    }
    assert ColumnCellPos(cells, colName) == |cells|;
    return None;
  }

  /** In a well-formed row, finding a cell by its column letters finds the cell the reference search finds. */
  lemma ColumnCellPosAgrees(cells: seq<Cell>, col: int, row: int)
    requires IsCoord(col, row) && CellsWellFormed(cells, row)
    ensures ColumnCellPos(cells, ColumnLetters(col)) == CellPos(cells, A1(col, row))
  {
    forall i | 0 <= i < |cells|
      ensures InColumn(cells[i], ColumnLetters(col)) <==> RefMatches(cells[i], A1(col, row))
    {
      var c := cells[i];
      var p := TryParseA1(c.reference.value);
      assert c.reference.value == A1(p.col, row);
      LetterPrefixOfA1(p.col, row);
      CanonicalMatches(c, col, row);
      if InColumn(c, ColumnLetters(col)) {
        ColumnLettersInjective(p.col, col);
      }
    }
    var k := ColumnCellPos(cells, ColumnLetters(col));
    CellPosIs(cells, A1(col, row), k);
  }
}

=== FILE: cellvalues.dfy ===
/**
 * How the grid stores a typed value in a cell and reads it back.
 *
 * A string, a value written with `isString`, or a value of a type the
 * writer does not know goes through the shared-string table: the cell holds
 * the decimal index and the type `SharedString`. A bool is "1" or "0" with
 * type `Boolean`; a date is its OLE-automation number and a number its
 * invariant-culture text, both without a type; null clears value and type.
 *
 * Floating point is outside the model: a date or a number arrives with its
 * texts already formatted, and reading a number back goes through a
 * `double.TryParse` that is a parameter.
 */
module CellValues {
  import opened Common
  import opened Sheet
  import opened Document

  /** A value handed to the grid, by its .NET type, with the texts the writer uses. */
  datatype Value =
    | Null
    | Text(s: string)
    | Bool(b: bool)
    | DateTime(oaText: string, display: string)
    | Numeric(invariantText: string, display: string)
    | Other(display: string)

  /** `double.TryParse` of a cell text, giving the invariant and the current-culture text of the double. */
  type DoubleReader = string -> Option<(string, string)>

  /** `value.ToString()`. */
  function Display(v: Value): string
    requires !v.Null?
  {
    match v
    case Text(s) => s
    case Bool(b) => if b then "True" else "False"
    case DateTime(_, d) => d
    case Numeric(_, d) => d
    case Other(d) => d
  }

  /** Whether `WriteCellValue` stores `v` through the shared-string table. */
  predicate IsShared(v: Value, isString: bool) {
    !v.Null? && (isString || v.Text? || v.Other?)
  }

  /** The shared-string table after writing `v`. */
  function TableAfter(table: seq<string>, v: Value, isString: bool): (t: seq<string>)
    ensures IsShared(v, isString) ==> Display(v) in t
    ensures |table| <= |t| <= |table| + 1
    ensures forall i :: 0 <= i < |table| ==> t[i] == table[i]
  {
    if IsShared(v, isString) then Interned(table, Display(v)) else table
  }

  /** Writing the same value again does not grow the table. */
  lemma TableAfterIdempotent(table: seq<string>, v: Value, isString: bool)
    ensures TableAfter(TableAfter(table, v, isString), v, isString) == TableAfter(table, v, isString)
  {
  }

  /**
   * The cell after `WriteCellValue`, where `table` is the shared-string table
   * after the write. Reference, style and formula are kept.
   */
  function WrittenCell(c: Cell, v: Value, isString: bool, table: seq<string>): (r: Cell)
    ensures r.reference == c.reference && r.style == c.style && r.formula == c.formula
    ensures v.Null? ==> r.value.None? && r.dataType.None?
    ensures IsShared(v, isString) ==> r.dataType == Some(SharedString)
    ensures !IsShared(v, isString) && !v.Null? ==> r.dataType.None? || r.dataType == Some(Boolean)
  {
    if v.Null? then c.(value := None, dataType := None)
    else if IsShared(v, isString) then
      c.(value := Some(NatToDecimal(StringIndex(table, Display(v)))), dataType := Some(SharedString))
    else
      match v
      case Bool(b) => c.(value := Some(if b then "1" else "0"), dataType := Some(Boolean))
      case DateTime(oa, _) => c.(value := Some(oa), dataType := None)
      case Numeric(t, _) => c.(value := Some(t), dataType := None)
  }

  /**
   * `GetValue` on the cell found (or not): a shared string by its parsed
   * index ("" when the value is missing, unparsable or out of range), a bool
   * that is true exactly for "1", nothing for a missing value, then a double
   * when the text parses as one, else the raw text.
   */
  function ReadCell(c: Option<Cell>, table: seq<string>, readDouble: DoubleReader): (v: Value)
    ensures c.None? ==> v.Null?
    ensures c.Some? && c.value.dataType == Some(SharedString) ==> v.Text?
    ensures c.Some? && c.value.dataType == Some(Boolean) ==> v == Bool(c.value.value == Some("1"))
  {
    if c.None? then Null
    else
      var cell := c.value;
      if cell.dataType == Some(SharedString) then
        if cell.value.None? then Text("")
        else
          var i := ParseInt32(cell.value.value);
          if i.None? then Text("")
          else Text(if 0 <= i.value < |table| then table[i.value] else "")
      else if cell.dataType == Some(Boolean) then Bool(cell.value == Some("1"))
      else if cell.value.None? then Null
      else
        var d := readDouble(cell.value.value);
        if d.Some? then Numeric(d.value.0, d.value.1) else Text(cell.value.value)
  }

  /** Reading a cell looks at its value and type only. */
  lemma ReadCellIgnoresStyle(c: Cell, style: Option<UInt32>, table: seq<string>, readDouble: DoubleReader)
    ensures ReadCell(Some(c.(style := style)), table, readDouble) == ReadCell(Some(c), table, readDouble)
  {
  }

  /**
   * A value stored through the shared-string table reads back as its text,
   * as long as the index fits an `int`.
   */
  lemma ReadWrittenShared(c: Cell, v: Value, isString: bool, table: seq<string>, readDouble: DoubleReader)
    requires IsShared(v, isString) && |table| <= INT_MAX
    ensures var t := TableAfter(table, v, isString);
      ReadCell(Some(WrittenCell(c, v, isString, t)), t, readDouble) == Text(Display(v))
  {
    var t := TableAfter(table, v, isString);
    var k := StringIndex(t, Display(v));
    ParseInt32OfNatToDecimal(k);
  }

  /** A bool written without `isString` reads back as the same bool. */
  lemma ReadWrittenBool(c: Cell, b: bool, table: seq<string>, readDouble: DoubleReader)
    ensures ReadCell(Some(WrittenCell(c, Bool(b), false, table)), table, readDouble) == Bool(b)
  {
  }

  /** A cleared cell reads as null. */
  lemma ReadWrittenNull(c: Cell, isString: bool, table: seq<string>, readDouble: DoubleReader)
    ensures ReadCell(Some(WrittenCell(c, Null, isString, table)), table, readDouble) == Null
  {
  }

  /** A number written without `isString` is read back through `double.TryParse` of its invariant text. */
  lemma ReadWrittenNumber(c: Cell, t: string, d: string, table: seq<string>, readDouble: DoubleReader)
    ensures var r := ReadCell(Some(WrittenCell(c, Numeric(t, d), false, table)), table, readDouble);
      if readDouble(t).Some? then r == Numeric(readDouble(t).value.0, readDouble(t).value.1) else r == Text(t)
  {
  }

  // ---------------------------------------------------------------------------
  // Snapshots (copy and paste)
  // ---------------------------------------------------------------------------

  /** `CellSnapshot`: the value read, whether the cell held a shared string, and its style (0 when none). */
  datatype CellSnapshot = CellSnapshot(value: Value, isString: bool, styleIndex: UInt32)

  /** `CaptureSnapshot` of the cell found (or not): an absent cell gives (null, false, 0). */
  function Capture(c: Option<Cell>, table: seq<string>, readDouble: DoubleReader): (s: CellSnapshot)
    ensures c.None? ==> s == CellSnapshot(Null, false, 0)
    ensures c.Some? ==> s.isString == (c.value.dataType == Some(SharedString))
    ensures c.Some? ==> s.styleIndex == c.value.style.GetOr(0)
    ensures s.value == ReadCell(c, table, readDouble)
  {
    if c.None? then CellSnapshot(Null, false, 0)
    else CellSnapshot(ReadCell(c, table, readDouble), c.value.dataType == Some(SharedString), c.value.style.GetOr(0))
  }

  /**
   * Pasting a snapshot writes a cell that reads back as the captured value,
   * for every captured value except a number (whose text goes through
   * floating point).
   */
  lemma PasteReadsBack(c: Option<Cell>, table: seq<string>, readDouble: DoubleReader, target: Cell, targetTable: seq<string>)
    requires |targetTable| <= INT_MAX
    requires !Capture(c, table, readDouble).value.Numeric?
    ensures var s := Capture(c, table, readDouble);
      var t := TableAfter(targetTable, s.value, s.isString);
      ReadCell(Some(WrittenCell(target, s.value, s.isString, t)), t, readDouble) == s.value
  {
    var s := Capture(c, table, readDouble);
    match s.value
    case Null =>
      ReadWrittenNull(target, s.isString, targetTable, readDouble);
    case Text(_) =>
      ReadWrittenShared(target, s.value, s.isString, targetTable, readDouble);
    case Bool(b) =>
      ReadWrittenBool(target, b, targetTable, readDouble);
  }
}

=== FILE: colors.dfy ===
/**
 * Colours as the grid writes them into fills: `ToArgbHex` renders the alpha,
 * red, green and blue bytes as two upper-case hexadecimal digits each
 * ("FFFF0000" for opaque red).
 */
module Colors {
  import opened Common

  type Byte = x: int | 0 <= x < 256

  /** A `System.Drawing.Color`, by its four channels. */
  datatype Argb = Argb(a: Byte, r: Byte, g: Byte, b: Byte)

  /** The upper-case hexadecimal digit of `d`. */
  function HexDigit(d: nat): (c: char)
    requires d < 16
  {
    if d < 10 then ('0' as int + d) as char else ('A' as int + d - 10) as char
  }

  /** The value of an upper-case hexadecimal digit, if `c` is one. */
  function HexValue(c: char): (d: Option<nat>)
    ensures d.Some? ==> d.value < 16
  {
    if '0' <= c <= '9' then Some(c as int - '0' as int)
    else if 'A' <= c <= 'F' then Some(c as int - 'A' as int + 10)
    else None
  }

  /** `ToString("X2")` of a byte. */
  function Hex2(x: Byte): (s: string)
    ensures |s| == 2
  {
    [HexDigit(x / 16), HexDigit(x % 16)]
  }

  /** `ToArgbHex`: the channels in the order alpha, red, green, blue. */
  function ToArgbHex(color: Argb): (s: string)
    ensures |s| == 8
    ensures s[0..2] == Hex2(color.a) && s[2..4] == Hex2(color.r)
    ensures s[4..6] == Hex2(color.g) && s[6..8] == Hex2(color.b)
  {
    var a, r, g, b := Hex2(color.a), Hex2(color.r), Hex2(color.g), Hex2(color.b);
    var s := a + r + g + b;
    assert s[0..2] == a && s[2..4] == r && s[4..6] == g && s[6..8] == b by {
      assert s == [a[0], a[1], r[0], r[1], g[0], g[1], b[0], b[1]];
    }
    s
  }

  /** Reads two hexadecimal digits back into a byte. */
  function ReadHex2(s: string): (x: Option<Byte>)
    requires |s| == 2
  {
    var hi := HexValue(s[0]);
    var lo := HexValue(s[1]);
    if hi.Some? && lo.Some? then Some(hi.value * 16 + lo.value) else None
  }

  /** Reads an eight-digit ARGB text back into a colour. */
  function ReadArgbHex(s: string): Option<Argb>
    requires |s| == 8
  {
    var a := ReadHex2(s[0..2]);
    var r := ReadHex2(s[2..4]);
    var g := ReadHex2(s[4..6]);
    var b := ReadHex2(s[6..8]);
    if a.Some? && r.Some? && g.Some? && b.Some? then Some(Argb(a.value, r.value, g.value, b.value)) else None
  }

  lemma HexValueOfDigit(d: nat)
    requires d < 16
    ensures HexValue(HexDigit(d)) == Some(d)
  {
  }

  lemma ReadHex2OfHex2(x: Byte)
    ensures ReadHex2(Hex2(x)) == Some(x)
  {
    HexValueOfDigit(x / 16);
    HexValueOfDigit(x % 16);
  }

  /** The ARGB text determines the colour: reading it back gives the colour it was made from. */
  lemma ReadArgbHexOfToArgbHex(color: Argb)
    ensures ReadArgbHex(ToArgbHex(color)) == Some(color)
  {
    var s := ToArgbHex(color);
    ReadHex2OfHex2(color.a);
    ReadHex2OfHex2(color.r);
    ReadHex2OfHex2(color.g);
    ReadHex2OfHex2(color.b);
  }

  /** Different colours give different texts. */
  lemma ToArgbHexInjective(c1: Argb, c2: Argb)
    requires ToArgbHex(c1) == ToArgbHex(c2)
    ensures c1 == c2
  {
    ReadArgbHexOfToArgbHex(c1);
    ReadArgbHexOfToArgbHex(c2);
  }
}

=== FILE: columnstyles.dfy ===
/**
 * The two views the grid takes of a worksheet's `Columns` definitions.
 *
 * `ColumnStyleIndexMap` (used by `ResolveBaseStyleIndex`) keeps, in
 * definition order, a span for every column definition that has a style; a
 * lookup takes the last span containing the column.
 *
 * The lazy column cache (used by `InferStyleIndexForNewCell`) expands every
 * definition with both bounds into one entry per column; a later definition
 * overwrites an earlier one even when it has no style.
 */
module ColumnStyles {
  import opened Common
  import opened Sheet

  // ---------------------------------------------------------------------------
  // ColumnStyleIndexMap
  // ---------------------------------------------------------------------------

  /** A styled column span, bounds as C# `int`. */
  datatype Span = Span(min: Int32, max: Int32, style: UInt32)

  predicate Covers(s: Span, col: int) {
    s.min <= col <= s.max
  }

  /**
   * The span of a styled column: a missing minimum is 1, a missing maximum is
   * the minimum, and each bound is cast unchecked from `uint` to `int`.
   */
  function SpanOf(c: Column): (s: Span)
    requires c.style.Some?
    ensures s.style == c.style.value
    ensures c.min.None? ==> s.min == 1
    ensures c.min.Some? ==> s.min == UIntToInt(c.min.value)
    ensures c.max.None? ==> s.max == s.min
    ensures c.max.Some? ==> s.max == UIntToInt(c.max.value)
  {
    var min := UIntToInt(c.min.GetOr(1));
    var max := if c.max.Some? then UIntToInt(c.max.value) else min;
    Span(min, max, c.style.value)
  }

  /** The spans of the styled columns, in definition order. */
  function StyledSpans(cols: seq<Column>): (r: seq<Span>)
    ensures |r| <= |cols|
    ensures forall i :: 0 <= i < |cols| && cols[i].style.Some? ==> SpanOf(cols[i]) in r
    ensures forall s :: s in r ==> exists i :: 0 <= i < |cols| && cols[i].style.Some? && s == SpanOf(cols[i])
  {
    if cols == [] then []
    else
      var rest := StyledSpans(cols[..|cols| - 1]);
      var last := cols[|cols| - 1];
      assert forall i :: 0 <= i < |cols| - 1 ==> cols[..|cols| - 1][i] == cols[i];
      if last.style.Some? then rest + [SpanOf(last)] else rest
  }

  /** The `ColumnStyleIndexMap` constructor: one span per styled column, none without a `Columns` element. */
  method NewColumnStyleIndexMap(ws: Worksheet) returns (spans: seq<Span>)
    ensures ws.columns.None? ==> spans == []
    ensures ws.columns.Some? ==> spans == StyledSpans(ws.columns.value)
  {
    if ws.columns.None? {
      return [];
    }
    var cols := ws.columns.value;
    spans := [];
    var i := 0;
    while i < |cols|
      invariant 0 <= i <= |cols|
      invariant spans == StyledSpans(cols[..i])
    {
      assert cols[..i + 1][..i] == cols[..i];
      if cols[i].style.Some? {
        spans := spans + [SpanOf(cols[i])];
      }
      i := i + 1;
    }
    assert cols[..i] == cols;
  }

  /** Position of the last span containing `col`, or -1 when none does. */
  function LastCovering(spans: seq<Span>, col: int): (k: int)
    ensures -1 <= k < |spans|
    ensures k >= 0 ==> Covers(spans[k], col)
    ensures forall j :: k < j < |spans| ==> !Covers(spans[j], col)
  {
    if spans == [] then -1
    else if Covers(spans[|spans| - 1], col) then |spans| - 1
    else
      var k := LastCovering(spans[..|spans| - 1], col);
      assert forall j :: k < j < |spans| - 1 ==> spans[..|spans| - 1][j] == spans[j];
      k
  }

  /** The style of the last span containing `col`, if any. */
  function LastSpanStyle(spans: seq<Span>, col: int): (r: Option<UInt32>)
    ensures r.None? <==> forall i :: 0 <= i < |spans| ==> !Covers(spans[i], col)
    ensures r.Some? ==> exists i :: 0 <= i < |spans| && Covers(spans[i], col) && spans[i].style == r.value
                          && forall j :: i < j < |spans| ==> !Covers(spans[j], col)
  {
    var k := LastCovering(spans, col);
    if k < 0 then None else Some(spans[k].style)
  }

  /** Column definition `c` has a style and its span contains `col`. */
  predicate StyledCovers(c: Column, col: int) {
    c.style.Some? && Covers(SpanOf(c), col)
  }

  /** Appending a span: it wins the lookup when it contains the column. */
  lemma LastSpanStyleSnoc(spans: seq<Span>, s: Span, col: int)
    ensures LastSpanStyle(spans + [s], col) == if Covers(s, col) then Some(s.style) else LastSpanStyle(spans, col)
  {
    assert (spans + [s])[..|spans|] == spans;
  }

  /**
   * The span lookup, stated on the column definitions: no style when no
   * styled definition covers the column, otherwise the style of the last
   * styled definition that does.
   */
  lemma {:induction false} LastSpanStyleOfColumns(cols: seq<Column>, col: int)
    ensures LastSpanStyle(StyledSpans(cols), col).None? <==> forall i :: 0 <= i < |cols| ==> !StyledCovers(cols[i], col)
    ensures forall i ::
      0 <= i < |cols| && StyledCovers(cols[i], col) && (forall j :: i < j < |cols| ==> !StyledCovers(cols[j], col)) ==>
        LastSpanStyle(StyledSpans(cols), col) == Some(cols[i].style.value)
    decreases |cols|
  {
    if cols != [] {
      var init, last := cols[..|cols| - 1], cols[|cols| - 1];
      assert cols == init + [last];
      assert forall i :: 0 <= i < |init| ==> init[i] == cols[i];
      LastSpanStyleOfColumns(init, col);
      if last.style.Some? {
        LastSpanStyleSnoc(StyledSpans(init), SpanOf(last), col);
      }
      if StyledCovers(last, col) {
        assert LastSpanStyle(StyledSpans(cols), col) == Some(last.style.value);
      } else {
        assert LastSpanStyle(StyledSpans(cols), col) == LastSpanStyle(StyledSpans(init), col);
      }
    }
  }

  /** `TryGetStyleIndex`: scans the spans from the last one back and returns the first that contains `col`. */
  method TryGetStyleIndex(spans: seq<Span>, col: int) returns (r: Option<UInt32>)
    ensures r == LastSpanStyle(spans, col)
  {
    r := None;
    var i := |spans| - 1;
    while i >= 0
      invariant -1 <= i < |spans|
      invariant forall j :: i < j < |spans| ==> !Covers(spans[j], col)
    {
      if Covers(spans[i], col) {
        return Some(spans[i].style);
      }
      i := i - 1;
    }
  }

  // ---------------------------------------------------------------------------
  // The expanded column cache
  // ---------------------------------------------------------------------------

  /** The `uint` an `int` key of the cache was cast from. */
  function KeyColumn(k: Int32): (u: UInt32)
    ensures UIntToInt(u) == k
  {
    if k < 0 then k + UINT_MAX + 1 else k
  }

  /**
   * The entry the cache holds for column `u`: the style (possibly none) of
   * the last definition with both bounds whose range contains `u`, or
   * nothing when no such definition exists.
   */
  function ColumnEntry(cols: seq<Column>, u: int): (r: Option<Option<UInt32>>)
    ensures r.Some? ==> exists i :: 0 <= i < |cols| && cols[i].min.Some? && cols[i].max.Some?
                          && cols[i].min.value <= u <= cols[i].max.value && cols[i].style == r.value
  {
    if cols == [] then None
    else
      var last := cols[|cols| - 1];
      if last.min.Some? && last.max.Some? && last.min.value <= u <= last.max.value then Some(last.style)
      else
        var r := ColumnEntry(cols[..|cols| - 1], u);
        assert forall i :: 0 <= i < |cols| - 1 ==> cols[..|cols| - 1][i] == cols[i];
        r
  }

  function Lookup(dic: map<Int32, Option<UInt32>>, k: Int32): Option<Option<UInt32>> {
    if k in dic then Some(dic[k]) else None
  }

  /** The entry for column `u` once the columns `lo .. hi - 1` of the next definition have been written with `style`. */
  function PartialEntry(cols: seq<Column>, lo: int, hi: int, style: Option<UInt32>, u: int): Option<Option<UInt32>> {
    if lo <= u < hi then Some(style) else ColumnEntry(cols, u)
  }

  /** The cache holds, under every column cast to `int`, exactly the entry `PartialEntry` describes. */
  predicate CacheMatches(dic: map<Int32, Option<UInt32>>, cols: seq<Column>, lo: int, hi: int, style: Option<UInt32>) {
    forall k: Int32 :: Lookup(dic, k) == PartialEntry(cols, lo, hi, style, KeyColumn(k))
  }

  /** Writing column `c` extends the written range by one. */
  lemma CacheStep(dic: map<Int32, Option<UInt32>>, cols: seq<Column>, lo: int, c: UInt32, style: Option<UInt32>)
    requires lo <= c && CacheMatches(dic, cols, lo, c, style)
    ensures CacheMatches(dic[UIntToInt(c) := style], cols, lo, c + 1, style)
  {
    var d := dic[UIntToInt(c) := style];
    forall k: Int32
      ensures Lookup(d, k) == PartialEntry(cols, lo, c + 1, style, KeyColumn(k))
    {
      if k != UIntToInt(c) {
        assert KeyColumn(k) != c;
        assert Lookup(d, k) == Lookup(dic, k);
      }
    }
  }

  /** Once a definition's whole range is written, the cache matches the definitions up to and including it. */
  lemma CacheClose(dic: map<Int32, Option<UInt32>>, cols: seq<Column>, i: nat, hi: int)
    requires i < |cols|
    requires var col := cols[i];
      if col.min.Some? && col.max.Some? then
        (hi == col.max.value + 1 || (hi == col.min.value && col.min.value > col.max.value))
        && CacheMatches(dic, cols[..i], col.min.value, hi, col.style)
      else CacheMatches(dic, cols[..i], 0, 0, None)
    ensures CacheMatches(dic, cols[..i + 1], 0, 0, None)
  {
    assert cols[..i + 1][..i] == cols[..i];
    var col := cols[i];
    forall k: Int32
      ensures Lookup(dic, k) == PartialEntry(cols[..i + 1], 0, 0, None, KeyColumn(k))
    {
      if col.min.Some? && col.max.Some? {
        assert Lookup(dic, k) == PartialEntry(cols[..i], col.min.value, hi, col.style, KeyColumn(k));
      } else {
        assert Lookup(dic, k) == PartialEntry(cols[..i], 0, 0, None, KeyColumn(k));
      }
    }
  }

  /** No definition with both bounds ends at `uint.MaxValue`. */
  predicate Bounded(columns: Option<seq<Column>>) {
    columns.Some? ==> forall c :: c in columns.value && c.min.Some? && c.max.Some? ==> c.max.value < UINT_MAX
  }

  /** `dic` is the cache built from `columns`: empty without definitions, otherwise `ColumnEntry` under every key. */
  ghost predicate CacheFor(dic: map<Int32, Option<UInt32>>, columns: Option<seq<Column>>) {
    && (columns.None? ==> dic == map[])
    && (columns.Some? ==> forall k: Int32 :: Lookup(dic, k) == ColumnEntry(columns.value, KeyColumn(k)))
  }

  /**
   * `BuildColumnStyleCache`: for every definition with both bounds, in
   * order, every column from the minimum to the maximum is mapped to the
   * definition's style. A maximum of `uint.MaxValue` would make the `uint`
   * loop counter wrap and never stop, so it is excluded.
   */
  method BuildColumnStyleCache(columns: Option<seq<Column>>) returns (dic: map<Int32, Option<UInt32>>)
    requires Bounded(columns)
    ensures CacheFor(dic, columns)
  {
    dic := map[];
    if columns.None? {
      return;
    }
    var cols := columns.value;
    var i := 0;
    assert cols[..0] == [];
    while i < |cols|
      invariant 0 <= i <= |cols|
      invariant CacheMatches(dic, cols[..i], 0, 0, None)
    {
      var col := cols[i];
      if col.min.Some? && col.max.Some? {
        assert col in cols;
        var c: int := col.min.value;
        while c <= col.max.value
          invariant col.min.value <= c && (c <= col.max.value + 1 || c == col.min.value)
          invariant CacheMatches(dic, cols[..i], col.min.value, c, col.style)
          decreases col.max.value + 1 - c
        {
          CacheStep(dic, cols[..i], col.min.value, c, col.style);
          dic := dic[UIntToInt(c) := col.style];
          c := c + 1;
        }
        CacheClose(dic, cols, i, c);
      } else {
        CacheClose(dic, cols, i, 0);
      }
      i := i + 1;
    }
    assert cols[..i] == cols;
    assert forall k: Int32 :: Lookup(dic, k) == PartialEntry(cols, 0, 0, None, KeyColumn(k));
  }

  /**
   * The two views disagree: a later definition of column 1 without a style
   * hides an earlier style 5 from the cache (the entry is present but holds
   * no style), while the span map still finds style 5.
   */
  lemma CacheAndSpansDisagree()
    ensures var cols := [Column(Some(1), Some(1), Some(5)), Column(Some(1), Some(1), None)];
      ColumnEntry(cols, 1) == Some(None) && LastSpanStyle(StyledSpans(cols), 1) == Some(5)
  {
    var cols := [Column(Some(1), Some(1), Some(5)), Column(Some(1), Some(1), None)];
    assert cols[..1] == [cols[0]];
    assert StyledSpans(cols) == StyledSpans([cols[0]]);
    assert [cols[0]][..0] == [];
    assert StyledSpans([cols[0]]) == [Span(1, 1, 5)];
  }
}

=== FILE: common.dfy ===
/**
 * Shared vocabulary of the model: optional values, the exceptions the library
 * throws, the range of a C# `int`, and the few pieces of .NET text handling the
 * core relies on (decimal formatting and parsing of integers, ASCII case folding,
 * `char.IsWhiteSpace`, `string.Trim`, `string.Replace` of one character and
 * `string.Split` on one character).
 */
module Common {

  datatype Option<+T> = None | Some(value: T) {
    function GetOr(default: T): T {
      match this
      case Some(v) => v
      case None => default
    }
  }

  /** The exceptions thrown by the core, by .NET type. */
  datatype Error =
    | ArgumentOutOfRange
    | ArgumentNull
    | Argument
    | InvalidOperation
    | ObjectDisposed
    | NullReference
    | DocumentOpenFailed

  /** The outcome of an operation that returns a value or throws. */
  datatype Result<+T> = Ok(value: T) | Err(error: Error)

  /** The outcome of an operation that returns nothing or throws. */
  datatype Outcome = Done | Failed(error: Error)

  const INT_MAX: int := 0x7fff_ffff
  const INT_MIN: int := -0x8000_0000
  const UINT_MAX: int := 0xffff_ffff

  /** A C# `int`. */
  type Int32 = x: int | INT_MIN <= x <= INT_MAX

  /** A C# `uint`. */
  type UInt32 = x: int | 0 <= x <= UINT_MAX

  /** The unchecked conversion `(int)u` of a `uint`. */
  function UIntToInt(u: UInt32): (i: Int32)
    ensures u <= INT_MAX ==> i == u
    ensures u > INT_MAX ==> i < 0
  {
    if u <= INT_MAX then u else u - (UINT_MAX + 1)
  }

  const TWO_32: int := 0x1_0000_0000

  /** The `int` that unchecked arithmetic leaves for the mathematical value `x`. */
  function Wrap32(x: int): (r: Int32)
    ensures (r - x) % TWO_32 == 0
    ensures INT_MIN <= x <= INT_MAX ==> r == x
  {
    (x - INT_MIN) % TWO_32 + INT_MIN
  }

  /** Values congruent modulo 2^32 wrap to the same `int`. */
  lemma Wrap32Congruent(a: int, b: int)
    requires (a - b) % TWO_32 == 0
    ensures Wrap32(a) == Wrap32(b)
  {
    var k := (a - b) / TWO_32;
    assert a - INT_MIN == (b - INT_MIN) + k * TWO_32;
  }

  /** Unchecked arithmetic cannot tell `x` from `x + 2^32`. */
  lemma Wrap32Periodic(x: int)
    ensures Wrap32(x + TWO_32) == Wrap32(x)
  {
    Wrap32Congruent(x + TWO_32, x);
  }

  /** Between 2^31 and 2^32 the wrapped value is `x - 2^32`, which is not positive. */
  lemma Wrap32OfUnsignedRange(x: int)
    requires INT_MAX < x <= TWO_32
    ensures Wrap32(x) == x - TWO_32 <= 0
  {
    Wrap32Congruent(x, x - TWO_32);
  }

  /**
   * One step `n * m + d` of an unchecked fold may start from the wrapped
   * accumulator: wrapping once at the end gives the same `int`.
   */
  lemma Wrap32Step(v: int, m: int, d: int)
    ensures Wrap32(Wrap32(v) * m + d) == Wrap32(v * m + d)
  {
    var k := (Wrap32(v) - v) / TWO_32;
    assert Wrap32(v) == v + k * TWO_32;
    assert Wrap32(v) * m + d == v * m + d + (k * m) * TWO_32;
    Wrap32Congruent(Wrap32(v) * m + d, v * m + d);
  }

  // ---------------------------------------------------------------------------
  // Decimal text of integers (`int.ToString()`, `uint.ToString()`)
  // ---------------------------------------------------------------------------

  predicate IsDigit(c: char) {
    '0' <= c <= '9'
  }

  predicate AllDigits(s: string) {
    forall i :: 0 <= i < |s| ==> IsDigit(s[i])
  }

  function DigitChar(d: nat): (c: char)
    requires d < 10
    ensures IsDigit(c)
  {
    ('0' as int + d) as char
  }

  function DigitValue(c: char): (d: nat)
    requires IsDigit(c)
    ensures d < 10
  {
    c as int - '0' as int
  }

  /** Decimal digits of a natural number, without leading zeros. */
  function NatToDecimal(n: nat): (s: string)
    ensures |s| >= 1 && AllDigits(s)
    ensures n > 0 ==> s[0] != '0'
  {
    if n < 10 then [DigitChar(n)] else NatToDecimal(n / 10) + [DigitChar(n % 10)]
  }

  /** `int.ToString()` with the invariant culture. */
  function IntToDecimal(i: int): string {
    if i < 0 then "-" + NatToDecimal(-i) else NatToDecimal(i)
  }

  /** The value of a run of decimal digits (leading zeros allowed). */
  function DecimalValue(s: string): nat
    requires AllDigits(s)
  {
    if s == [] then 0 else DecimalValue(s[..|s| - 1]) * 10 + DigitValue(s[|s| - 1])
  }

  lemma {:induction false} DecimalValueOfNatToDecimal(n: nat)
    ensures DecimalValue(NatToDecimal(n)) == n
  {
    var s := NatToDecimal(n);
    if n >= 10 {
      DecimalValueOfNatToDecimal(n / 10);
      assert s[..|s| - 1] == NatToDecimal(n / 10);
    }
  }

  /** The white-space characters of `char.IsWhiteSpace` (used by `Trim` and `IsNullOrWhiteSpace`). */
  predicate IsWhiteSpace(c: char) {
    || ('\t' <= c <= '\r')
    || c == ' ' || c == '\U{85}' || c == '\U{A0}' || c == '\U{1680}'
    || ('\U{2000}' <= c <= '\U{200A}')
    || c == '\U{2028}' || c == '\U{2029}' || c == '\U{202F}' || c == '\U{205F}' || c == '\U{3000}'
  }

  /** `string.IsNullOrWhiteSpace` on a non-null string. */
  predicate IsBlank(s: string) {
    forall i :: 0 <= i < |s| ==> IsWhiteSpace(s[i])
  }

  /** Drops the leading characters that satisfy `ws`. */
  function TrimStart(s: string, ws: char -> bool): (r: string)
    ensures |r| <= |s|
  {
    if s != [] && ws(s[0]) then TrimStart(s[1..], ws) else s
  }

  /** Trimming the start keeps a suffix that does not start with `ws`, and drops only `ws` characters. */
  lemma {:induction false} TrimStartDrops(s: string, ws: char -> bool)
    ensures var r := TrimStart(s, ws);
      && r == s[|s| - |r|..]
      && (r == [] || !ws(r[0]))
      && forall i :: 0 <= i < |s| - |r| ==> ws(s[i])
  {
    if s != [] && ws(s[0]) {
      TrimStartDrops(s[1..], ws);
    }
  }

  /** Drops the trailing characters that satisfy `ws`. */
  function TrimEnd(s: string, ws: char -> bool): (r: string)
    ensures |r| <= |s|
  {
    if s != [] && ws(s[|s| - 1]) then TrimEnd(s[..|s| - 1], ws) else s
  }

  /** Trimming the end keeps a prefix that does not end with `ws`, and drops only `ws` characters. */
  lemma {:induction false} TrimEndDrops(s: string, ws: char -> bool)
    ensures var r := TrimEnd(s, ws);
      && r == s[..|r|]
      && (r == [] || !ws(r[|r| - 1]))
      && forall i :: |r| <= i < |s| ==> ws(s[i])
  {
    if s != [] && ws(s[|s| - 1]) {
      TrimEndDrops(s[..|s| - 1], ws);
    }
  }

  /** `string.Trim()`: drops leading and trailing white space. */
  function Trim(s: string): string {
    TrimEnd(TrimStart(s, IsWhiteSpace), IsWhiteSpace)
  }

  /** The white space `NumberStyles.Integer` allows around a number. */
  predicate IsNumberWhite(c: char) {
    ('\t' <= c <= '\r') || c == ' '
  }

  /**
   * `int.TryParse(s, NumberStyles.Integer, ...)`: optional surrounding white
   * space, an optional sign, then decimal digits whose value fits an `int`.
   */
  function ParseInt32(s: string): (r: Option<int>)
    ensures r.Some? ==> INT_MIN <= r.value <= INT_MAX
  {
    var t := TrimEnd(TrimStart(s, IsNumberWhite), IsNumberWhite);
    var signed := t != [] && (t[0] == '-' || t[0] == '+');
    var digits := if signed then t[1..] else t;
    if digits == [] || !AllDigits(digits) then None
    else
      var v: int := if signed && t[0] == '-' then 0 - DecimalValue(digits) as int else DecimalValue(digits);
      if INT_MIN <= v <= INT_MAX then Some(v) else None
  }

  lemma ParseInt32OfNatToDecimal(n: nat)
    requires n <= INT_MAX
    ensures ParseInt32(NatToDecimal(n)) == Some(n)
  {
    var s := NatToDecimal(n);
    assert TrimStart(s, IsNumberWhite) == s;
    assert TrimEnd(s, IsNumberWhite) == s;
    DecimalValueOfNatToDecimal(n);
  }

  /** `s.Replace(c.ToString(), "")`: every occurrence of `c` removed. */
  function RemoveAll(s: string, c: char): (r: string)
    ensures c !in r
    ensures c !in s ==> r == s
    ensures |r| <= |s|
  {
    if s == [] then [] else (if s[0] == c then [] else [s[0]]) + RemoveAll(s[1..], c)
  }

  /** Index of the first occurrence of `c` in `s`, or `|s|` when there is none. */
  function IndexOf(s: string, c: char): (k: nat)
    ensures k <= |s|
    ensures k < |s| <==> c in s
    ensures k < |s| ==> s[k] == c
    ensures c !in s[..k]
  {
    if s == [] then 0 else if s[0] == c then 0 else 1 + IndexOf(s[1..], c)
  }

  /** `s.Split(c)`: the pieces between the occurrences of `c`. */
  function Split(s: string, c: char): (parts: seq<string>)
    ensures |parts| >= 1
    ensures c !in s ==> parts == [s]
    decreases |s|
  {
    var k := IndexOf(s, c);
    if k == |s| then [s] else [s[..k]] + Split(s[k + 1..], c)
  }

  // ---------------------------------------------------------------------------
  // ASCII case folding (`ToUpperInvariant`, `StringComparison.OrdinalIgnoreCase`)
  // ---------------------------------------------------------------------------

  function ToUpper(c: char): char {
    if 'a' <= c <= 'z' then (c as int - 32) as char else c
  }

  function UpperString(s: string): (r: string)
    ensures |r| == |s|
    ensures forall i :: 0 <= i < |s| ==> r[i] == ToUpper(s[i])
  {
    seq(|s|, i requires 0 <= i < |s| => ToUpper(s[i]))
  }

  /** `string.Equals(a, b, StringComparison.OrdinalIgnoreCase)`. */
  predicate EqualsIgnoreCase(a: string, b: string) {
    UpperString(a) == UpperString(b)
  }

  /** The sign of `string.Compare(a, b, StringComparison.Ordinal)`: lexicographic by code unit. */
  function OrdinalCompare(a: string, b: string): (r: int)
    ensures r == -1 || r == 0 || r == 1
    ensures r == 0 <==> a == b
  {
    if a == [] && b == [] then 0
    else if a == [] then -1
    else if b == [] then 1
    else if a[0] < b[0] then -1
    else if a[0] > b[0] then 1
    else OrdinalCompare(a[1..], b[1..])
  }

  /** `int.CompareTo`: the sign of `a - b`. */
  function CompareInt(a: int, b: int): (r: int)
    ensures r == -1 || r == 0 || r == 1
    ensures r < 0 <==> a < b
    ensures r > 0 <==> a > b
  {
    if a < b then -1 else if a > b then 1 else 0
  }
}

=== FILE: csv.dfy ===
/**
 * The comma-separated text of the shared-formula export.
 *
 * Fields are escaped as rules 6 and 7 of section 2 of RFC 4180 describe: a
 * field holding a comma, a double quote, a carriage return or a line feed is
 * enclosed in double quotes, and each double quote inside it is doubled. A
 * reader for such records is the partner of the escaping: every record line
 * the export writes reads back as its seven fields.
 *
 * The export writes a header line, then one line per cell whose formula is a
 * shared formula, sheet by sheet in declaration order and, within a sheet,
 * in document order. The line terminator (`Environment.NewLine`) is a
 * parameter.
 */
module Csv {
  import opened Common
  import opened Address
  import opened Sheet

  // ---------------------------------------------------------------------------
  // Escaping
  // ---------------------------------------------------------------------------

  /** A field that must be quoted: it holds a comma, a double quote, a carriage return or a line feed. */
  predicate NeedsQuote(s: string) {
    ',' in s || '"' in s || '\r' in s || '\n' in s
  }

  /** `s.Replace(q, qq)`: every `q` doubled. */
  function Doubled(s: string, q: char): (r: string)
    ensures |r| >= |s|
  {
    if s == [] then [] else (if s[0] == q then [q, q] else [s[0]]) + Doubled(s[1..], q)
  }

  /** `EscapeCsv`: "" for null; the text itself exactly when it needs no quoting. */
  function EscapeCsv(value: Option<string>): (r: string)
    ensures value.None? ==> r == ""
    ensures value.Some? ==> (r == value.value <==> !NeedsQuote(value.value))
  {
    if value.None? then ""
    else if !NeedsQuote(value.value) then value.value
    else "\"" + Doubled(value.value, '"') + "\""
  }

  // ---------------------------------------------------------------------------
  // Reading records back
  // ---------------------------------------------------------------------------

  /**
   * The rest of a field quoted with `q` whose opening quote has been read: a
   * doubled `q` stands for one `q` and a single `q` closes the field. Gives
   * the field and what follows the closing quote, or nothing when the closing
   * quote is missing.
   */
  function ReadQuoted(s: string, q: char): (r: Option<(string, string)>)
    ensures r.Some? ==> |r.value.1| < |s|
  {
    if s == [] then None
    else if s[0] == q then
      if |s| >= 2 && s[1] == q then
        var rest := ReadQuoted(s[2..], q);
        if rest.None? then None else Some(([q] + rest.value.0, rest.value.1))
      else Some(([], s[1..]))
    else
      var rest := ReadQuoted(s[1..], q);
      if rest.None? then None else Some(([s[0]] + rest.value.0, rest.value.1))
  }

  /** Doubling the quotes of `x` and closing it reads back as `x`, when what follows does not start with the quote. */
  lemma {:induction false} ReadQuotedOfDoubled(x: string, q: char, rest: string)
    requires rest == [] || rest[0] != q
    ensures ReadQuoted(Doubled(x, q) + [q] + rest, q) == Some((x, rest))
  {
    var s := Doubled(x, q) + [q] + rest;
    if x == [] {
      assert s == [q] + rest;
      assert s[1..] == rest;
    } else {
      ReadQuotedOfDoubled(x[1..], q, rest);
      var tail := Doubled(x[1..], q) + [q] + rest;
      if x[0] == q {
        assert s == [q, q] + tail;
        assert s[2..] == tail;
      } else {
        assert s == [x[0]] + tail;
        assert s[1..] == tail;
      }
      assert [x[0]] + x[1..] == x;
    }
  }

  /** Reads one field: a quoted field up to its closing quote, otherwise the text up to the next comma. */
  function ReadField(s: string): (r: (string, string))
    ensures |r.1| <= |s|
  {
    if s != [] && s[0] == '"' then
      var v := ReadQuoted(s[1..], '"');
      if v.Some? then v.value else (s[1..], [])
    else
      var k := IndexOf(s, ',');
      (s[..k], s[k..])
  }

  /** Reads the comma-separated fields of one record. */
  function ReadRecord(s: string): (fields: seq<string>)
    ensures |fields| >= 1
    decreases |s|
  {
    var f := ReadField(s);
    if f.1 != [] && f.1[0] == ',' then [f.0] + ReadRecord(f.1[1..]) else [f.0]
  }

  /** Texts joined by commas. */
  function Join(parts: seq<string>): string
    requires |parts| >= 1
  {
    if |parts| == 1 then parts[0] else parts[0] + "," + Join(parts[1..])
  }

  /** Each field escaped. */
  function EscapedAll(fields: seq<string>): (r: seq<string>)
    ensures |r| == |fields|
    ensures forall i :: 0 <= i < |fields| ==> r[i] == EscapeCsv(Some(fields[i]))
  {
    seq(|fields|, i requires 0 <= i < |fields| => EscapeCsv(Some(fields[i])))
  }

  /** The escaped fields joined by commas. */
  function EscapedLine(fields: seq<string>): string
    requires |fields| >= 1
  {
    Join(EscapedAll(fields))
  }

  lemma IndexOfAfter(a: string, b: string, c: char)
    requires c !in a && (b == [] || b[0] == c)
    ensures IndexOf(a + b, c) == |a|
  {
    if a != [] {
      assert (a + b)[1..] == a[1..] + b;
      IndexOfAfter(a[1..], b, c);
    } else {
      assert a + b == b;
    }
  }

  /** A quoted field followed by the end of the record or a comma reads back as the field. */
  lemma ReadFieldOfQuoted(x: string, rest: string)
    requires rest == [] || rest[0] == ','
    ensures ReadField("\"" + Doubled(x, '"') + "\"" + rest) == (x, rest)
  {
    var s := "\"" + Doubled(x, '"') + "\"" + rest;
    var t := Doubled(x, '"') + ['"'] + rest;
    assert s == ['"'] + t;
    assert s[1..] == t;
    ReadQuotedOfDoubled(x, '"', rest);
    assert ReadQuoted(s[1..], '"') == Some((x, rest));
  }

  /** A field written as it is, followed by the end of the record or a comma, reads back as the field. */
  lemma ReadFieldOfPlain(x: string, rest: string)
    requires !NeedsQuote(x) && (rest == [] || rest[0] == ',')
    ensures ReadField(x + rest) == (x, rest)
  {
    var s := x + rest;
    assert s == [] || s[0] != '"' by {
      if x != [] { assert s[0] == x[0]; }
    }
    IndexOfAfter(x, rest, ',');
    assert s[..|x|] == x && s[|x|..] == rest;
  }

  /** An escaped field followed by the end of the record or a comma reads back as the field. */
  lemma ReadFieldOfEscaped(x: string, rest: string)
    requires rest == [] || rest[0] == ','
    ensures ReadField(EscapeCsv(Some(x)) + rest) == (x, rest)
  {
    if NeedsQuote(x) {
      ReadFieldOfQuoted(x, rest);
    } else {
      ReadFieldOfPlain(x, rest);
    }
  }

  /** A line of escaped fields reads back as exactly those fields: escaping loses nothing, even across commas, quotes and line breaks. */
  lemma {:induction false} ReadRecordOfEscaped(fields: seq<string>)
    requires |fields| >= 1
    ensures ReadRecord(EscapedLine(fields)) == fields
  {
    var e := EscapedAll(fields);
    if |fields| == 1 {
      ReadFieldOfEscaped(fields[0], []);
      assert EscapedLine(fields) == EscapeCsv(Some(fields[0])) + [];
    } else {
      assert e[1..] == EscapedAll(fields[1..]);
      var rest := "," + EscapedLine(fields[1..]);
      ReadFieldOfEscaped(fields[0], rest);
      assert EscapedLine(fields) == EscapeCsv(Some(fields[0])) + rest;
      assert rest[1..] == EscapedLine(fields[1..]);
      ReadRecordOfEscaped(fields[1..]);
      assert [fields[0]] + fields[1..] == fields;
    }
  }

  /** The decimal text of an integer is written as it is. */
  lemma DecimalNeedsNoQuote(i: int)
    ensures !NeedsQuote(IntToDecimal(i))
  {
    var d := NatToDecimal(if i < 0 then -i else i);
    assert AllDigits(d);
    if i < 0 {
      assert IntToDecimal(i) == "-" + d;
      forall k | 0 <= k < |IntToDecimal(i)|
        ensures IntToDecimal(i)[k] == '-' || IsDigit(IntToDecimal(i)[k])
      {
        if k > 0 { assert IntToDecimal(i)[k] == d[k - 1]; }
      }
    }
  }

  // ---------------------------------------------------------------------------
  // The export records
  // ---------------------------------------------------------------------------

  const Header: string := "SheetName,Cell,Row,Col,SharedIndex,Formula,Reference"

  /** A cell whose formula is marked as a shared formula. */
  predicate IsSharedFormula(c: Cell) {
    c.formula.Some? && c.formula.value.formulaType == Some(Shared)
  }

  /** One record of the export, before escaping. */
  datatype ExportRecord = ExportRecord(sheetName: string, cell: string, row: int, col: int,
                                       sharedIndex: string, formula: string, reference: string)

  /**
   * The record of a shared-formula cell: the reference ("" when absent), the
   * row and column `TryParseA1` leaves in its out values (0 and 0 for an
   * empty reference), the shared index in decimal ("" when absent), the
   * formula text and the formula's range reference ("" when absent).
   */
  function RecordOf(sheetName: string, c: Cell): ExportRecord
    requires IsSharedFormula(c)
  {
    var cellRef := c.reference.GetOr("");
    var p := if cellRef == "" then A1Parse(false, 0, 0) else TryParseA1(cellRef);
    var f := c.formula.value;
    ExportRecord(sheetName, cellRef, p.row, p.col,
                 if f.sharedIndex.Some? then NatToDecimal(f.sharedIndex.value) else "",
                 f.text, f.reference.GetOr(""))
  }

  /** A cell without a reference, or with an empty one, is exported at row 0, column 0. */
  lemma RecordOfEmptyReference(sheetName: string, c: Cell)
    requires IsSharedFormula(c) && (c.reference.None? || c.reference == Some(""))
    ensures RecordOf(sheetName, c).cell == "" && RecordOf(sheetName, c).row == 0 && RecordOf(sheetName, c).col == 0
  {
  }

  /** A cell with the A1 reference of (`col`, `row`) is exported at that row and column. */
  lemma RecordOfCanonical(sheetName: string, c: Cell, col: int, row: int)
    requires IsSharedFormula(c) && IsCoord(col, row) && c.reference == Some(A1(col, row))
    ensures RecordOf(sheetName, c).row == row && RecordOf(sheetName, c).col == col
  {
    TryParseA1OfToA1(col, row);
    NoMarkersInA1(col, row);
  }

  /** The seven fields of a record, in header order, numbers in decimal. */
  function Fields(r: ExportRecord): (fs: seq<string>)
    ensures |fs| == 7
  {
    [r.sheetName, r.cell, IntToDecimal(r.row), IntToDecimal(r.col), r.sharedIndex, r.formula, r.reference]
  }

  /** The line of a record as it is written: the text fields escaped, the numbers not. */
  function RecordLine(r: ExportRecord): string {
    Join([EscapeCsv(Some(r.sheetName)), EscapeCsv(Some(r.cell)), IntToDecimal(r.row), IntToDecimal(r.col),
          EscapeCsv(Some(r.sharedIndex)), EscapeCsv(Some(r.formula)), EscapeCsv(Some(r.reference))])
  }

  /** Every record line reads back as the record's seven fields. */
  lemma ReadRecordLine(r: ExportRecord)
    ensures ReadRecord(RecordLine(r)) == Fields(r)
  {
    DecimalNeedsNoQuote(r.row);
    DecimalNeedsNoQuote(r.col);
    assert EscapedAll(Fields(r))
        == [EscapeCsv(Some(r.sheetName)), EscapeCsv(Some(r.cell)), IntToDecimal(r.row), IntToDecimal(r.col),
            EscapeCsv(Some(r.sharedIndex)), EscapeCsv(Some(r.formula)), EscapeCsv(Some(r.reference))];
    ReadRecordOfEscaped(Fields(r));
  }

  /** A sheet as the export sees it: its name ("" when absent) and its rows, absent when it has no part or no sheet data. */
  datatype SheetView = SheetView(name: string, rows: Option<seq<Row>>)

  /** The cells of the rows in document order (`Descendants<Cell>()`). */
  function AllCells(rows: seq<Row>): seq<Cell> {
    if rows == [] then [] else AllCells(rows[..|rows| - 1]) + rows[|rows| - 1].cells
  }

  /** The records of the shared-formula cells among `cells`, in order. */
  function SheetRecords(name: string, cells: seq<Cell>): seq<ExportRecord> {
    if cells == [] then []
    else
      var last := cells[|cells| - 1];
      SheetRecords(name, cells[..|cells| - 1]) + if IsSharedFormula(last) then [RecordOf(name, last)] else []
  }

  function ViewRecords(v: SheetView): seq<ExportRecord> {
    if v.rows.None? then [] else SheetRecords(v.name, AllCells(v.rows.value))
  }

  /** The records of all sheets, sheet by sheet. */
  function Records(views: seq<SheetView>): seq<ExportRecord> {
    if views == [] then [] else Records(views[..|views| - 1]) + ViewRecords(views[|views| - 1])
  }

  /** Texts written one after the other. */
  function Concat(parts: seq<string>): string {
    if parts == [] then "" else Concat(parts[..|parts| - 1]) + parts[|parts| - 1]
  }

  /** The record lines, each followed by the line terminator. */
  function Lines(records: seq<ExportRecord>, nl: string): seq<string> {
    seq(|records|, i requires 0 <= i < |records| => RecordLine(records[i]) + nl)
  }

  /** The whole export text: the header line, then the record lines. */
  function ExportText(views: seq<SheetView>, nl: string): string {
    Header + nl + Concat(Lines(Records(views), nl))
  }

  /** A record belongs to a sheet's export exactly when it is the record of one of its shared-formula cells. */
  lemma {:induction false} SheetRecordsMembers(name: string, cells: seq<Cell>, r: ExportRecord)
    ensures r in SheetRecords(name, cells) <==>
              exists i :: 0 <= i < |cells| && IsSharedFormula(cells[i]) && r == RecordOf(name, cells[i])
  {
    if cells != [] {
      var init := cells[..|cells| - 1];
      SheetRecordsMembers(name, init, r);
      forall i | 0 <= i < |init| ensures init[i] == cells[i] { }
      if r in SheetRecords(name, cells) && r !in SheetRecords(name, init) {
        assert IsSharedFormula(cells[|cells| - 1]) && r == RecordOf(name, cells[|cells| - 1]);
      }
    }
  }

  /** The records of two runs of cells are those of the first run followed by those of the second. */
  lemma {:induction false} SheetRecordsAppend(name: string, a: seq<Cell>, b: seq<Cell>)
    ensures SheetRecords(name, a + b) == SheetRecords(name, a) + SheetRecords(name, b)
  {
    if b == [] {
      assert a + b == a;
    } else {
      var b0 := b[..|b| - 1];
      assert (a + b)[..|a + b| - 1] == a + b0;
      assert (a + b)[|a + b| - 1] == b[|b| - 1];
      SheetRecordsAppend(name, a, b0);
    }
  }

  /** The records of two runs of sheets are those of the first run followed by those of the second: sheet order is kept. */
  lemma {:induction false} RecordsAppend(a: seq<SheetView>, b: seq<SheetView>)
    ensures Records(a + b) == Records(a) + Records(b)
  {
    if b == [] {
      assert a + b == a;
    } else {
      var b0 := b[..|b| - 1];
      assert (a + b)[..|a + b| - 1] == a + b0;
      assert (a + b)[|a + b| - 1] == b[|b| - 1];
      RecordsAppend(a, b0);
      var x, y, z := Records(a), Records(b0), ViewRecords(b[|b| - 1]);
      assert Records(a + b) == Records(a + b0) + z;
      assert (x + y) + z == x + (y + z);
    }
  }

  /** The texts of two runs of parts, written one after the other. */
  lemma {:induction false} ConcatAppend(a: seq<string>, b: seq<string>)
    ensures Concat(a + b) == Concat(a) + Concat(b)
  {
    if b == [] {
      assert a + b == a;
    } else {
      var b0 := b[..|b| - 1];
      assert (a + b)[..|a + b| - 1] == a + b0;
      assert (a + b)[|a + b| - 1] == b[|b| - 1];
      ConcatAppend(a, b0);
      var x, y, z := Concat(a), Concat(b0), b[|b| - 1];
      assert Concat(a + b) == Concat(a + b0) + z;
      assert (x + y) + z == x + (y + z);
    }
  }

  /** The lines of two runs of records are the lines of the first followed by those of the second. */
  lemma LinesAppend(a: seq<ExportRecord>, b: seq<ExportRecord>, nl: string)
    ensures Lines(a + b, nl) == Lines(a, nl) + Lines(b, nl)
  {
  }

  /** Extending a run of cells by one appends the line of its record when the cell has a shared formula. */
  lemma SheetLinesSnoc(name: string, cells: seq<Cell>, c: Cell, nl: string)
    ensures Concat(Lines(SheetRecords(name, cells + [c]), nl))
         == Concat(Lines(SheetRecords(name, cells), nl)) + if IsSharedFormula(c) then RecordLine(RecordOf(name, c)) + nl else ""
  {
    assert (cells + [c])[..|cells|] == cells;
    var a := SheetRecords(name, cells);
    if IsSharedFormula(c) {
      var rec := RecordOf(name, c);
      var ls := Lines(a, nl);
      assert SheetRecords(name, cells + [c]) == a + [rec];
      assert Lines(a + [rec], nl) == ls + [RecordLine(rec) + nl];
      assert (ls + [RecordLine(rec) + nl])[..|ls|] == ls;
    } else {
      assert SheetRecords(name, cells + [c]) == a + [];
      assert a + [] == a;
    }
  }

  /** The text of the record lines of the shared-formula cells among `cells`, in order. */
  function CellLines(name: string, cells: seq<Cell>, nl: string): string {
    if cells == [] then ""
    else
      var c := cells[|cells| - 1];
      CellLines(name, cells[..|cells| - 1], nl) + if IsSharedFormula(c) then RecordLine(RecordOf(name, c)) + nl else ""
  }

  /** The text of the record lines of a sheet. */
  function ViewText(v: SheetView, nl: string): string {
    if v.rows.None? then "" else CellLines(v.name, AllCells(v.rows.value), nl)
  }

  /** The text of the record lines of a run of sheets, sheet by sheet. */
  function ViewsText(views: seq<SheetView>, nl: string): string {
    if views == [] then "" else ViewsText(views[..|views| - 1], nl) + ViewText(views[|views| - 1], nl)
  }

  /** The cell-by-cell text is the text of the lines of the sheet's records. */
  lemma {:induction false} CellLinesAreLines(name: string, cells: seq<Cell>, nl: string)
    ensures CellLines(name, cells, nl) == Concat(Lines(SheetRecords(name, cells), nl))
  {
    if cells != [] {
      var init, c := cells[..|cells| - 1], cells[|cells| - 1];
      CellLinesAreLines(name, init, nl);
      assert cells == init + [c];
      SheetLinesSnoc(name, init, c, nl);
    }
  }

  /** The sheet-by-sheet text is the text of the lines of all records. */
  lemma {:induction false} ViewsTextAreLines(views: seq<SheetView>, nl: string)
    ensures ViewsText(views, nl) == Concat(Lines(Records(views), nl))
  {
    if views != [] {
      var init, v := views[..|views| - 1], views[|views| - 1];
      ViewsTextAreLines(init, nl);
      if v.rows.Some? {
        CellLinesAreLines(v.name, AllCells(v.rows.value), nl);
      }
      var a, b := Records(init), ViewRecords(v);
      assert Records(views) == a + b;
      LinesAppend(a, b, nl);
      ConcatAppend(Lines(a, nl), Lines(b, nl));
    }
  }

  // ---------------------------------------------------------------------------
  // The export loops
  // ---------------------------------------------------------------------------

  /**
   * The export loop over the sheets in declaration order: for every sheet
   * with a part and sheet data, the lines of its shared-formula cells, all
   * after the header line.
   */
  method ExportViews(views: seq<SheetView>, nl: string) returns (text: string)
    ensures text == ExportText(views, nl)
  {
    var body := "";
    var i := 0;
    while i < |views|
      invariant 0 <= i <= |views|
      invariant body == ViewsText(views[..i], nl)
    {
      assert views[..i + 1][..i] == views[..i];
      if views[i].rows.Some? {
        var lines := SheetLines(views[i].name, AllCells(views[i].rows.value), nl);
        body := body + lines;
      }
      i := i + 1;
    }
    assert views[..i] == views;
    ViewsTextAreLines(views, nl);
    text := Header + nl + body;
  }

  /** The loop over one sheet's cells in document order, appending the line of each shared-formula cell. */
  method SheetLines(name: string, cells: seq<Cell>, nl: string) returns (text: string)
    ensures text == CellLines(name, cells, nl)
  {
    text := "";
    var j := 0;
    while j < |cells|
      invariant 0 <= j <= |cells|
      invariant text == CellLines(name, cells[..j], nl)
    {
      var c := cells[j];
      assert cells[..j + 1][..j] == cells[..j];
      if IsSharedFormula(c) {
        text := text + RecordLine(RecordOf(name, c)) + nl;
      }
      j := j + 1;
    }
    assert cells[..j] == cells;
  }
}

=== FILE: exceldocument.dfy ===
/**
 * The public entry point (`ExcelDocument`): it owns one `ExcelInternal` and a
 * disposed flag. Every operation but `InitializeFile` and `Dispose` first
 * checks the flag and throws `ObjectDisposedException` once it is set; the
 * flag is never cleared.
 *
 * Opening a file is a parameter, as in `ExcelInternal.OpenBook`: the workbook
 * the file holds, or nothing when it cannot be opened. A value is written with
 * `isString` unset, as the `Value` property of a range handle does.
 */
module Facade {
  import opened Common
  import opened Address
  import opened Sheet
  import opened Document
  import opened CellValues
  import opened Internal
  import Grid

  class ExcelDocument {
    var internal: ExcelInternal
    var disposed: bool

    predicate Valid()
      reads this, internal
    {
      internal.Valid()
    }

    /** A new document holds a closed `ExcelInternal` and is not disposed. */
    constructor ()
      ensures Valid() && fresh(internal) && !internal.isOpen && internal.sheetManager.None? && !disposed
    {
      internal := new ExcelInternal();
      disposed := false;
    }

    /**
     * `InitializeFile`: replaces the internal object by a new one and opens the
     * book on it; a package that cannot be opened makes it throw. The disposed
     * flag is neither checked nor changed.
     */
    method InitializeFile(package: Option<Workbook>) returns (o: Outcome)
      modifies this
      ensures Valid() && fresh(internal) && disposed == old(disposed) && internal.clipboard.None?
      ensures package.None? ==> o == Failed(DocumentOpenFailed) && !internal.isOpen && internal.sheetManager.None?
      ensures package.Some? ==> o == Done && internal.isOpen && internal.document == package
                                && internal.sheetManager.Some? && internal.sheetManager.value.current == 0
    {
      internal := new ExcelInternal();
      var code := internal.OpenBook(package);
      if code < 0 {
        return Failed(DocumentOpenFailed);
      }
      return Done;
    }

    /** `SheetSelect`: the disposed check, then selection by 0-based position. */
    method SheetSelect(sheetId: int) returns (o: Outcome)
      requires Valid()
      modifies if internal.sheetManager.Some? then {internal.sheetManager.value} else {}
      ensures disposed ==> o == Failed(ObjectDisposed)
      ensures disposed && internal.sheetManager.Some? ==> internal.sheetManager.value.current == old(internal.sheetManager.value.current)
      ensures !disposed && internal.sheetManager.None? ==> o == Failed(NullReference)
      ensures !disposed && internal.sheetManager.Some? ==> var m := internal.sheetManager.value;
        && (0 <= sheetId < |m.doc.sheets| ==> o == Done && m.current == sheetId)
        && (!(0 <= sheetId < |m.doc.sheets|) ==> o == Failed(ArgumentOutOfRange) && m.current == old(m.current))
    {
      if disposed {
        return Failed(ObjectDisposed);
      }
      o := internal.SelectSheet(sheetId);
    }

    /** `SheetNames`: the disposed check, then the names of the sheets in order. */
    function SheetNames(): (r: Result<seq<string>>)
      reads this, internal, if internal.sheetManager.Some? then {internal.sheetManager.value.doc} else {}
      ensures disposed ==> r == Err(ObjectDisposed)
      ensures !disposed && internal.sheetManager.None? ==> r == Err(NullReference)
      ensures r.Ok? <==> !disposed && internal.sheetManager.Some?
      ensures r.Ok? ==> var sheets := internal.sheetManager.value.doc.sheets;
        |r.value| == |sheets| && forall i :: 0 <= i < |r.value| ==> r.value[i] == sheets[i].name.GetOr("")
    {
      if disposed then Err(ObjectDisposed) else internal.SheetNames()
    }

    /**
     * `SetValue(sx, sy, ex, ey, value)`: the disposed check, a range handle on
     * the current sheet (which can throw), then the value written into every
     * cell of the normalised rectangle, each cell created when missing. Only
     * the current sheet's part and the shared-string table change.
     */
    method SetValue(sx: Int32, sy: Int32, ex: Int32, ey: Int32, value: Value) returns (o: Outcome)
      requires Valid() && sx < INT_MAX && sy < INT_MAX && ex < INT_MAX && ey < INT_MAX
      modifies internal.Parts(), internal.Doc()`sharedStrings
      ensures disposed ==> o == Failed(ObjectDisposed)
      ensures !disposed && internal.sheetManager.None? ==> o == Failed(NullReference)
      ensures !disposed && internal.sheetManager.Some? ==> var cp := internal.sheetManager.value.CurrentWorksheetPart();
        && (cp.Err? ==> o == Failed(cp.error))
        && (cp.Ok? && internal.document.None? ==> o == Failed(ArgumentNull))
        && (cp.Ok? && internal.document.Some? && (sx <= 0 || sy <= 0 || ex <= 0 || ey <= 0) ==> o == Failed(ArgumentOutOfRange))
      ensures o == Done <==> !disposed && internal.sheetManager.Some? && internal.document.Some?
                             && internal.sheetManager.value.CurrentWorksheetPart().Ok? && sx > 0 && sy > 0 && ex > 0 && ey > 0
      ensures o == Done ==>
        var part, d := internal.sheetManager.value.CurrentWorksheetPart().value, internal.document.value;
        && d.sharedStrings == TableAfter(old(d.sharedStrings), value, false)
        && Grid.Filled(old(part.worksheet), part.worksheet, Grid.WriteValue(value, false, d.sharedStrings),
                       Grid.Rect(Min(sx, ex), Min(sy, ey), Max(sx, ex), Max(sy, ey)))
        && Grid.Kept(old(part.worksheet), part.worksheet)
        && (WellFormed(old(part.worksheet)) ==> WellFormed(part.worksheet))
        && forall q :: q in old(internal.Parts()) && q != part ==> unchanged(q)
      ensures o != Done ==> unchanged(internal.Parts()) && unchanged(internal.Doc())
    {
      if disposed {
        return Failed(ObjectDisposed);
      }
      var pos := internal.Pos(sx, sy, ex, ey);
      if pos.Err? {
        return Failed(pos.error);
      }
      var p := pos.value;
      p.SetValue(value, false);
      o := Done;
    }

    /** `SetValue(sx, sy, value)`: exactly `SetValue(sx, sy, sx, sy, value)`, the one cell (`sx`, `sy`). */
    method SetValueAt(sx: Int32, sy: Int32, value: Value) returns (o: Outcome)
      requires Valid() && sx < INT_MAX && sy < INT_MAX
      modifies internal.Parts(), internal.Doc()`sharedStrings
      ensures disposed ==> o == Failed(ObjectDisposed)
      ensures o == Done <==> !disposed && internal.sheetManager.Some? && internal.document.Some?
                             && internal.sheetManager.value.CurrentWorksheetPart().Ok? && sx > 0 && sy > 0
      ensures o == Done ==>
        var part, d := internal.sheetManager.value.CurrentWorksheetPart().value, internal.document.value;
        && d.sharedStrings == TableAfter(old(d.sharedStrings), value, false)
        && Grid.Filled(old(part.worksheet), part.worksheet, Grid.WriteValue(value, false, d.sharedStrings),
                       Grid.Rect(sx, sy, sx, sy))
        && Grid.Kept(old(part.worksheet), part.worksheet)
      ensures o != Done ==> unchanged(internal.Parts()) && unchanged(internal.Doc())
    {
      o := SetValue(sx, sy, sx, sy, value);
    }

    /** `FinalizeFile`: the disposed check, then `CloseBook`, saving when `save` is set. */
    method FinalizeFile(save: bool) returns (o: Outcome, saved: bool)
      requires Valid()
      modifies internal
      ensures Valid()
      ensures disposed ==> o == Failed(ObjectDisposed) && !saved && unchanged(internal)
      ensures !disposed && !old(internal.isOpen) ==> o == Done && !saved && unchanged(internal)
      ensures !disposed && old(internal.isOpen) ==> o == Done && saved == save && !internal.isOpen && internal.document.None?
                                                    && internal.sheetManager == old(internal.sheetManager)
    {
      if disposed {
        return Failed(ObjectDisposed), false;
      }
      saved := internal.CloseBook(save);
      o := Done;
    }

    /** `Dispose`: idempotent; the first call disposes the internal object and sets the flag. */
    method Dispose()
      requires Valid()
      modifies this, internal
      ensures Valid() && disposed && internal == old(internal)
      ensures old(disposed) ==> unchanged(this) && unchanged(internal)
      ensures !old(disposed) ==> !internal.isOpen && internal.document.None?
                                 && internal.sheetManager == old(internal.sheetManager)
    {
      if disposed {
        return;
      }
      internal.Dispose();
      disposed := true;
    }
  }
}

=== FILE: excelinternal.dfy ===
/**
 * The workbook-level operations of an open document (`ExcelInternal`): opening
 * and closing, sheet selection, range handles, the one-slot clipboard, print
 * areas, row deletion, the calculation properties and the shared-formula
 * export.
 *
 * Opening a package is a parameter: the workbook the package holds, or
 * nothing when `SpreadsheetDocument.Open` throws. Saving, disposing the
 * package and writing the export file are I/O and leave no trace in the
 * model beyond the flags they read.
 *
 * The sheet manager is a collaborator whose source is not part of this
 * model; `SheetManager` below is a stand-in that keeps the position of the
 * current sheet in the workbook's sheet list.
 */
module Internal {
  import opened Common
  import opened Address
  import opened Sheet
  import opened Document
  import opened CellValues
  import opened RowDeletion
  import opened Csv
  import opened PrintAreas
  import Grid
  import ColumnStyles

  /** The worksheet parts the sheets of a list resolve to. */
  function PartsOf(sheets: seq<SheetEntry>): set<WorksheetPart> {
    set i | 0 <= i < |sheets| && sheets[i].part.Some? :: sheets[i].part.value
  }

  /** The sheet names, a missing name as "". */
  function Names(sheets: seq<SheetEntry>): seq<string> {
    seq(|sheets|, i requires 0 <= i < |sheets| => sheets[i].name.GetOr(""))
  }

  /** Stand-in for the sheet manager: the workbook it was built on and the position of the current sheet. */
  class SheetManager {
    const doc: Workbook
    var current: nat

    constructor (doc: Workbook)
      ensures this.doc == doc && current == 0
    {
      this.doc := doc;
      current := 0;
    }

    /** Selects the sheet at a 0-based position; a position outside the list is an `ArgumentOutOfRangeException`. */
    method SelectByIndex(index: int) returns (o: Outcome)
      modifies this
      ensures 0 <= index < |doc.sheets| ==> o == Done && current == index
      ensures !(0 <= index < |doc.sheets|) ==> o == Failed(ArgumentOutOfRange) && current == old(current)
    {
      if 0 <= index < |doc.sheets| {
        current := index;
        return Done;
      }
      return Failed(ArgumentOutOfRange);
    }

    function CurrentSheetName(): Result<Option<string>>
      reads this, doc
    {
      if current < |doc.sheets| then Ok(doc.sheets[current].name) else Err(InvalidOperation)
    }

    function CurrentWorksheetPart(): (r: Result<WorksheetPart>)
      reads this, doc
      ensures r.Ok? ==> r.value in PartsOf(doc.sheets)
    {
      if current < |doc.sheets| && doc.sheets[current].part.Some? then Ok(doc.sheets[current].part.value)
      else Err(InvalidOperation)
    }
  }

  /** A sheet as the export reads it: its name ("" when absent) and the rows of its sheet data, if it has a part and sheet data. */
  function ViewOf(e: SheetEntry): SheetView
    reads if e.part.Some? then {e.part.value} else {}
  {
    SheetView(e.name.GetOr(""), if e.part.Some? then e.part.value.worksheet.sheetData else None)
  }

  function Views(sheets: seq<SheetEntry>): (vs: seq<SheetView>)
    reads PartsOf(sheets)
    ensures |vs| == |sheets|
  {
    seq(|sheets|, i requires 0 <= i < |sheets| reads PartsOf(sheets) => ViewOf(sheets[i]))
  }

  /** The calculation properties that make Excel recalculate everything when the file is opened. */
  const RecalcOnOpen: CalcProperties := CalcProperties(Some(Auto), Some(true))

  /** The calculation modes of the public API. */
  datatype CalculationMode = Manual | Automatic

  /** The calculation properties a mode is set with: manual or automatic calculation, never a full calculation on load. */
  function ModeProperties(mode: CalculationMode): (p: CalcProperties)
    ensures p.fullCalcOnLoad == Some(false)
    ensures p.mode == Some(CalcMode.Manual) <==> mode == CalculationMode.Manual
    ensures p.mode == Some(Auto) <==> mode == Automatic
  {
    CalcProperties(Some(if mode == CalculationMode.Manual then CalcMode.Manual else Auto), Some(false))
  }

  class ExcelInternal {
    var document: Option<Workbook>
    var sheetManager: Option<SheetManager>
    var isOpen: bool
    var clipboard: Option<CellSnapshot>

    /** A document is held exactly while the book is open, and the sheet manager was built on it. */
    predicate Valid()
      reads this
    {
      && (document.Some? <==> isOpen)
      && (isOpen ==> sheetManager.Some? && sheetManager.value.doc == document.value)
    }

    /** The workbook, as a frame. */
    function Doc(): set<Workbook>
      reads this
    {
      if document.Some? then {document.value} else {}
    }

    /** The worksheet parts the sheet manager can hand out, as a frame. */
    function Parts(): set<WorksheetPart>
      reads this, if sheetManager.Some? then {sheetManager.value.doc} else {}
    {
      if sheetManager.Some? then PartsOf(sheetManager.value.doc.sheets) else {}
    }

    constructor ()
      ensures Valid() && document.None? && sheetManager.None? && !isOpen && clipboard.None?
    {
      document := None;
      sheetManager := None;
      isOpen := false;
      clipboard := None;
    }

    /** `OpenBook`: 0 with the book open on the package's workbook, or -1 with nothing changed when the package cannot be opened. */
    method OpenBook(package: Option<Workbook>) returns (code: int)
      requires Valid()
      modifies this
      ensures Valid()
      ensures package.None? ==> code == -1 && unchanged(this)
      ensures package.Some? ==> code == 0 && isOpen && document == package && clipboard == old(clipboard)
                                && sheetManager.Some? && fresh(sheetManager.value) && sheetManager.value.current == 0
    {
      if package.None? {
        return -1;
      }
      document := package;
      var m := new SheetManager(package.value);
      sheetManager := Some(m);
      isOpen := true;
      return 0;
    }

    /** `Dispose`: releases the document and marks the book closed; the sheet manager and the clipboard stay. */
    method Dispose()
      requires Valid()
      modifies this
      ensures Valid()
      ensures document.None? && !isOpen && sheetManager == old(sheetManager) && clipboard == old(clipboard)
    {
      document := None;
      isOpen := false;
    }

    /** `CloseBook`: nothing when the book is not open; otherwise saves when `mode` is set (reported as `saved`) and disposes. */
    method CloseBook(mode: bool) returns (saved: bool)
      requires Valid()
      modifies this
      ensures Valid()
      ensures !old(isOpen) ==> !saved && unchanged(this)
      ensures old(isOpen) ==> saved == mode && document.None? && !isOpen
                              && sheetManager == old(sheetManager) && clipboard == old(clipboard)
    {
      if !isOpen {
        return false;
      }
      saved := mode;
      Dispose();
    }

    /** The `SheetNo` setter: selection through the sheet manager. */
    method SelectSheet(index: int) returns (o: Outcome)
      requires Valid()
      modifies if sheetManager.Some? then {sheetManager.value} else {}
      ensures sheetManager.None? ==> o == Failed(NullReference)
      ensures sheetManager.Some? ==> var m := sheetManager.value;
        && (0 <= index < |m.doc.sheets| ==> o == Done && m.current == index)
        && (!(0 <= index < |m.doc.sheets|) ==> o == Failed(ArgumentOutOfRange) && m.current == old(m.current))
    {
      if sheetManager.None? {
        return Failed(NullReference);
      }
      o := sheetManager.value.SelectByIndex(index);
    }

    /** `SheetNames`: the names of the workbook's sheets, in order. */
    function SheetNames(): (r: Result<seq<string>>)
      reads this, if sheetManager.Some? then {sheetManager.value.doc} else {}
      ensures sheetManager.None? ==> r == Err(NullReference)
      ensures sheetManager.Some? ==> r.Ok? && |r.value| == |sheetManager.value.doc.sheets|
      ensures sheetManager.Some? ==> forall i :: 0 <= i < |r.value| ==>
                r.value[i] == sheetManager.value.doc.sheets[i].name.GetOr("")
    {
      if sheetManager.None? then Err(NullReference) else Ok(Names(sheetManager.value.doc.sheets))
    }

    /**
     * `Pos(sx, sy, ex, ey)`: a range handle on the current sheet's worksheet
     * part. The handle's constructor throws for a missing document and for
     * a non-positive coordinate, and normalises the corners.
     */
    method Pos(sx: Int32, sy: Int32, ex: Int32, ey: Int32) returns (r: Result<Grid.PosProxy>)
      requires Valid()
      ensures sheetManager.None? ==> r == Err(NullReference)
      ensures sheetManager.Some? ==> var cp := sheetManager.value.CurrentWorksheetPart();
        && (cp.Err? ==> r == Err(cp.error))
        && (cp.Ok? && document.None? ==> r == Err(ArgumentNull))
        && (cp.Ok? && document.Some? && (sx <= 0 || sy <= 0 || ex <= 0 || ey <= 0) ==> r == Err(ArgumentOutOfRange))
        && (r.Ok? <==> cp.Ok? && document.Some? && sx > 0 && sy > 0 && ex > 0 && ey > 0)
        && (r.Ok? ==> var p := r.value;
              && fresh(p) && p.Valid() && p.doc == document.value && p.part == cp.value
              && p.sx == Min(sx, ex) && p.sy == Min(sy, ey) && p.ex == Max(sx, ex) && p.ey == Max(sy, ey)
              && p.columnStyleMap == (if cp.value.worksheet.columns.None? then [] else ColumnStyles.StyledSpans(cp.value.worksheet.columns.value))
              && p.colStyleCache.None? && p.templateStyleIndex == 0)
    {
      if sheetManager.None? {
        return Err(NullReference);
      }
      var cp := sheetManager.value.CurrentWorksheetPart();
      if cp.Err? {
        return Err(cp.error);
      }
      r := Grid.PosProxy.Create(document, Some(cp.value), sx, sy, ex, ey);
    }

    /** `Pos(sx, sy)`: the one-cell range handle, as `Pos(sx, sy, sx, sy)`. */
    method PosAt(sx: Int32, sy: Int32) returns (r: Result<Grid.PosProxy>)
      requires Valid()
      ensures sheetManager.None? ==> r == Err(NullReference)
      ensures sheetManager.Some? ==> var cp := sheetManager.value.CurrentWorksheetPart();
        && (cp.Err? ==> r == Err(cp.error))
        && (r.Ok? <==> cp.Ok? && document.Some? && sx > 0 && sy > 0)
        && (r.Ok? ==> var p := r.value;
              && fresh(p) && p.Valid() && p.doc == document.value && p.part == cp.value
              && p.sx == sx && p.sy == sy && p.ex == sx && p.ey == sy
              && p.columnStyleMap == (if cp.value.worksheet.columns.None? then [] else ColumnStyles.StyledSpans(cp.value.worksheet.columns.value))
              && p.colStyleCache.None? && p.templateStyleIndex == 0)
    {
      r := Pos(sx, sy, sx, sy);
    }

    /** `SetClipboard`: the one slot holds the snapshot, replacing any earlier one. */
    method SetClipboard(snapshot: CellSnapshot)
      modifies this`clipboard
      ensures clipboard == Some(snapshot) && GetClipboard() == Some(snapshot)
    {
      clipboard := Some(snapshot);
    }

    /** `GetClipboard`: the snapshot last set, or none. */
    function GetClipboard(): Option<CellSnapshot>
      reads this
    {
      clipboard
    }

    /**
     * `PrintArea(sx, sy, ex, ey)`: without a document a
     * `NullReferenceException`; otherwise the defined names become those
     * `SetPrintArea` gives, on every path, including the ones that throw
     * after the old print areas were removed.
     */
    method PrintArea(sx: int, sy: int, ex: int, ey: int) returns (o: Outcome)
      requires Valid()
      modifies Doc()`definedNames
      ensures document.None? ==> o == Failed(NullReference)
      ensures document.Some? ==>
        var r := SetPrintArea(old(document.value.definedNames), document.value.sheets,
                              old(sheetManager.value.CurrentSheetName()), sx, sy, ex, ey);
        o == r.0 && document.value.definedNames == Some(r.1)
    {
      if document.None? {
        return Failed(NullReference);
      }
      var wb := document.value;
      var names := if wb.definedNames.Some? then wb.definedNames.value else [];
      wb.definedNames := Some(names);
      var current := sheetManager.value.CurrentSheetName();
      if current.Err? {
        return Failed(current.error);
      }
      var k := SheetPosition(wb.sheets, current.value);
      if k == |wb.sheets| {
        return Failed(InvalidOperation);
      }
      var kept := RemovePrintAreas(names, k);
      wb.definedNames := Some(kept);
      var formula := PrintAreaFormula(current.value, sx, sy, ex, ey);
      if formula.Err? {
        return Failed(formula.error);
      }
      wb.definedNames := Some(kept + [DefinedName(Some(PrintAreaName), Some(k), formula.value)]);
      return Done;
    }

    /** `PrintArea(string)`: blank or unparsable text throws with nothing changed; otherwise the parsed corners are delegated. */
    method PrintAreaText(a1Range: string) returns (o: Outcome)
      requires Valid()
      modifies Doc()`definedNames
      ensures IsBlank(a1Range) || !TryParseA1Range(a1Range).ok ==> o == Failed(Argument) && unchanged(Doc())
      ensures document.Some? ==>
        var r := SetPrintAreaText(old(document.value.definedNames), document.value.sheets,
                                  old(sheetManager.value.CurrentSheetName()), a1Range);
        o == r.0 && document.value.definedNames == r.1
    {
      if IsBlank(a1Range) {
        return Failed(Argument);
      }
      var p := TryParseA1Range(a1Range);
      if !p.ok {
        return Failed(Argument);
      }
      o := PrintArea(p.sx, p.sy, p.ex, p.ey);
    }

    /** `RemoveCalcChain`: the calculation chain part is deleted if present. */
    method RemoveCalcChain()
      requires document.Some?
      modifies Doc()`hasCalcChain
      ensures !document.value.hasCalcChain
    {
      document.value.hasCalcChain := false;
    }

    /** `EnsureRecalcOnOpen`: calculation mode automatic and a full calculation on load. */
    method EnsureRecalcOnOpen()
      requires document.Some?
      modifies Doc()`calcPr
      ensures document.value.calcPr == Some(RecalcOnOpen)
    {
      document.value.calcPr := Some(RecalcOnOpen);
    }

    /**
     * `SetCalculationMode`: a closed book throws; otherwise the calculation
     * properties (created if missing) get the mode, manual or automatic, and
     * no full calculation on load in either case.
     */
    method SetCalculationMode(mode: CalculationMode) returns (o: Outcome)
      requires Valid()
      modifies Doc()`calcPr
      ensures !isOpen ==> o == Failed(InvalidOperation)
      ensures isOpen ==> o == Done && document.value.calcPr == Some(ModeProperties(mode))
    {
      if !isOpen {
        return Failed(InvalidOperation);
      }
      var m := if mode == CalculationMode.Manual then CalcMode.Manual else Auto;
      document.value.calcPr := Some(CalcProperties(Some(m), Some(false)));
      return Done;
    }

    /**
     * `RowDelete(sy, count)`: deletes the rows `sy + 1 .. sy + count` of the
     * current sheet and moves the rows below up. A closed book, a negative
     * `sy` or a non-positive `count` throw; a sheet without sheet data is
     * left alone. Otherwise the rows become those `DeleteRows` gives; when a
     * reference cannot be rewritten the deletion throws there, and the
     * calculation chain and properties are left as they were; otherwise the
     * chain is removed and the book recalculates on open. No other sheet
     * changes, and a well-formed sheet never makes the deletion throw.
     */
    method RowDelete(sy: Int32, count: Int32) returns (o: Outcome)
      requires Valid()
      modifies Doc()`calcPr, Doc()`hasCalcChain, Parts()
      ensures !isOpen ==> o == Failed(InvalidOperation)
      ensures isOpen && sy < 0 ==> o == Failed(ArgumentOutOfRange)
      ensures isOpen && sy >= 0 && count <= 0 ==> o == Failed(ArgumentOutOfRange)
      ensures isOpen && sy >= 0 && count > 0 ==>
        var cp := sheetManager.value.CurrentWorksheetPart();
        && (cp.Err? ==> o == Failed(cp.error))
        && (cp.Ok? && old(cp.value.worksheet.sheetData).None? ==> o == Done && cp.value.worksheet == old(cp.value.worksheet))
        && (cp.Ok? && old(cp.value.worksheet.sheetData).Some? ==>
              var d := DeleteRows(old(cp.value.worksheet.sheetData.value), sy, count);
              && cp.value.worksheet == old(cp.value.worksheet).(sheetData := Some(d.0))
              && (d.1 ==> o == Done && document.value.calcPr == Some(RecalcOnOpen) && !document.value.hasCalcChain)
              && (!d.1 ==> o == Failed(ArgumentOutOfRange) && unchanged(Doc()))
              && (WellFormed(old(cp.value.worksheet)) ==> d.1 && WellFormed(cp.value.worksheet)))
      ensures o != Done ==> unchanged(Doc())
      ensures forall p :: p in old(Parts()) && (isOpen ==> Ok(p) != sheetManager.value.CurrentWorksheetPart()) ==>
                p.worksheet == old(p.worksheet)
    {
      if !isOpen {
        return Failed(InvalidOperation);
      }
      if sy < 0 || count <= 0 {
        return Failed(ArgumentOutOfRange);
      }
      var cp := sheetManager.value.CurrentWorksheetPart();
      if cp.Err? {
        return Failed(cp.error);
      }
      var part := cp.value;
      var ws := part.worksheet;
      if ws.sheetData.None? {
        return Done;
      }
      var shifted, ok := DeleteRowBlock(ws.sheetData.value, sy, count);
      part.worksheet := ws.(sheetData := Some(shifted));
      if !ok {
        return Failed(ArgumentOutOfRange);
      }
      RemoveCalcChain();
      EnsureRecalcOnOpen();
      return Done;
    }

    /**
     * `ExportSharedFormulasCsv`: a closed book or a blank output path throw;
     * otherwise the text written is the header line followed by the line of
     * every shared-formula cell, sheet by sheet and cell by cell.
     */
    method ExportSharedFormulasCsv(outputPath: string, nl: string) returns (r: Result<string>)
      requires Valid()
      ensures !isOpen ==> r == Err(InvalidOperation)
      ensures isOpen && IsBlank(outputPath) ==> r == Err(Argument)
      ensures isOpen && !IsBlank(outputPath) ==> r == Ok(ExportText(Views(document.value.sheets), nl))
    {
      if !isOpen {
        return Err(InvalidOperation);
      }
      if IsBlank(outputPath) {
        return Err(Argument);
      }
      var views := Views(document.value.sheets);
      var text := ExportViews(views, nl);
      assert text == ExportText(views, nl);
      assert views == Views(document.value.sheets);
      r := Ok(text);
    }
  }
}

=== FILE: grid.dfy ===
/**
 * The range handle of a worksheet (`PosProxy`): a rectangle of cells,
 * normalised so that its start is its top-left corner, through which values
 * and styles are written, the top-left value is read, snapshots are taken and
 * pasted, cells are merged and background colours applied.
 *
 * Every write walks the rectangle row by row, finding or creating each cell
 * (creating the row and the sheet data as needed) and then changing that cell
 * alone. A method's effect is stated cell by cell through `CellAt`: inside the
 * rectangle the cell becomes a function of the cell it was (or of a new cell
 * with the coordinate's reference), outside it nothing changes, and a
 * well-formed sheet stays well-formed.
 */
module Grid {
  import opened Common
  import opened Address
  import opened Sheet
  import opened Document
  import opened CellOrder
  import opened ColumnStyles
  import opened CellValues
  import opened StyleSpec
  import SM = StyleManagement
  import Styles
  import Colors

  // ---------------------------------------------------------------------------
  // Cells of a worksheet, by coordinate
  // ---------------------------------------------------------------------------

  /** The cell a write to (`col`, `row`) starts from: the cell found, or a new cell with the coordinate's reference. */
  function Base(ws: Worksheet, col: int, row: int): Cell
    requires col >= 1
  {
    CellAt(ws, col, row).GetOr(NewCell(A1(col, row)))
  }

  /** `loc` is the (row, cell) position at which the lookups find the cell of (`col`, `row`). */
  predicate Locates(ws: Worksheet, loc: (nat, nat), col: int, row: int)
    requires col >= 1
  {
    && ws.sheetData.Some?
    && loc.0 == RowPos(ws.sheetData.value, row) && loc.0 < |ws.sheetData.value|
    && loc.1 == CellPos(ws.sheetData.value[loc.0].cells, A1(col, row)) && loc.1 < |ws.sheetData.value[loc.0].cells|
  }

  /** Every row keeps its style; the column definitions and the merged ranges are kept. */
  ghost predicate Kept(ws0: Worksheet, ws1: Worksheet) {
    && (forall r :: RowStyleAt(ws1, r) == RowStyleAt(ws0, r))
    && ws1.columns == ws0.columns && ws1.mergeCells == ws0.mergeCells
  }

  /** Every coordinate but (`col`, `row`) denotes the same cell, and everything `Kept` names is kept. */
  ghost predicate SameElsewhere(ws0: Worksheet, ws1: Worksheet, col: int, row: int) {
    && (forall c, r :: IsCoord(c, r) && (c != col || r != row) ==> CellAt(ws1, c, r) == CellAt(ws0, c, r))
    && Kept(ws0, ws1)
  }

  /**
   * Inserting a missing cell where `GetOrCreateCell` inserts it: the lookups
   * then find the new cell, every other coordinate denotes the same cell,
   * every row keeps its style and a well-formed sheet stays well-formed.
   */
  lemma CellInsertKeeps(rows: seq<Row>, k: nat, col: int, row: int)
    requires IsCoord(col, row) && k == RowPos(rows, row) && k < |rows|
    requires CellPos(rows[k].cells, A1(col, row)) == |rows[k].cells|
    ensures var at := CellInsertPos(rows[k].cells, A1(col, row));
      var nr := RowsWithCell(rows, k, at, A1(col, row));
      && k == RowPos(nr, row) && k < |nr| && at == CellPos(nr[k].cells, A1(col, row)) && at < |nr[k].cells|
      && (forall c, r :: IsCoord(c, r) ==> CellIn(nr, c, r) == if c == col && r == row then Some(NewCell(A1(col, row))) else CellIn(rows, c, r))
      && (forall r :: RowStyleIn(nr, r) == RowStyleIn(rows, r))
      && (RowsWellFormed(rows) ==> RowsWellFormed(nr))
  {
    var cellRef := A1(col, row);
    var at := CellInsertPos(rows[k].cells, cellRef);
    var nr := RowsWithCell(rows, k, at, cellRef);
    forall c, r | IsCoord(c, r)
      ensures CellIn(nr, c, r) == if c == col && r == row then Some(NewCell(cellRef)) else CellIn(rows, c, r)
    {
      CellInAfterCellInsert(rows, k, at, col, row, c, r);
    }
    forall r
      ensures RowStyleIn(nr, r) == RowStyleIn(rows, r)
    {
      RowPosReplace(rows, k, nr[k], r);
    }
    if RowsWellFormed(rows) {
      CellInsertWellFormed(rows[k].cells, col, row);
      RowCellsWellFormed(rows, k, InsertAt(rows[k].cells, at, NewCell(cellRef)));
    }
    RowPosReplace(rows, k, nr[k], row);
    assert RefMatches(NewCell(cellRef), cellRef);
    CellPosIs(nr[k].cells, cellRef, at);
  }

  /** Replacing the cell of (`col`, `row`) by one with the same reference changes that coordinate alone. */
  lemma ReplaceFrame(ws: Worksheet, loc: (nat, nat), x: Cell, col: int, row: int)
    requires IsCoord(col, row) && Locates(ws, loc, col, row)
    requires x.reference == ws.sheetData.value[loc.0].cells[loc.1].reference
    ensures var ws2 := ws.(sheetData := Some(RowsWithCellReplaced(ws.sheetData.value, loc.0, loc.1, x)));
      && CellAt(ws2, col, row) == Some(x)
      && SameElsewhere(ws, ws2, col, row)
      && (WellFormed(ws) ==> WellFormed(ws2))
  {
    var rows := ws.sheetData.value;
    var nr := RowsWithCellReplaced(rows, loc.0, loc.1, x);
    forall c, r | IsCoord(c, r)
      ensures CellIn(nr, c, r) == if c == col && r == row then Some(x) else CellIn(rows, c, r)
    {
      CellInAfterReplace(rows, loc.0, loc.1, x, col, row, c, r);
    }
    forall r
      ensures RowStyleIn(nr, r) == RowStyleIn(rows, r)
    {
      RowPosReplace(rows, loc.0, nr[loc.0], r);
    }
    if WellFormed(ws) {
      ReplaceWellFormed(rows, loc.0, loc.1, x);
    }
  }

  // ---------------------------------------------------------------------------
  // Walking a rectangle
  // ---------------------------------------------------------------------------

  /** The normalised rectangle of a range: columns `sx..ex`, rows `sy..ey`. */
  datatype Rect = Rect(sx: int, sy: int, ex: int, ey: int) {
    predicate Contains(c: int, r: int) {
      sx <= c <= ex && sy <= r <= ey
    }

    /** (`c`, `r`) lies in the rows walked before (`col`, `row`) in the row-by-row walk. */
    predicate Before(row: int, col: int, c: int, r: int) {
      sx <= c <= ex && sy <= r && (r < row || (r == row && c < col))
    }
  }

  /** What a walk does to each cell it visits. */
  datatype Stamp =
    | WriteValue(value: Value, isString: bool, table: seq<string>)
    | SetStyle(style: UInt32)
    | Paste(snapshot: CellSnapshot, table: seq<string>)
    | BackColor(spans: seq<Span>, ws: Worksheet, rgb: string, cache: map<StyleKey, nat>)

  /** The cell a visit leaves behind; the reference is never changed. */
  function Stamped(s: Stamp, c: Cell): (r: Cell)
    ensures r.reference == c.reference
  {
    match s
    case WriteValue(v, isString, t) => WrittenCell(c, v, isString, t)
    case SetStyle(i) => c.(style := Some(i))
    case Paste(snap, t) =>
      var w := WrittenCell(c, snap.value, snap.isString, t);
      if snap.styleIndex != 0 then w.(style := Some(snap.styleIndex)) else w
    case BackColor(spans, ws, rgb, cache) =>
      var key := FillKey(BaseStyle(c, spans, ws), rgb);
      if key in cache && cache[key] <= UINT_MAX then c.(style := Some(cache[key])) else c
  }

  /** The walk has stamped every cell before (`col`, `row`) and nothing else. */
  ghost predicate Painted(ws0: Worksheet, ws: Worksheet, s: Stamp, area: Rect, row: int, col: int) {
    forall c, r :: IsCoord(c, r) ==>
      CellAt(ws, c, r) == if area.Before(row, col, c, r) then Some(Stamped(s, Base(ws0, c, r))) else CellAt(ws0, c, r)
  }

  /** Every cell of the rectangle is stamped and every other coordinate denotes the cell it did. */
  ghost predicate Filled(ws0: Worksheet, ws: Worksheet, s: Stamp, area: Rect) {
    forall c, r :: IsCoord(c, r) ==>
      CellAt(ws, c, r) == if area.Contains(c, r) then Some(Stamped(s, Base(ws0, c, r))) else CellAt(ws0, c, r)
  }

  /** Stamping the cell at (`col`, `row`) moves the walk one cell on. */
  lemma PaintStep(ws0: Worksheet, ws: Worksheet, ws2: Worksheet, s: Stamp, area: Rect, row: int, col: int)
    requires IsCoord(col, row) && area.sx <= col <= area.ex && area.sy <= row
    requires Painted(ws0, ws, s, area, row, col)
    requires CellAt(ws2, col, row) == Some(Stamped(s, Base(ws, col, row)))
    requires forall c, r :: IsCoord(c, r) && (c != col || r != row) ==> CellAt(ws2, c, r) == CellAt(ws, c, r)
    ensures Painted(ws0, ws2, s, area, row, col + 1)
  {
    forall c, r | IsCoord(c, r)
      ensures CellAt(ws2, c, r) == if area.Before(row, col + 1, c, r) then Some(Stamped(s, Base(ws0, c, r))) else CellAt(ws0, c, r)
    {
      if c == col && r == row {
        assert !area.Before(row, col, col, row);
        assert Base(ws, col, row) == Base(ws0, col, row);
      } else {
        assert area.Before(row, col + 1, c, r) == area.Before(row, col, c, r);
      }
    }
  }

  /**
   * One visit of the walk: the cell of (`col`, `row`) has been found or
   * created (`ws` to `ws1`) and is then replaced by its stamped form.
   */
  lemma VisitStep(ws0: Worksheet, ws: Worksheet, ws1: Worksheet, loc: (nat, nat), s: Stamp, area: Rect, row: int, col: int)
    requires IsCoord(col, row) && area.sx <= col <= area.ex && area.sy <= row
    requires Painted(ws0, ws, s, area, row, col) && Kept(ws0, ws) && (WellFormed(ws0) ==> WellFormed(ws))
    requires CellAt(ws1, col, row) == Some(Base(ws, col, row)) && SameElsewhere(ws, ws1, col, row)
    requires WellFormed(ws) ==> WellFormed(ws1)
    requires Locates(ws1, loc, col, row)
    ensures var rows := ws1.sheetData.value;
      var ws2 := ws1.(sheetData := Some(RowsWithCellReplaced(rows, loc.0, loc.1, Stamped(s, rows[loc.0].cells[loc.1]))));
      Painted(ws0, ws2, s, area, row, col + 1) && Kept(ws0, ws2) && (WellFormed(ws0) ==> WellFormed(ws2))
  {
    var rows := ws1.sheetData.value;
    var x := Stamped(s, rows[loc.0].cells[loc.1]);
    var ws2 := ws1.(sheetData := Some(RowsWithCellReplaced(rows, loc.0, loc.1, x)));
    ReplaceFrame(ws1, loc, x, col, row);
    assert CellAt(ws1, col, row) == Some(rows[loc.0].cells[loc.1]);
    PaintStep(ws0, ws, ws2, s, area, row, col);
  }

  /** Finishing a row of the walk starts the next. */
  lemma PaintNextRow(ws0: Worksheet, ws: Worksheet, s: Stamp, area: Rect, row: int)
    requires Painted(ws0, ws, s, area, row, area.ex + 1)
    ensures Painted(ws0, ws, s, area, row + 1, area.sx)
  {
    forall c, r | IsCoord(c, r)
      ensures area.Before(row, area.ex + 1, c, r) == area.Before(row + 1, area.sx, c, r)
    {
    }
  }

  /**
   * The walk stopped at (`col`, `row`) of the rectangle: the cells visited
   * before it are stamped, the cell of (`col`, `row`) exists, as it was or
   * as a new cell, and every other coordinate denotes the cell it did.
   */
  ghost predicate StoppedAt(ws0: Worksheet, ws: Worksheet, s: Stamp, area: Rect, row: int, col: int) {
    && area.Contains(col, row)
    && forall c, r :: IsCoord(c, r) ==>
      CellAt(ws, c, r) == if area.Before(row, col, c, r) then Some(Stamped(s, Base(ws0, c, r)))
                          else if c == col && r == row then Some(Base(ws0, c, r))
                          else CellAt(ws0, c, r)
  }

  /** The walk stopped part-way, at some cell of the rectangle. */
  ghost predicate Stopped(ws0: Worksheet, ws: Worksheet, s: Stamp, area: Rect) {
    exists row, col :: StoppedAt(ws0, ws, s, area, row, col)
  }

  /** A walk that has found or created the cell of (`col`, `row`) and goes no further stops there. */
  lemma PaintStop(ws0: Worksheet, ws: Worksheet, ws1: Worksheet, s: Stamp, area: Rect, row: int, col: int)
    requires IsCoord(col, row) && area.Contains(col, row)
    requires Painted(ws0, ws, s, area, row, col)
    requires CellAt(ws1, col, row) == Some(Base(ws, col, row))
    requires forall c, r :: IsCoord(c, r) && (c != col || r != row) ==> CellAt(ws1, c, r) == CellAt(ws, c, r)
    ensures Stopped(ws0, ws1, s, area)
  {
    assert !area.Before(row, col, col, row);
    assert StoppedAt(ws0, ws1, s, area, row, col);
  }

  /** Wherever the walk stopped, every coordinate outside the rectangle denotes the cell it did. */
  lemma StoppedOutside(ws0: Worksheet, ws: Worksheet, s: Stamp, area: Rect)
    requires Stopped(ws0, ws, s, area)
    ensures forall c, r :: IsCoord(c, r) && !area.Contains(c, r) ==> CellAt(ws, c, r) == CellAt(ws0, c, r)
  {
    var row, col :| StoppedAt(ws0, ws, s, area, row, col);
  }

  /** The finished walk has filled the rectangle. */
  lemma PaintDone(ws0: Worksheet, ws: Worksheet, s: Stamp, area: Rect)
    requires Painted(ws0, ws, s, area, area.ey + 1, area.sx)
    ensures Filled(ws0, ws, s, area)
  {
    forall c, r | IsCoord(c, r)
      ensures area.Before(area.ey + 1, area.sx, c, r) == area.Contains(c, r)
    {
    }
  }

  // ---------------------------------------------------------------------------
  // Merged ranges
  // ---------------------------------------------------------------------------

  /** A merged-range entry equal to `t` ignoring case exists. */
  predicate HasMerge(merges: seq<Option<string>>, t: string) {
    exists i :: 0 <= i < |merges| && merges[i].Some? && EqualsIgnoreCase(merges[i].value, t)
  }

  /** The merged ranges after `Merge` registers `t`: appended unless an entry equal ignoring case exists. */
  function WithMerge(merges: seq<Option<string>>, t: string): seq<Option<string>> {
    if HasMerge(merges, t) then merges else merges + [Some(t)]
  }

  /** Registering a range makes it present, keeps every earlier entry, adds at most one, and is idempotent. */
  lemma WithMergeProperties(merges: seq<Option<string>>, t: string)
    ensures HasMerge(WithMerge(merges, t), t)
    ensures |merges| <= |WithMerge(merges, t)| <= |merges| + 1
    ensures WithMerge(merges, t)[..|merges|] == merges
    ensures WithMerge(WithMerge(merges, t), t) == WithMerge(merges, t)
    ensures HasMerge(merges, t) ==> WithMerge(merges, t) == merges
  {
    if !HasMerge(merges, t) {
      var m := merges + [Some(t)];
      assert m[|merges|] == Some(t);
      assert EqualsIgnoreCase(t, t);
    }
  }

  // ---------------------------------------------------------------------------
  // Styles of new cells
  // ---------------------------------------------------------------------------

  /** Position of the first cell whose reference equals `reference` exactly (case-sensitive), or `|cells|`. */
  function ExactCellPos(cells: seq<Cell>, reference: string): (k: nat)
    ensures k <= |cells|
    ensures k < |cells| ==> cells[k].reference == Some(reference)
    ensures forall j :: 0 <= j < k ==> cells[j].reference != Some(reference)
  {
    if cells == [] then 0
    else if cells[0].reference == Some(reference) then 0
    else 1 + ExactCellPos(cells[1..], reference)
  }

  function StyleOf(c: Option<Cell>): Option<UInt32> {
    if c.Some? then c.value.style else None
  }

  /** The style of the first cell of `cells` whose leading letters name column `col`. */
  function ColumnCellStyle(cells: seq<Cell>, col: int): Option<UInt32> {
    if col < 1 then None
    else
      var j := ColumnCellPos(cells, ColumnLetters(col));
      if j < |cells| then cells[j].style else None
  }

  /**
   * The style the expanded column cache holds for column `col` (a positive
   * `int`): none without column definitions, without a definition of the
   * column, or when the last such definition has no style.
   */
  function ColumnStyle(columns: Option<seq<Column>>, col: int): Option<UInt32> {
    if columns.None? then None
    else
      var e := ColumnEntry(columns.value, col);
      if e.Some? then e.value else None
  }

  /** A cache built from `columns` gives the same answer as `ColumnStyle` for every positive column. */
  lemma CacheLookup(dic: map<Int32, Option<UInt32>>, columns: Option<seq<Column>>, col: Int32)
    requires CacheFor(dic, columns) && col >= 1
    ensures var e := Lookup(dic, col); (if e.Some? then e.value else None) == ColumnStyle(columns, col)
  {
    assert KeyColumn(col) == col;
  }

  /**
   * The style `InferStyleIndexForNewCell` gives a new cell of column `col` in
   * row `k` (whose index is `rowIndex`): the row's style; else the column
   * style `colStyle`; else the style of the cell to the left (found by its
   * letters); else, below the first row, the style of the cell of the same
   * column in the row with index `rowIndex` - 1; else the template style.
   */
  function InferredStyle(rows: seq<Row>, k: nat, rowIndex: int, col: int, colStyle: Option<UInt32>, template: UInt32): UInt32
    requires k < |rows|
  {
    if rows[k].style.Some? then rows[k].style.value
    else if colStyle.Some? then colStyle.value
    else if ColumnCellStyle(rows[k].cells, col - 1).Some? then ColumnCellStyle(rows[k].cells, col - 1).value
    else if rowIndex > 1 && RowPos(rows, rowIndex - 1) < |rows|
         && ColumnCellStyle(rows[RowPos(rows, rowIndex - 1)].cells, col).Some? then
      ColumnCellStyle(rows[RowPos(rows, rowIndex - 1)].cells, col).value
    else template
  }

  /**
   * The style a new cell of (`col`, `row`) is given, by coordinate: the style
   * of the row; else the column style; else the style of the cell of
   * (`col` - 1, `row`); else that of the cell of (`col`, `row` - 1); else the
   * template style.
   */
  function NewCellStyle(rows: seq<Row>, row: int, col: int, colStyle: Option<UInt32>, template: UInt32): UInt32
    requires IsCoord(col, row)
  {
    if RowStyleIn(rows, row).Some? then RowStyleIn(rows, row).value
    else if colStyle.Some? then colStyle.value
    else if col > 1 && StyleOf(CellIn(rows, col - 1, row)).Some? then StyleOf(CellIn(rows, col - 1, row)).value
    else if row > 1 && StyleOf(CellIn(rows, col, row - 1)).Some? then StyleOf(CellIn(rows, col, row - 1)).value
    else template
  }

  /**
   * On a well-formed sheet the inference, which finds the neighbours by
   * their column letters, gives the style `NewCellStyle` states by
   * coordinate.
   */
  lemma InferredStyleByCoordinates(rows: seq<Row>, k: nat, row: int, col: int, colStyle: Option<UInt32>, template: UInt32)
    requires RowsWellFormed(rows) && IsCoord(col, row)
    requires k == RowPos(rows, row) && k < |rows|
    ensures InferredStyle(rows, k, row, col, colStyle, template) == NewCellStyle(rows, row, col, colStyle, template)
  {
    LeftStyle(rows, k, row, col);
    if row > 1 {
      UpperStyle(rows, row, col);
    }
  }

  /** The letters search for the column to the left finds the cell of (`col` - 1, `row`). */
  lemma LeftStyle(rows: seq<Row>, k: nat, row: int, col: int)
    requires RowsWellFormed(rows) && IsCoord(col, row)
    requires k == RowPos(rows, row) && k < |rows|
    ensures ColumnCellStyle(rows[k].cells, col - 1) == if col > 1 then StyleOf(CellIn(rows, col - 1, row)) else None
  {
    if col > 1 {
      assert CellsWellFormed(rows[k].cells, row) by {
        assert RowHasIndex(rows[k], row);
      }
      StyleInRow(rows, k, row, col - 1);
    }
  }

  /** Within the found row, the letters search and the reference search find the same cell. */
  lemma StyleInRow(rows: seq<Row>, k: nat, row: int, col: int)
    requires IsCoord(col, row) && k == RowPos(rows, row) && k < |rows| && CellsWellFormed(rows[k].cells, row)
    ensures ColumnCellStyle(rows[k].cells, col) == StyleOf(CellIn(rows, col, row))
  {
    ColumnCellPosAgrees(rows[k].cells, col, row);
  }

  /** The letters search in the row above finds the cell of (`col`, `row` - 1). */
  lemma UpperStyle(rows: seq<Row>, row: int, col: int)
    requires RowsWellFormed(rows) && IsCoord(col, row) && row > 1
    ensures (RowPos(rows, row - 1) < |rows| && ColumnCellStyle(rows[RowPos(rows, row - 1)].cells, col).Some?)
         == StyleOf(CellIn(rows, col, row - 1)).Some?
    ensures StyleOf(CellIn(rows, col, row - 1)).Some? ==>
         ColumnCellStyle(rows[RowPos(rows, row - 1)].cells, col) == StyleOf(CellIn(rows, col, row - 1))
  {
    var up := RowPos(rows, row - 1);
    if up < |rows| {
      assert CellsWellFormed(rows[up].cells, row - 1) by {
        assert RowHasIndex(rows[up], row - 1);
      }
      StyleInRow(rows, up, row - 1, col);
    }
  }

  /** In a well-formed row the exact search finds the cell the search ignoring case finds. */
  lemma ExactCellPosAgrees(cells: seq<Cell>, col: int, row: int)
    requires IsCoord(col, row) && CellsWellFormed(cells, row)
    ensures ExactCellPos(cells, A1(col, row)) == CellPos(cells, A1(col, row))
  {
    CanonicalOfA1(col, row);
    forall i | 0 <= i < |cells|
      ensures cells[i].reference == Some(A1(col, row)) <==> RefMatches(cells[i], A1(col, row))
    {
      var c := cells[i];
      var p := TryParseA1(c.reference.value);
      assert c.reference.value == A1(p.col, row);
      CanonicalMatches(c, col, row);
    }
    CellPosIs(cells, A1(col, row), ExactCellPos(cells, A1(col, row)));
  }

  /**
   * The rows after `GetOrCreateCellWithStyle` on a valid coordinate, and the
   * (row, cell) position of the cell returned: the row is found or inserted;
   * a cell whose reference equals the coordinate's exactly is kept, otherwise
   * a new cell with the inferred style is inserted at `InsertInOrderPos`.
   */
  function WithStyledCell(rows: seq<Row>, row: int, col: int, colStyle: Option<UInt32>, template: UInt32): (r: (seq<Row>, (nat, nat)))
    requires IsCoord(col, row)
    ensures r.1.0 < |r.0| && RowHasIndex(r.0[r.1.0], row)
    ensures r.1.1 < |r.0[r.1.0].cells| && r.0[r.1.0].cells[r.1.1].reference == Some(A1(col, row))
  {
    var (rows1, k) := RowsWithRow(rows, row);
    var cells := rows1[k].cells;
    var j := ExactCellPos(cells, A1(col, row));
    if j < |cells| then (rows1, (k, j))
    else
      var x := NewCell(A1(col, row)).(style := Some(InferredStyle(rows1, k, row, col, colStyle, template)));
      var at := InsertInOrderPos(cells, Some(A1(col, row)));
      (rows1[k := rows1[k].(cells := InsertAt(cells, at, x))], (k, at))
  }

  /**
   * `GetOrCreateCellWithStyle` on (`col`, `row`) infers a style from the
   * column cache: no cell with the coordinate's exact reference exists and
   * the (found or new) row has no style.
   */
  predicate ConsultsColumnCache(rows: seq<Row>, row: int, col: int)
    requires IsCoord(col, row)
  {
    var (rows1, k) := RowsWithRow(rows, row);
    ExactCellPos(rows1[k].cells, A1(col, row)) == |rows1[k].cells| && rows1[k].style.None?
  }

  /** Inserting, into the row of (`col`, `row`), a cell with the coordinate's reference changes that coordinate alone. */
  lemma InsertCellFrame(rows: seq<Row>, k: nat, at: nat, x: Cell, col: int, row: int)
    requires IsCoord(col, row) && k == RowPos(rows, row) && k < |rows|
    requires CellPos(rows[k].cells, A1(col, row)) == |rows[k].cells| && at <= |rows[k].cells|
    requires x.reference == Some(A1(col, row))
    ensures var res := rows[k := rows[k].(cells := InsertAt(rows[k].cells, at, x))];
      && (forall c, r :: IsCoord(c, r) ==> CellIn(res, c, r) == if c == col && r == row then Some(x) else CellIn(rows, c, r))
      && (forall r :: RowStyleIn(res, r) == RowStyleIn(rows, r))
  {
    var cells := rows[k].cells;
    var mid := RowsWithCell(rows, k, at, A1(col, row));
    var res := rows[k := rows[k].(cells := InsertAt(cells, at, x))];
    assert InsertAt(cells, at, x) == InsertAt(cells, at, NewCell(A1(col, row)))[at := x];
    assert res == RowsWithCellReplaced(mid, k, at, x);
    RowPosReplace(rows, k, mid[k], row);
    assert RefMatches(NewCell(A1(col, row)), A1(col, row));
    CellPosIs(mid[k].cells, A1(col, row), at);
    forall c, r | IsCoord(c, r)
      ensures CellIn(res, c, r) == if c == col && r == row then Some(x) else CellIn(rows, c, r)
    {
      CellInAfterCellInsert(rows, k, at, col, row, c, r);
      CellInAfterReplace(mid, k, at, x, col, row, c, r);
    }
    forall r
      ensures RowStyleIn(res, r) == RowStyleIn(rows, r)
    {
      RowPosReplace(rows, k, res[k], r);
    }
  }

  /**
   * On a well-formed sheet, `GetOrCreateCellWithStyle` read by coordinate:
   * an existing cell is returned and nothing changes; otherwise the
   * coordinate gets a new cell with its reference and the style
   * `NewCellStyle` states, and every other coordinate and every row style
   * stays as it was.
   */
  lemma WithStyledCellByCoordinates(rows: seq<Row>, row: int, col: int, colStyle: Option<UInt32>, template: UInt32)
    requires RowsWellFormed(rows) && IsCoord(col, row)
    ensures var res := WithStyledCell(rows, row, col, colStyle, template).0;
      && CellIn(res, col, row) == Some(if CellIn(rows, col, row).Some? then CellIn(rows, col, row).value
                                       else NewCell(A1(col, row)).(style := Some(NewCellStyle(rows, row, col, colStyle, template))))
      && (forall c, r :: IsCoord(c, r) && (c != col || r != row) ==> CellIn(res, c, r) == CellIn(rows, c, r))
      && (forall r :: RowStyleIn(res, r) == RowStyleIn(rows, r))
      && (CellIn(rows, col, row).Some? ==> res == rows)
  {
    var (rows1, k) := RowsWithRow(rows, row);
    RowsWithRowKeeps(rows, row);
    var cells := rows1[k].cells;
    ExactCellPosAgrees(cells, col, row);
    if CellPos(cells, A1(col, row)) == |cells| {
      InferredStyleByCoordinates(rows1, k, row, col, colStyle, template);
      assert NewCellStyle(rows1, row, col, colStyle, template) == NewCellStyle(rows, row, col, colStyle, template);
      var x := NewCell(A1(col, row)).(style := Some(InferredStyle(rows1, k, row, col, colStyle, template)));
      InsertCellFrame(rows1, k, InsertInOrderPos(cells, Some(A1(col, row))), x, col, row);
    }
  }

  // ---------------------------------------------------------------------------
  // Base styles and background colours
  // ---------------------------------------------------------------------------

  /**
   * `ResolveBaseStyleIndex`: the cell's own style; else 0 for a missing or
   * unparsable reference; else the last column span containing its column;
   * else the style of the first row with its row index; else 0.
   */
  function BaseStyle(c: Cell, spans: seq<Span>, ws: Worksheet): UInt32 {
    if c.style.Some? then c.style.value
    else if !NonEmpty(c.reference) then 0
    else
      var p := TryParseA1(c.reference.value);
      if !p.ok then 0
      else if LastSpanStyle(spans, p.col).Some? then LastSpanStyle(spans, p.col).value
      else RowStyleAt(ws, p.row).GetOr(0)
  }

  /**
   * The priority of base styles by coordinate, on a well-formed sheet: the
   * cell's style, then the column's, then the row's, then 0.
   */
  lemma BaseStyleAtCoordinate(ws: Worksheet, spans: seq<Span>, col: int, row: int)
    requires IsCoord(col, row) && WellFormed(ws)
    ensures BaseStyle(Base(ws, col, row), spans, ws)
         == if StyleOf(CellAt(ws, col, row)).Some? then StyleOf(CellAt(ws, col, row)).value
            else if LastSpanStyle(spans, col).Some? then LastSpanStyle(spans, col).value
            else RowStyleAt(ws, row).GetOr(0)
  {
    if CellAt(ws, col, row).Some? {
      CellAtWellFormed(ws, col, row);
    }
    TryParseA1OfToA1(col, row);
  }

  /** The style request `SetBackColor` makes: the base style with a solid fill of `rgb`. */
  function FillKey(base: UInt32, rgb: string): StyleKey {
    StyleKey(base, None, Some(FillSpec(Some(rgb))), None, None)
  }

  /** Every cell the walk has visited has its base style in `ids`. */
  ghost predicate Covered(ws0: Worksheet, spans: seq<Span>, ids: map<UInt32, UInt32>, area: Rect, row: int, col: int) {
    forall c, r :: IsCoord(c, r) && area.Before(row, col, c, r) ==> BaseStyle(Base(ws0, c, r), spans, ws0) in ids
  }

  /** The local cache agrees with the style manager's memo for fills of `rgb`. */
  ghost predicate CacheAgrees(ids: map<UInt32, UInt32>, cache: map<StyleKey, nat>, rgb: string) {
    forall b :: b in ids ==> FillKey(b, rgb) in cache && cache[FillKey(b, rgb)] == ids[b]
  }

  /** Every entry of `c1` is kept in `c2`. */
  ghost predicate Grows(c1: map<StyleKey, nat>, c2: map<StyleKey, nat>) {
    forall k :: k in c1 ==> k in c2 && c2[k] == c1[k]
  }

  /** Every cell of the rectangle has a memoised style of the fill, within `uint` range. */
  ghost predicate Recoloured(ws0: Worksheet, spans: seq<Span>, rgb: string, cache: map<StyleKey, nat>, area: Rect) {
    forall c, r :: IsCoord(c, r) && area.Contains(c, r) ==>
      var key := FillKey(BaseStyle(Base(ws0, c, r), spans, ws0), rgb);
      key in cache && cache[key] <= UINT_MAX
  }

  /** A memo that only gains entries stamps the visited cells the same way. */
  lemma PaintGrow(ws0: Worksheet, ws: Worksheet, spans: seq<Span>, rgb: string, ids: map<UInt32, UInt32>,
                  c1: map<StyleKey, nat>, c2: map<StyleKey, nat>, area: Rect, row: int, col: int)
    requires Painted(ws0, ws, BackColor(spans, ws0, rgb, c1), area, row, col)
    requires Covered(ws0, spans, ids, area, row, col) && CacheAgrees(ids, c1, rgb) && Grows(c1, c2)
    ensures Painted(ws0, ws, BackColor(spans, ws0, rgb, c2), area, row, col)
  {
    forall c, r | IsCoord(c, r) && area.Before(row, col, c, r)
      ensures Stamped(BackColor(spans, ws0, rgb, c1), Base(ws0, c, r)) == Stamped(BackColor(spans, ws0, rgb, c2), Base(ws0, c, r))
    {
      var b := BaseStyle(Base(ws0, c, r), spans, ws0);
      assert b in ids;
    }
  }

  /** The finished walk has given every cell of the rectangle its memoised style. */
  lemma CoveredDone(ws0: Worksheet, spans: seq<Span>, rgb: string, ids: map<UInt32, UInt32>, cache: map<StyleKey, nat>, area: Rect)
    requires Covered(ws0, spans, ids, area, area.ey + 1, area.sx) && CacheAgrees(ids, cache, rgb)
    ensures Recoloured(ws0, spans, rgb, cache, area)
  {
    forall c, r | IsCoord(c, r) && area.Contains(c, r)
      ensures FillKey(BaseStyle(Base(ws0, c, r), spans, ws0), rgb) in cache
      ensures cache[FillKey(BaseStyle(Base(ws0, c, r), spans, ws0), rgb)] <= UINT_MAX
    {
      assert area.Before(area.ey + 1, area.sx, c, r);
      var b := BaseStyle(Base(ws0, c, r), spans, ws0);
      assert b in ids;
    }
  }

  /** The base styles of the cells of the rectangle. */
  ghost function Bases(ws0: Worksheet, spans: seq<Span>, area: Rect): set<UInt32> {
    set c, r | area.sx <= c <= area.ex && area.sy <= r <= area.ey && IsCoord(c, r) :: BaseStyle(Base(ws0, c, r), spans, ws0)
  }

  /** Base styles read the sheet only through the row styles. */
  lemma BaseStyleKept(c: Cell, spans: seq<Span>, ws0: Worksheet, ws1: Worksheet)
    requires Kept(ws0, ws1)
    ensures BaseStyle(c, spans, ws1) == BaseStyle(c, spans, ws0)
  {
    if c.style.None? && NonEmpty(c.reference) {
      var p := TryParseA1(c.reference.value);
      assert RowStyleAt(ws1, p.row) == RowStyleAt(ws0, p.row);
    }
  }

  /** Covering the cell of (`col`, `row`) moves the covered part of the walk one cell on. */
  lemma CoverStep(ws0: Worksheet, spans: seq<Span>, ids: map<UInt32, UInt32>, area: Rect, row: int, col: int)
    requires IsCoord(col, row)
    requires Covered(ws0, spans, ids, area, row, col) && BaseStyle(Base(ws0, col, row), spans, ws0) in ids
    ensures Covered(ws0, spans, ids, area, row, col + 1)
  {
  }

  /** Covering a whole row starts the next. */
  lemma CoverNextRow(ws0: Worksheet, spans: seq<Span>, ids: map<UInt32, UInt32>, area: Rect, row: int)
    requires Covered(ws0, spans, ids, area, row, area.ex + 1)
    ensures Covered(ws0, spans, ids, area, row + 1, area.sx)
  {
    forall c, r | IsCoord(c, r) && area.Before(row + 1, area.sx, c, r)
      ensures BaseStyle(Base(ws0, c, r), spans, ws0) in ids
    {
      assert area.Before(row, area.ex + 1, c, r);
    }
  }

  /**
   * One visit of `SetBackColor`'s walk: the cell of (`col`, `row`) has been
   * found or created (`ws` to `ws1`), the memo has grown from `c1` to `c2`
   * and holds the new style for the cell's base style, and the cell is given
   * that style.
   */
  lemma RecolorStep(ws0: Worksheet, ws: Worksheet, ws1: Worksheet, loc: (nat, nat), spans: seq<Span>, rgb: string,
                    ids: map<UInt32, UInt32>, c1: map<StyleKey, nat>, c2: map<StyleKey, nat>,
                    area: Rect, row: int, col: int, newStyle: UInt32)
    requires IsCoord(col, row) && area.sx <= col <= area.ex && area.sy <= row
    requires Painted(ws0, ws, BackColor(spans, ws0, rgb, c1), area, row, col) && Kept(ws0, ws) && (WellFormed(ws0) ==> WellFormed(ws))
    requires Covered(ws0, spans, ids, area, row, col) && CacheAgrees(ids, c1, rgb) && Grows(c1, c2)
    requires CellAt(ws1, col, row) == Some(Base(ws, col, row)) && SameElsewhere(ws, ws1, col, row)
    requires (WellFormed(ws) ==> WellFormed(ws1)) && Locates(ws1, loc, col, row)
    requires var key := FillKey(BaseStyle(Base(ws0, col, row), spans, ws0), rgb); key in c2 && c2[key] == newStyle
    ensures var rows := ws1.sheetData.value;
      var ws2 := ws1.(sheetData := Some(RowsWithCellReplaced(rows, loc.0, loc.1, rows[loc.0].cells[loc.1].(style := Some(newStyle)))));
      var ids2 := ids[BaseStyle(Base(ws0, col, row), spans, ws0) := newStyle];
      && Painted(ws0, ws2, BackColor(spans, ws0, rgb, c2), area, row, col + 1) && Kept(ws0, ws2) && (WellFormed(ws0) ==> WellFormed(ws2))
      && Covered(ws0, spans, ids2, area, row, col + 1) && CacheAgrees(ids2, c2, rgb)
  {
    var b := BaseStyle(Base(ws0, col, row), spans, ws0);
    var ids2 := ids[b := newStyle];
    PaintGrow(ws0, ws, spans, rgb, ids, c1, c2, area, row, col);
    var s := BackColor(spans, ws0, rgb, c2);
    var rows := ws1.sheetData.value;
    var cell := rows[loc.0].cells[loc.1];
    assert CellAt(ws1, col, row) == Some(cell);
    assert !area.Before(row, col, col, row);
    assert cell == Base(ws0, col, row);
    assert Stamped(s, cell) == cell.(style := Some(newStyle));
    VisitStep(ws0, ws, ws1, loc, s, area, row, col);
    CoverStep(ws0, spans, ids2, area, row, col);
  }

  /**
   * The state of `SetBackColor`'s walk over `area` before it visits
   * (`col`, `row`), from the sheet `ws0`, the memo `c0` and `f0` formats it
   * started with to the sheet `ws`, the memo `cache` and `n` formats it has
   * now: the memo only gained entries; the local table `ids` holds base
   * styles of the rectangle and the style table grew by at most one format
   * per entry; the visited cells are stamped with their memoised style, their
   * base styles are in `ids`, and `ids` agrees with the memo.
   */
  ghost predicate Walked(area: Rect, spans: seq<Span>, rgb: string, ws0: Worksheet, ws: Worksheet,
                         c0: map<StyleKey, nat>, cache: map<StyleKey, nat>, f0: nat, n: nat,
                         ids: map<UInt32, UInt32>, row: int, col: int) {
    && Grows(c0, cache)
    && n <= f0 + |ids| && ids.Keys <= Bases(ws0, spans, area)
    && Painted(ws0, ws, BackColor(spans, ws0, rgb, cache), area, row, col)
    && Covered(ws0, spans, ids, area, row, col)
    && CacheAgrees(ids, cache, rgb)
    && Kept(ws0, ws) && (WellFormed(ws0) ==> WellFormed(ws))
  }

  /** The walk starts with nothing visited and an empty local table. */
  lemma WalkStart(area: Rect, spans: seq<Span>, rgb: string, ws: Worksheet, cache: map<StyleKey, nat>, n: nat)
    ensures Walked(area, spans, rgb, ws, ws, cache, cache, n, n, map[], area.sy, area.sx)
  {
    assert forall c, r :: !area.Before(area.sy, area.sx, c, r);
  }

  /** A base style of the rectangle not yet in the local table leaves room for its format. */
  lemma WalkRoom(area: Rect, spans: seq<Span>, rgb: string, ws0: Worksheet, ws: Worksheet,
                 c0: map<StyleKey, nat>, cache: map<StyleKey, nat>, f0: nat, n: nat,
                 ids: map<UInt32, UInt32>, row: int, col: int)
    requires IsCoord(col, row) && area.Contains(col, row)
    requires Walked(area, spans, rgb, ws0, ws, c0, cache, f0, n, ids, row, col)
    requires BaseStyle(Base(ws0, col, row), spans, ws0) !in ids
    ensures n + 1 <= f0 + |Bases(ws0, spans, area)|
  {
    var b := BaseStyle(Base(ws0, col, row), spans, ws0);
    var all := Bases(ws0, spans, area);
    assert b in all;
    SubsetSize(ids.Keys, all - {b});
  }

  /**
   * One visit: the cell of (`col`, `row`) has been found or created (`ws` to
   * `ws1`), the memo has grown from `c1` to `c2` and holds `newStyle` for the
   * cell's base style, the style table grew by a format only if that base
   * style was new, and the cell is given `newStyle`.
   */
  lemma WalkStep(area: Rect, spans: seq<Span>, rgb: string, ws0: Worksheet, ws: Worksheet, ws1: Worksheet, loc: (nat, nat),
                 c0: map<StyleKey, nat>, c1: map<StyleKey, nat>, c2: map<StyleKey, nat>, f0: nat, n1: nat, n2: nat,
                 ids: map<UInt32, UInt32>, row: int, col: int, newStyle: UInt32)
    requires IsCoord(col, row) && area.sx <= col <= area.ex && area.sy <= row <= area.ey
    requires Walked(area, spans, rgb, ws0, ws, c0, c1, f0, n1, ids, row, col)
    requires CellAt(ws1, col, row) == Some(Base(ws, col, row)) && SameElsewhere(ws, ws1, col, row)
    requires (WellFormed(ws) ==> WellFormed(ws1)) && Locates(ws1, loc, col, row)
    requires Grows(c1, c2)
    requires var b := BaseStyle(Base(ws0, col, row), spans, ws0);
      && FillKey(b, rgb) in c2 && c2[FillKey(b, rgb)] == newStyle
      && n2 <= n1 + (if b in ids then 0 else 1)
    ensures var rows := ws1.sheetData.value;
      var ws2 := ws1.(sheetData := Some(RowsWithCellReplaced(rows, loc.0, loc.1, rows[loc.0].cells[loc.1].(style := Some(newStyle)))));
      Walked(area, spans, rgb, ws0, ws2, c0, c2, f0, n2, ids[BaseStyle(Base(ws0, col, row), spans, ws0) := newStyle], row, col + 1)
  {
    var b := BaseStyle(Base(ws0, col, row), spans, ws0);
    var ids2 := ids[b := newStyle];
    RecolorStep(ws0, ws, ws1, loc, spans, rgb, ids, c1, c2, area, row, col, newStyle);
    assert b in Bases(ws0, spans, area);
  }

  /**
   * A visit that found or created the cell of (`col`, `row`) and then failed:
   * the memo has grown from `c1` to `c2`, and the walk stops there.
   */
  lemma WalkStop(area: Rect, spans: seq<Span>, rgb: string, ws0: Worksheet, ws: Worksheet, ws1: Worksheet,
                 c0: map<StyleKey, nat>, c1: map<StyleKey, nat>, c2: map<StyleKey, nat>, f0: nat, n: nat,
                 ids: map<UInt32, UInt32>, row: int, col: int)
    requires IsCoord(col, row) && area.Contains(col, row)
    requires Walked(area, spans, rgb, ws0, ws, c0, c1, f0, n, ids, row, col)
    requires CellAt(ws1, col, row) == Some(Base(ws, col, row)) && SameElsewhere(ws, ws1, col, row)
    requires (WellFormed(ws) ==> WellFormed(ws1)) && Grows(c1, c2)
    ensures Grows(c0, c2) && Kept(ws0, ws1) && (WellFormed(ws0) ==> WellFormed(ws1))
    ensures Stopped(ws0, ws1, BackColor(spans, ws0, rgb, c2), area)
  {
    PaintGrow(ws0, ws, spans, rgb, ids, c1, c2, area, row, col);
    PaintStop(ws0, ws, ws1, BackColor(spans, ws0, rgb, c2), area, row, col);
  }

  /** A finished row starts the next. */
  lemma WalkNextRow(area: Rect, spans: seq<Span>, rgb: string, ws0: Worksheet, ws: Worksheet,
                    c0: map<StyleKey, nat>, cache: map<StyleKey, nat>, f0: nat, n: nat,
                    ids: map<UInt32, UInt32>, row: int)
    requires Walked(area, spans, rgb, ws0, ws, c0, cache, f0, n, ids, row, area.ex + 1)
    ensures Walked(area, spans, rgb, ws0, ws, c0, cache, f0, n, ids, row + 1, area.sx)
  {
    PaintNextRow(ws0, ws, BackColor(spans, ws0, rgb, cache), area, row);
    CoverNextRow(ws0, spans, ids, area, row);
  }

  /**
   * At the end of the walk every cell is stamped, every base style met has
   * its memoised style, and the style table grew by at most one format per
   * base style of the rectangle.
   */
  lemma WalkDone(area: Rect, spans: seq<Span>, rgb: string, ws0: Worksheet, ws: Worksheet,
                 c0: map<StyleKey, nat>, cache: map<StyleKey, nat>, f0: nat, n: nat, ids: map<UInt32, UInt32>)
    requires Walked(area, spans, rgb, ws0, ws, c0, cache, f0, n, ids, area.ey + 1, area.sx)
    ensures Recoloured(ws0, spans, rgb, cache, area)
    ensures Filled(ws0, ws, BackColor(spans, ws0, rgb, cache), area)
    ensures n <= f0 + |Bases(ws0, spans, area)|
  {
    PaintDone(ws0, ws, BackColor(spans, ws0, rgb, cache), area);
    CoveredDone(ws0, spans, rgb, ids, cache, area);
    SubsetSize(ids.Keys, Bases(ws0, spans, area));
  }

  /** A subset is no larger than its superset. */
  lemma SubsetSize<T>(a: set<T>, b: set<T>)
    requires a <= b
    ensures |a| <= |b|
  {
    assert b == a + (b - a);
  }

  // ---------------------------------------------------------------------------
  // The range handle
  // ---------------------------------------------------------------------------

  class PosProxy {
    const doc: Workbook
    const part: WorksheetPart
    const sx: int
    const sy: int
    const ex: int
    const ey: int
    /** `ColumnStyleIndexMap`, built once from the worksheet's column definitions. */
    const columnStyleMap: seq<Span>
    /** The style new cells fall back to; always 0. */
    const templateStyleIndex: UInt32
    /** The expanded column cache, built on first use. */
    var colStyleCache: Option<map<Int32, Option<UInt32>>>

    /** The rectangle is normalised and lies in positive `int` coordinates. */
    predicate Valid() {
      1 <= sx <= ex <= INT_MAX && 1 <= sy <= ey <= INT_MAX
    }

    function Area(): Rect {
      Rect(sx, sy, ex, ey)
    }

    /** The column cache, once built, is the one the worksheet's column definitions give. */
    ghost predicate CacheValid()
      reads this, part
    {
      colStyleCache.Some? ==> CacheFor(colStyleCache.value, part.worksheet.columns)
    }

    constructor Init(doc: Workbook, part: WorksheetPart, sx: int, sy: int, ex: int, ey: int, spans: seq<Span>)
      ensures this.doc == doc && this.part == part
      ensures this.sx == sx && this.sy == sy && this.ex == ex && this.ey == ey
      ensures columnStyleMap == spans && templateStyleIndex == 0 && colStyleCache.None?
    {
      this.doc := doc;
      this.part := part;
      this.sx := sx;
      this.sy := sy;
      this.ex := ex;
      this.ey := ey;
      columnStyleMap := spans;
      templateStyleIndex := 0;
      colStyleCache := None;
    }

    /**
     * The constructor: a missing document or worksheet part is an
     * `ArgumentNullException`, a non-positive coordinate an
     * `ArgumentOutOfRangeException`; otherwise the corners are normalised and
     * the column span map is built from the worksheet.
     */
    static method Create(document: Option<Workbook>, worksheetPart: Option<WorksheetPart>,
                         sx: Int32, sy: Int32, ex: Int32, ey: Int32) returns (r: Result<PosProxy>)
      ensures document.None? ==> r == Err(ArgumentNull)
      ensures document.Some? && worksheetPart.None? ==> r == Err(ArgumentNull)
      ensures document.Some? && worksheetPart.Some? && (sx <= 0 || sy <= 0 || ex <= 0 || ey <= 0) ==>
                r == Err(ArgumentOutOfRange)
      ensures r.Ok? <==> document.Some? && worksheetPart.Some? && sx > 0 && sy > 0 && ex > 0 && ey > 0
      ensures r.Ok? ==> var p := r.value;
        && fresh(p) && p.Valid()
        && p.doc == document.value && p.part == worksheetPart.value
        && p.sx == Min(sx, ex) && p.sy == Min(sy, ey) && p.ex == Max(sx, ex) && p.ey == Max(sy, ey)
        && p.columnStyleMap == (if worksheetPart.value.worksheet.columns.None? then []
                                else StyledSpans(worksheetPart.value.worksheet.columns.value))
        && p.colStyleCache.None? && p.templateStyleIndex == 0
    {
      if document.None? || worksheetPart.None? {
        return Err(ArgumentNull);
      }
      if sx <= 0 || sy <= 0 || ex <= 0 || ey <= 0 {
        return Err(ArgumentOutOfRange);
      }
      var spans := NewColumnStyleIndexMap(worksheetPart.value.worksheet);
      var p := new PosProxy.Init(document.value, worksheetPart.value, Min(sx, ex), Min(sy, ey), Max(sx, ex), Max(sy, ey), spans);
      return Ok(p);
    }

    /**
     * `GetOrCreateCell`: the row with the coordinate's index, then the cell
     * whose reference equals the coordinate's ignoring case. With `create`,
     * a missing sheet data is added, a missing row is inserted before the
     * first row with a larger index, and a missing cell before the first cell
     * that compares greater; without it nothing changes and a missing piece
     * means no cell.
     */
    method GetOrCreateCell(col: int, row: int, create: bool) returns (loc: Option<(nat, nat)>)
      requires IsCoord(col, row)
      modifies part
      ensures !create ==> part.worksheet == old(part.worksheet)
      ensures loc.None? <==> !create && CellAt(old(part.worksheet), col, row).None?
      ensures loc.Some? ==> Locates(part.worksheet, loc.value, col, row)
      ensures CellAt(part.worksheet, col, row)
           == if create then Some(Base(old(part.worksheet), col, row)) else CellAt(old(part.worksheet), col, row)
      ensures SameElsewhere(old(part.worksheet), part.worksheet, col, row)
      ensures WellFormed(old(part.worksheet)) ==> WellFormed(part.worksheet)
    {
      var ws := part.worksheet;
      if ws.sheetData.None? && !create {
        return None;
      }
      var rows := if ws.sheetData.Some? then ws.sheetData.value else [];
      assert forall c, r :: IsCoord(c, r) ==> CellAt(ws, c, r) == CellIn(rows, c, r);
      assert forall r :: RowStyleAt(ws, r) == RowStyleIn(rows, r);
      assert WellFormed(ws) ==> RowsWellFormed(rows);
      var k := RowPos(rows, row);
      if k == |rows| {
        if !create {
          return None;
        }
        RowsWithRowKeeps(rows, row);
        var inserted := RowsWithRow(rows, row);
        rows, k := inserted.0, inserted.1;
      }
      var cellRef := A1(col, row);
      var j := CellPos(rows[k].cells, cellRef);
      if j == |rows[k].cells| {
        if !create {
          return None;
        }
        CellInsertKeeps(rows, k, col, row);
        var at := CellInsertPos(rows[k].cells, cellRef);
        rows, j := RowsWithCell(rows, k, at, cellRef), at;
      }
      if create {
        part.worksheet := ws.(sheetData := Some(rows));
      }
      loc := Some((k, j));
    }

    /**
     * `WriteCellValue` on the cell at `loc`: null clears the value and the
     * type; a string, any value with `isString`, or a value of no handled
     * type is interned and stored as a shared-string index; a bool is "1" or
     * "0" typed `Boolean`; a date or a number is its invariant text, untyped.
     */
    method WriteCellValue(loc: (nat, nat), value: Value, isString: bool)
      requires part.worksheet.sheetData.Some?
      requires loc.0 < |part.worksheet.sheetData.value| && loc.1 < |part.worksheet.sheetData.value[loc.0].cells|
      modifies part, doc`sharedStrings
      ensures doc.sharedStrings == TableAfter(old(doc.sharedStrings), value, isString)
      ensures part.worksheet == old(part.worksheet).(sheetData := Some(RowsWithCellReplaced(
                old(part.worksheet).sheetData.value, loc.0, loc.1,
                WrittenCell(old(part.worksheet).sheetData.value[loc.0].cells[loc.1], value, isString, doc.sharedStrings))))
    {
      var rows := part.worksheet.sheetData.value;
      var cell := rows[loc.0].cells[loc.1];
      var written: Cell;
      if value.Null? {
        written := cell.(value := None, dataType := None);
      } else if isString || value.Text? {
        var index := doc.GetOrAddString(Display(value));
        written := cell.(value := Some(NatToDecimal(index)), dataType := Some(SharedString));
      } else if value.Bool? {
        written := cell.(value := Some(if value.b then "1" else "0"), dataType := Some(Boolean));
      } else if value.DateTime? {
        written := cell.(value := Some(value.oaText), dataType := None);
      } else if value.Numeric? {
        written := cell.(value := Some(value.invariantText), dataType := None);
      } else {
        var index := doc.GetOrAddString(Display(value));
        written := cell.(value := Some(NatToDecimal(index)), dataType := Some(SharedString));
      }
      part.worksheet := part.worksheet.(sheetData := Some(RowsWithCellReplaced(rows, loc.0, loc.1, written)));
    }

    /**
     * `SetValue`: writes `value` into every cell of the rectangle, creating
     * the cells as needed. The walk's counters are C# `int`s, so a rectangle
     * reaching `int.MaxValue` is excluded (the counter would wrap).
     */
    method SetValue(value: Value, isString: bool)
      requires Valid() && ex < INT_MAX && ey < INT_MAX
      modifies part, doc`sharedStrings
      ensures doc.sharedStrings == TableAfter(old(doc.sharedStrings), value, isString)
      ensures Filled(old(part.worksheet), part.worksheet, WriteValue(value, isString, doc.sharedStrings), Area())
      ensures Kept(old(part.worksheet), part.worksheet)
      ensures WellFormed(old(part.worksheet)) ==> WellFormed(part.worksheet)
    {
      ghost var ws0 := part.worksheet;
      ghost var t0 := doc.sharedStrings;
      ghost var t := TableAfter(t0, value, isString);
      TableAfterIdempotent(t0, value, isString);
      var row := sy;
      while row <= ey
        invariant sy <= row <= ey + 1
        invariant doc.sharedStrings == if row == sy then t0 else t
        invariant Painted(ws0, part.worksheet, WriteValue(value, isString, t), Area(), row, sx)
        invariant Kept(ws0, part.worksheet)
        invariant WellFormed(ws0) ==> WellFormed(part.worksheet)
      {
        var col := sx;
        while col <= ex
          invariant sx <= col <= ex + 1
          invariant doc.sharedStrings == if row == sy && col == sx then t0 else t
          invariant Painted(ws0, part.worksheet, WriteValue(value, isString, t), Area(), row, col)
          invariant Kept(ws0, part.worksheet)
          invariant WellFormed(ws0) ==> WellFormed(part.worksheet)
        {
          ghost var ws := part.worksheet;
          var loc := GetOrCreateCell(col, row, true);
          VisitStep(ws0, ws, part.worksheet, loc.value, WriteValue(value, isString, t), Area(), row, col);
          WriteCellValue(loc.value, value, isString);
          col := col + 1;
        }
        PaintNextRow(ws0, part.worksheet, WriteValue(value, isString, t), Area(), row);
        row := row + 1;
      }
      PaintDone(ws0, part.worksheet, WriteValue(value, isString, t), Area());
    }

    /** `ApplyStyle`: sets the style of every cell of the rectangle, creating the cells as needed. */
    method ApplyStyle(styleIndex: UInt32)
      requires Valid() && ex < INT_MAX && ey < INT_MAX
      modifies part
      ensures Filled(old(part.worksheet), part.worksheet, SetStyle(styleIndex), Area())
      ensures Kept(old(part.worksheet), part.worksheet)
      ensures WellFormed(old(part.worksheet)) ==> WellFormed(part.worksheet)
    {
      ghost var ws0 := part.worksheet;
      var row := sy;
      while row <= ey
        invariant sy <= row <= ey + 1
        invariant Painted(ws0, part.worksheet, SetStyle(styleIndex), Area(), row, sx)
        invariant Kept(ws0, part.worksheet)
        invariant WellFormed(ws0) ==> WellFormed(part.worksheet)
      {
        var col := sx;
        while col <= ex
          invariant sx <= col <= ex + 1
          invariant Painted(ws0, part.worksheet, SetStyle(styleIndex), Area(), row, col)
          invariant Kept(ws0, part.worksheet)
          invariant WellFormed(ws0) ==> WellFormed(part.worksheet)
        {
          ghost var ws := part.worksheet;
          var loc := GetOrCreateCell(col, row, true);
          VisitStep(ws0, ws, part.worksheet, loc.value, SetStyle(styleIndex), Area(), row, col);
          var rows := part.worksheet.sheetData.value;
          var styled := rows[loc.value.0].cells[loc.value.1].(style := Some(styleIndex));
          part.worksheet := part.worksheet.(sheetData := Some(RowsWithCellReplaced(rows, loc.value.0, loc.value.1, styled)));
          col := col + 1;
        }
        PaintNextRow(ws0, part.worksheet, SetStyle(styleIndex), Area(), row);
        row := row + 1;
      }
      PaintDone(ws0, part.worksheet, SetStyle(styleIndex), Area());
    }

    /**
     * `GetValue`: the value of the top-left cell, read as `ReadCell` states
     * (the shared string through the table's bounds-checked lookup).
     */
    method GetValue(readDouble: DoubleReader) returns (v: Value)
      requires Valid()
      modifies part
      ensures part.worksheet == old(part.worksheet)
      ensures v == ReadCell(CellAt(part.worksheet, sx, sy), doc.sharedStrings, readDouble)
    {
      var loc := GetOrCreateCell(sx, sy, false);
      if loc.None? {
        return Null;
      }
      var cell := part.worksheet.sheetData.value[loc.value.0].cells[loc.value.1];
      assert CellAt(part.worksheet, sx, sy) == Some(cell);
      v := ReadCellValue(cell, readDouble);
    }

    /** The value of a found cell, read through the shared-string table, the bool text or `double.TryParse`. */
    method ReadCellValue(cell: Cell, readDouble: DoubleReader) returns (v: Value)
      ensures v == ReadCell(Some(cell), doc.sharedStrings, readDouble)
    {
      if cell.dataType == Some(SharedString) {
        if cell.value.None? {
          return Text("");
        }
        var index := ParseInt32(cell.value.value);
        if index.Some? {
          var s := doc.GetStringByIndexOrEmpty(index.value);
          return Text(s);
        }
        return Text("");
      }
      if cell.dataType == Some(Boolean) {
        return Bool(cell.value == Some("1"));
      }
      if cell.value.None? {
        return Null;
      }
      var d := readDouble(cell.value.value);
      if d.Some? {
        return Numeric(d.value.0, d.value.1);
      }
      return Text(cell.value.value);
    }

    /** `CaptureSnapshot`: the top-left cell's value, whether it holds a shared string, and its style. */
    method CaptureSnapshot(readDouble: DoubleReader) returns (s: CellSnapshot)
      requires Valid()
      modifies part
      ensures part.worksheet == old(part.worksheet)
      ensures s == Capture(CellAt(part.worksheet, sx, sy), doc.sharedStrings, readDouble)
    {
      var loc := GetOrCreateCell(sx, sy, false);
      if loc.None? {
        return CellSnapshot(Null, false, 0);
      }
      var cell := part.worksheet.sheetData.value[loc.value.0].cells[loc.value.1];
      var v := GetValue(readDouble);
      s := CellSnapshot(v, cell.dataType == Some(SharedString), cell.style.GetOr(0));
    }

    /** `ApplySnapshot`: writes the snapshot's value to the rectangle, then its style unless that is 0. */
    method ApplySnapshot(snapshot: CellSnapshot)
      requires Valid() && ex < INT_MAX && ey < INT_MAX
      modifies part, doc`sharedStrings
      ensures doc.sharedStrings == TableAfter(old(doc.sharedStrings), snapshot.value, snapshot.isString)
      ensures Filled(old(part.worksheet), part.worksheet, Paste(snapshot, doc.sharedStrings), Area())
      ensures Kept(old(part.worksheet), part.worksheet)
      ensures WellFormed(old(part.worksheet)) ==> WellFormed(part.worksheet)
    {
      ghost var ws0 := part.worksheet;
      SetValue(snapshot.value, snapshot.isString);
      ghost var ws1 := part.worksheet;
      if snapshot.styleIndex != 0 {
        ApplyStyle(snapshot.styleIndex);
      }
      PasteCompose(ws0, ws1, part.worksheet, snapshot, doc.sharedStrings, Area());
    }

    /**
     * `Merge`: nothing for a single cell; otherwise the range's reference
     * "TL:BR" is added to the merged ranges (created if missing) unless an
     * entry equal to it ignoring case exists.
     */
    method Merge()
      requires Valid()
      modifies part
      ensures sx == ex && sy == ey ==> part.worksheet == old(part.worksheet)
      ensures !(sx == ex && sy == ey) ==>
        part.worksheet == old(part.worksheet).(mergeCells := Some(WithMerge(old(part.worksheet).mergeCells.GetOr([]), MergeRef())))
    {
      if sx == ex && sy == ey {
        return;
      }
      var ws := part.worksheet;
      var merges := ws.mergeCells.GetOr([]);
      var refText := MergeRef();
      var exists_ := HasMerge(merges, refText);
      if !exists_ {
        merges := merges + [Some(refText)];
      }
      part.worksheet := ws.(mergeCells := Some(merges));
    }

    /** The merged-range reference of the rectangle: its corners' A1 texts joined by ':'. */
    function MergeRef(): string
      requires Valid()
    {
      A1(sx, sy) + ":" + A1(ex, ey)
    }

    /**
     * The `Merge` overload taking an alignment: merges, then constructs a
     * style manager (which completes the stylesheet) and finds or creates the
     * top-left cell. The alignment arguments are not used.
     */
    method MergeAligned(horizontal: Horizontal, vertical: Vertical, wrapText: bool)
      requires Valid()
      modifies part, doc`stylesheet
      ensures doc.stylesheet == Some(SM.EnsureCollections(old(doc.stylesheet).GetOr(SM.CreateDefaultStylesheet())))
      ensures part.worksheet.mergeCells
           == if sx == ex && sy == ey then old(part.worksheet).mergeCells
              else Some(WithMerge(old(part.worksheet).mergeCells.GetOr([]), MergeRef()))
      ensures CellAt(part.worksheet, sx, sy) == Some(Base(old(part.worksheet), sx, sy))
      ensures forall c, r :: IsCoord(c, r) && (c != sx || r != sy) ==> CellAt(part.worksheet, c, r) == CellAt(old(part.worksheet), c, r)
      ensures WellFormed(old(part.worksheet)) ==> WellFormed(part.worksheet)
    {
      Merge();
      ghost var ws1 := part.worksheet;
      assert forall c, r :: IsCoord(c, r) ==> CellAt(ws1, c, r) == CellAt(old(part.worksheet), c, r);
      var styleManager := new SM.StyleManager(doc);
      var baseCell := GetOrCreateCell(sx, sy, true);
    }

    /**
     * `GetColumnStyleIndex`: builds the expanded column cache on first use;
     * the answer is the style the cache holds under the column, which is none
     * when the column has no entry or its entry has no style.
     */
    method GetColumnStyleIndex(col: Int32) returns (s: Option<UInt32>)
      requires CacheValid() && (colStyleCache.None? ==> Bounded(part.worksheet.columns))
      modifies this`colStyleCache
      ensures CacheValid() && colStyleCache.Some?
      ensures old(colStyleCache).Some? ==> colStyleCache == old(colStyleCache)
      ensures s == ColumnStyle(part.worksheet.columns, KeyColumn(col))
    {
      if colStyleCache.None? {
        var dic := BuildColumnStyleCache(part.worksheet.columns);
        colStyleCache := Some(dic);
      }
      var dic := colStyleCache.value;
      s := if col in dic then dic[col] else None;
      assert part.worksheet.columns.None? || Lookup(dic, col) == ColumnEntry(part.worksheet.columns.value, KeyColumn(col));
    }

    /**
     * `InferStyleIndexForNewCell` for a new cell of column `colIndex` in row
     * `k` of `rows`, whose index is `rowIndex`: see `InferredStyle`. The
     * column cache is built only when the row has no style.
     */
    method InferStyleIndexForNewCell(rows: seq<Row>, k: nat, rowIndex: UInt32, colIndex: Int32) returns (s: UInt32)
      requires k < |rows| && colIndex >= 1
      requires CacheValid() && (colStyleCache.None? && rows[k].style.None? ==> Bounded(part.worksheet.columns))
      modifies this`colStyleCache
      ensures CacheValid()
      ensures old(colStyleCache).Some? ==> colStyleCache == old(colStyleCache)
      ensures s == InferredStyle(rows, k, rowIndex, colIndex, ColumnStyle(part.worksheet.columns, colIndex), templateStyleIndex)
    {
      if rows[k].style.Some? {
        return rows[k].style.value;
      }
      var colStyle := GetColumnStyleIndex(colIndex);
      assert KeyColumn(colIndex) == colIndex;
      if colStyle.Some? {
        return colStyle.value;
      }
      var left := FindCellInRowByColumnIndex(rows[k].cells, colIndex - 1);
      if left.Some? && left.value.style.Some? {
        return left.value.style.value;
      }
      if rowIndex > 1 {
        var up := RowPos(rows, rowIndex - 1);
        if up < |rows| {
          var upper := FindCellInRowByColumnIndex(rows[up].cells, colIndex);
          if upper.Some? && upper.value.style.Some? {
            return upper.value.style.value;
          }
        }
      }
      return templateStyleIndex;
    }

    /**
     * `GetOrCreateCellWithStyle`: without sheet data and without `create`
     * there is no cell; otherwise the sheet data is created if missing, a
     * non-positive row or column is an `ArgumentOutOfRangeException`, and the
     * row is found or created. Even without `create` a missing cell is then
     * created: an existing cell (same reference, case-sensitive) is returned
     * untouched, otherwise a new cell with the inferred style is inserted
     * where `InsertCellInOrder` puts it.
     */
    method GetOrCreateCellWithStyle(rowIndex: Int32, columnIndex: Int32, create: bool) returns (r: Result<Option<(nat, nat)>>)
      requires CacheValid()
      requires (&& colStyleCache.None? && (part.worksheet.sheetData.Some? || create) && rowIndex >= 1 && columnIndex >= 1
                && ConsultsColumnCache(part.worksheet.sheetData.GetOr([]), rowIndex, columnIndex))
               ==> Bounded(part.worksheet.columns)
      modifies part, this`colStyleCache
      ensures CacheValid()
      ensures old(colStyleCache).Some? ==> colStyleCache == old(colStyleCache)
      ensures old(part.worksheet).sheetData.None? && !create ==> r == Ok(None) && part.worksheet == old(part.worksheet)
      ensures (old(part.worksheet).sheetData.Some? || create) && (rowIndex < 1 || columnIndex < 1) ==>
                r == Err(ArgumentOutOfRange) && part.worksheet == old(part.worksheet).(sheetData := Some(old(part.worksheet).sheetData.GetOr([])))
      ensures (old(part.worksheet).sheetData.Some? || create) && rowIndex >= 1 && columnIndex >= 1 ==>
                var w := WithStyledCell(old(part.worksheet).sheetData.GetOr([]), rowIndex, columnIndex,
                                        ColumnStyle(old(part.worksheet).columns, columnIndex), templateStyleIndex);
                r == Ok(Some(w.1)) && part.worksheet == old(part.worksheet).(sheetData := Some(w.0))
    {
      if part.worksheet.sheetData.None? {
        if !create {
          return Ok(None);
        }
        part.worksheet := part.worksheet.(sheetData := Some([]));
      }
      if rowIndex < 1 || columnIndex < 1 {
        return Err(ArgumentOutOfRange);
      }
      var loc := AddStyledCell(rowIndex, columnIndex);
      return Ok(Some(loc));
    }

    /** The part of `GetOrCreateCellWithStyle` after the checks: find or create the row, then find or insert the cell. */
    method AddStyledCell(rowIndex: Int32, columnIndex: Int32) returns (loc: (nat, nat))
      requires part.worksheet.sheetData.Some? && rowIndex >= 1 && columnIndex >= 1
      requires CacheValid()
      requires colStyleCache.None? && ConsultsColumnCache(part.worksheet.sheetData.value, rowIndex, columnIndex) ==> Bounded(part.worksheet.columns)
      modifies part, this`colStyleCache
      ensures CacheValid()
      ensures old(colStyleCache).Some? ==> colStyleCache == old(colStyleCache)
      ensures var w := WithStyledCell(old(part.worksheet).sheetData.value, rowIndex, columnIndex,
                                      ColumnStyle(old(part.worksheet).columns, columnIndex), templateStyleIndex);
              loc == w.1 && part.worksheet == old(part.worksheet).(sheetData := Some(w.0))
    {
      var cellRef := A1(columnIndex, rowIndex);
      var k := GetOrCreateRow(part, rowIndex);
      var rows := part.worksheet.sheetData.value;
      var cells := rows[k].cells;
      var j := ExactCellPos(cells, cellRef);
      if j < |cells| {
        return (k, j);
      }
      assert CacheValid();
      var style := InferStyleIndexForNewCell(rows, k, rowIndex, columnIndex);
      var newCell := NewCell(cellRef).(style := Some(style));
      var at := InsertInOrderPos(cells, Some(cellRef));
      part.worksheet := part.worksheet.(sheetData := Some(rows[k := rows[k].(cells := InsertAt(cells, at, newCell))]));
      return (k, at);
    }

    /**
     * The state of `SetBackColor`'s walk before (`col`, `row`): the memo has
     * only grown from `c0`; the style table has grown by at most one format
     * per entry of the local table `ids`, which has at most one entry per
     * visited cell, each for a base style of the rectangle and agreeing with
     * the memo; the visited cells carry their new style, the others are as in
     * `ws0`.
     */
    ghost predicate Recolouring(sm: SM.StyleManager, ws0: Worksheet, c0: map<StyleKey, nat>, fmts0: seq<Styles.CellFormat>, rgb: string,
                                ids: map<UInt32, UInt32>, row: int, col: int)
      reads this, part, sm, sm.wb
    {
      && sm.Valid() && SM.Prefix(fmts0, sm.Formats())
      && Walked(Area(), columnStyleMap, rgb, ws0, part.worksheet, c0, sm.styleCache, |fmts0|, |sm.Formats()|, ids, row, col)
    }

    /**
     * The state a failed walk leaves: the style manager is valid, its memo
     * and its formats only grew, the row styles, columns and merges are
     * kept, and the walk stopped at a cell of the rectangle.
     */
    ghost predicate RecolourStopped(sm: SM.StyleManager, ws0: Worksheet, c0: map<StyleKey, nat>, fmts0: seq<Styles.CellFormat>, rgb: string)
      reads this, part, sm, sm.wb
    {
      && sm.Valid() && SM.Prefix(fmts0, sm.Formats()) && Grows(c0, sm.styleCache)
      && Kept(ws0, part.worksheet) && (WellFormed(ws0) ==> WellFormed(part.worksheet))
      && Stopped(ws0, part.worksheet, BackColor(columnStyleMap, ws0, rgb, sm.styleCache), Area())
    }

    /**
     * `SetBackColor`: walks the rectangle row by row, creating the cells, and
     * gives each cell the style of its base style with a solid fill of the
     * colour's ARGB text. A local table maps each base style met to its new
     * style, so the style manager is asked once per distinct base style; a
     * base style with no format is an `ArgumentOutOfRangeException`, which
     * leaves the cells visited before it recoloured and the cell it stopped
     * at created. The style table only grows, and no coordinate outside the
     * rectangle changes. The style table is assumed to have room, within
     * `uint` ids, for one new format per distinct base style of the rectangle.
     */
    method SetBackColor(sm: SM.StyleManager, color: Colors.Argb) returns (outcome: Outcome)
      requires Valid() && ex < INT_MAX && ey < INT_MAX
      requires sm.Valid() && |sm.Formats()| + |Bases(part.worksheet, columnStyleMap, Area())| <= UINT_MAX + 1
      modifies part, sm`fontCache, sm`fillCache, sm`borderCache, sm`styleCache, sm.wb`stylesheet
      ensures sm.Valid() && Grows(old(sm.styleCache), sm.styleCache)
      ensures SM.Prefix(old(sm.Formats()), sm.Formats())
      ensures Kept(old(part.worksheet), part.worksheet)
      ensures WellFormed(old(part.worksheet)) ==> WellFormed(part.worksheet)
      ensures forall c, r :: IsCoord(c, r) && !Area().Contains(c, r) ==> CellAt(part.worksheet, c, r) == CellAt(old(part.worksheet), c, r)
      ensures outcome.Failed? ==> outcome.error == ArgumentOutOfRange
      ensures outcome.Failed? ==>
        Stopped(old(part.worksheet), part.worksheet, BackColor(columnStyleMap, old(part.worksheet), Colors.ToArgbHex(color), sm.styleCache), Area())
      ensures outcome.Done? ==>
        var rgb := Colors.ToArgbHex(color);
        && Recoloured(old(part.worksheet), columnStyleMap, rgb, sm.styleCache, Area())
        && Filled(old(part.worksheet), part.worksheet, BackColor(columnStyleMap, old(part.worksheet), rgb, sm.styleCache), Area())
        && |sm.Formats()| <= |old(sm.Formats())| + |Bases(old(part.worksheet), columnStyleMap, Area())|
    {
      var rgb := Colors.ToArgbHex(color);
      var localCache: map<UInt32, UInt32> := map[];
      ghost var ws0 := part.worksheet;
      ghost var c0 := sm.styleCache;
      ghost var fmts0 := sm.Formats();
      WalkStart(Area(), columnStyleMap, rgb, ws0, c0, |fmts0|);
      outcome, localCache := RecolorRows(sm, rgb, localCache, ws0, c0, fmts0);
      if outcome.Done? {
        WalkDone(Area(), columnStyleMap, rgb, ws0, part.worksheet, c0, sm.styleCache, |fmts0|, |sm.Formats()|, localCache);
      } else {
        StoppedOutside(ws0, part.worksheet, BackColor(columnStyleMap, ws0, rgb, sm.styleCache), Area());
      }
    }

    /** The rows of `SetBackColor`'s walk, from the first to the last; stops at the first failure. */
    method RecolorRows(sm: SM.StyleManager, rgb: string, ids: map<UInt32, UInt32>,
                       ghost ws0: Worksheet, ghost c0: map<StyleKey, nat>, ghost fmts0: seq<Styles.CellFormat>)
      returns (outcome: Outcome, ids2: map<UInt32, UInt32>)
      requires Valid() && ex < INT_MAX && ey < INT_MAX
      requires |fmts0| + |Bases(ws0, columnStyleMap, Area())| <= UINT_MAX + 1
      requires Recolouring(sm, ws0, c0, fmts0, rgb, ids, sy, sx)
      modifies part, sm`fontCache, sm`fillCache, sm`borderCache, sm`styleCache, sm.wb`stylesheet
      ensures outcome.Done? ==> Recolouring(sm, ws0, c0, fmts0, rgb, ids2, ey + 1, sx)
      ensures outcome.Failed? ==> outcome.error == ArgumentOutOfRange
      ensures outcome.Failed? ==> RecolourStopped(sm, ws0, c0, fmts0, rgb)
    {
      ids2 := ids;
      var row := sy;
      while row <= ey
        invariant sy <= row <= ey + 1
        invariant Recolouring(sm, ws0, c0, fmts0, rgb, ids2, row, sx)
      {
        outcome, ids2 := RecolorRow(sm, rgb, row, ids2, ws0, c0, fmts0);
        if outcome.Failed? {
          return;
        }
        row := row + 1;
      }
      outcome := Done;
    }

    /** One row of `SetBackColor`'s walk: visits the cells of `row` from the first column to the last. */
    method RecolorRow(sm: SM.StyleManager, rgb: string, row: int, ids: map<UInt32, UInt32>,
                      ghost ws0: Worksheet, ghost c0: map<StyleKey, nat>, ghost fmts0: seq<Styles.CellFormat>)
      returns (outcome: Outcome, ids2: map<UInt32, UInt32>)
      requires Valid() && ex < INT_MAX && sy <= row <= ey
      requires |fmts0| + |Bases(ws0, columnStyleMap, Area())| <= UINT_MAX + 1
      requires Recolouring(sm, ws0, c0, fmts0, rgb, ids, row, sx)
      modifies part, sm`fontCache, sm`fillCache, sm`borderCache, sm`styleCache, sm.wb`stylesheet
      ensures outcome.Done? ==> Recolouring(sm, ws0, c0, fmts0, rgb, ids2, row + 1, sx)
      ensures outcome.Failed? ==> outcome.error == ArgumentOutOfRange
      ensures outcome.Failed? ==> RecolourStopped(sm, ws0, c0, fmts0, rgb)
    {
      ids2 := ids;
      var col := sx;
      while col <= ex
        invariant sx <= col <= ex + 1
        invariant Recolouring(sm, ws0, c0, fmts0, rgb, ids2, row, col)
      {
        outcome, ids2 := RecolorCell(sm, rgb, col, row, ids2, ws0, c0, fmts0);
        if outcome.Failed? {
          return;
        }
        col := col + 1;
      }
      WalkNextRow(Area(), columnStyleMap, rgb, ws0, part.worksheet, c0, sm.styleCache, |fmts0|, |sm.Formats()|, ids2, row);
      outcome := Done;
    }

    /**
     * The new style `SetBackColor` gives a cell of base style `baseStyle`:
     * the local table's entry, or else the style manager's style for the base
     * style with a solid fill of `rgb`.
     */
    static method StyleWithFill(sm: SM.StyleManager, baseStyle: UInt32, rgb: string, ids: map<UInt32, UInt32>)
      returns (outcome: Outcome, newStyle: UInt32)
      requires sm.Valid() && (baseStyle !in ids ==> |sm.Formats()| + 1 <= UINT_MAX + 1)
      requires CacheAgrees(ids, sm.styleCache, rgb)
      modifies sm`fontCache, sm`fillCache, sm`borderCache, sm`styleCache, sm.wb`stylesheet
      ensures sm.Valid() && Grows(old(sm.styleCache), sm.styleCache)
      ensures baseStyle in ids ==> outcome.Done? && newStyle == ids[baseStyle] && sm.styleCache == old(sm.styleCache)
      ensures SM.Prefix(old(sm.Formats()), sm.Formats())
      ensures |sm.Formats()| <= old(|sm.Formats()|) + (if baseStyle in ids then 0 else 1)
      ensures outcome.Failed? ==> outcome.error == ArgumentOutOfRange
      ensures outcome.Done? ==> FillKey(baseStyle, rgb) in sm.styleCache && sm.styleCache[FillKey(baseStyle, rgb)] == newStyle
    {
      if baseStyle in ids {
        return Done, ids[baseStyle];
      }
      var id := sm.GetOrCreateStyle(baseStyle, None, Some(FillSpec(Some(rgb))), None, None);
      if id.Err? {
        return Failed(id.error), 0;
      }
      assert StyleKey(baseStyle, None, Some(FillSpec(Some(rgb))), None, None) == FillKey(baseStyle, rgb);
      return Done, id.value;
    }

    /**
     * One visit of `SetBackColor`'s walk: finds or creates the cell of
     * (`col`, `row`), resolves its base style, takes the new style from the
     * local table or else asks the style manager for the base style with the
     * fill (recording the answer), and gives the cell the new style.
     */
    method RecolorCell(sm: SM.StyleManager, rgb: string, col: int, row: int, ids: map<UInt32, UInt32>,
                       ghost ws0: Worksheet, ghost c0: map<StyleKey, nat>, ghost fmts0: seq<Styles.CellFormat>)
      returns (outcome: Outcome, ids2: map<UInt32, UInt32>)
      requires Valid() && sx <= col <= ex && sy <= row <= ey
      requires |fmts0| + |Bases(ws0, columnStyleMap, Area())| <= UINT_MAX + 1
      requires Recolouring(sm, ws0, c0, fmts0, rgb, ids, row, col)
      modifies part, sm`fontCache, sm`fillCache, sm`borderCache, sm`styleCache, sm.wb`stylesheet
      ensures outcome.Done? ==> Recolouring(sm, ws0, c0, fmts0, rgb, ids2, row, col + 1)
      ensures outcome.Failed? ==> outcome.error == ArgumentOutOfRange
      ensures outcome.Failed? ==> RecolourStopped(sm, ws0, c0, fmts0, rgb)
    {
      ghost var ws := part.worksheet;
      assert CellAt(ws, col, row) == CellAt(ws0, col, row) by {
        assert !Area().Before(row, col, col, row);
      }
      var k, j, cell, baseStyle := VisitCell(col, row, ws0);
      var rows := part.worksheet.sheetData.value;
      ghost var c1, n1 := sm.styleCache, |sm.Formats()|;
      if baseStyle !in ids {
        WalkRoom(Area(), columnStyleMap, rgb, ws0, ws, c0, c1, |fmts0|, n1, ids, row, col);
      }
      ghost var fmts1 := sm.Formats();
      var newStyle: UInt32;
      outcome, newStyle := StyleWithFill(sm, baseStyle, rgb, ids);
      SM.PrefixTransitive(fmts0, fmts1, sm.Formats());
      if outcome.Failed? {
        WalkStop(Area(), columnStyleMap, rgb, ws0, ws, part.worksheet, c0, c1, sm.styleCache, |fmts0|, n1, ids, row, col);
        return outcome, ids;
      }
      WalkStep(Area(), columnStyleMap, rgb, ws0, ws, part.worksheet, (k, j), c0, c1, sm.styleCache, |fmts0|, n1, |sm.Formats()|,
               ids, row, col, newStyle);
      ids2 := ids[baseStyle := newStyle];
      part.worksheet := part.worksheet.(sheetData := Some(RowsWithCellReplaced(rows, k, j, cell.(style := Some(newStyle)))));
      outcome := Done;
    }

    /**
     * The start of a visit of `SetBackColor`'s walk: finds or creates the
     * cell of (`col`, `row`), which still holds what it held in `ws0`, and
     * resolves its base style.
     */
    method VisitCell(col: int, row: int, ghost ws0: Worksheet) returns (k: nat, j: nat, cell: Cell, baseStyle: UInt32)
      requires IsCoord(col, row) && Kept(ws0, part.worksheet) && CellAt(part.worksheet, col, row) == CellAt(ws0, col, row)
      modifies part
      ensures Locates(part.worksheet, (k, j), col, row) && cell == part.worksheet.sheetData.value[k].cells[j]
      ensures cell == Base(ws0, col, row) && baseStyle == BaseStyle(cell, columnStyleMap, ws0)
      ensures CellAt(part.worksheet, col, row) == Some(Base(old(part.worksheet), col, row))
      ensures SameElsewhere(old(part.worksheet), part.worksheet, col, row)
      ensures WellFormed(old(part.worksheet)) ==> WellFormed(part.worksheet)
    {
      var loc := GetOrCreateCell(col, row, true);
      k, j := loc.value.0, loc.value.1;
      cell := part.worksheet.sheetData.value[k].cells[j];
      assert CellAt(part.worksheet, col, row) == Some(cell);
      baseStyle := ResolveBaseStyleIndex(cell);
      BaseStyleKept(cell, columnStyleMap, ws0, part.worksheet);
    }

    /**
     * `ResolveBaseStyleIndex`: the base style of a cell as `BaseStyle`
     * states, with the row style read from the current sheet.
     */
    method ResolveBaseStyleIndex(cell: Cell) returns (r: UInt32)
      ensures r == BaseStyle(cell, columnStyleMap, part.worksheet)
    {
      if cell.style.Some? {
        return cell.style.value;
      }
      if !NonEmpty(cell.reference) {
        return 0;
      }
      var p := TryParseA1(cell.reference.value);
      if !p.ok {
        return 0;
      }
      var colStyle := TryGetStyleIndex(columnStyleMap, p.col);
      if colStyle.Some? {
        return colStyle.value;
      }
      var sheetData := part.worksheet.sheetData;
      if sheetData.Some? {
        var k := RowPos(sheetData.value, p.row);
        if k < |sheetData.value| && sheetData.value[k].style.Some? {
          return sheetData.value[k].style.value;
        }
      }
      return 0;
    }
  }

  /**
   * Copy and paste: a snapshot of a cell pasted onto any cell reads back as
   * the captured value (a number excepted, whose text goes through floating
   * point) and carries the captured style whenever that style is not 0.
   */
  lemma PasteKeepsSnapshot(source: Option<Cell>, table: seq<string>, readDouble: DoubleReader, target: Cell, targetTable: seq<string>)
    requires |targetTable| <= INT_MAX
    requires !Capture(source, table, readDouble).value.Numeric?
    ensures var s := Capture(source, table, readDouble);
      var t := TableAfter(targetTable, s.value, s.isString);
      var pasted := Capture(Some(Stamped(Paste(s, t), target)), t, readDouble);
      && pasted.value == s.value
      && (s.styleIndex != 0 ==> pasted.styleIndex == s.styleIndex)
  {
    var s := Capture(source, table, readDouble);
    var t := TableAfter(targetTable, s.value, s.isString);
    var w := WrittenCell(target, s.value, s.isString, t);
    PasteReadsBack(source, table, readDouble, target, targetTable);
    assert ReadCell(Some(w), t, readDouble) == s.value;
    ReadCellIgnoresStyle(w, Some(s.styleIndex), t, readDouble);
    var x := Stamped(Paste(s, t), target);
    assert x == if s.styleIndex != 0 then w.(style := Some(s.styleIndex)) else w;
    assert ReadCell(Some(x), t, readDouble) == s.value;
  }

  /** Writing the value and then, unless it is 0, the style fills the rectangle with the pasted cells. */
  lemma PasteCompose(ws0: Worksheet, ws1: Worksheet, ws2: Worksheet, snap: CellSnapshot, t: seq<string>, area: Rect)
    requires Filled(ws0, ws1, WriteValue(snap.value, snap.isString, t), area)
    requires snap.styleIndex != 0 ==> Filled(ws1, ws2, SetStyle(snap.styleIndex), area)
    requires snap.styleIndex == 0 ==> ws2 == ws1
    ensures Filled(ws0, ws2, Paste(snap, t), area)
  {
    forall c, r | IsCoord(c, r)
      ensures CellAt(ws2, c, r) == if area.Contains(c, r) then Some(Stamped(Paste(snap, t), Base(ws0, c, r))) else CellAt(ws0, c, r)
    {
      if area.Contains(c, r) && snap.styleIndex != 0 {
        assert Base(ws1, c, r) == Stamped(WriteValue(snap.value, snap.isString, t), Base(ws0, c, r));
      }
    }
  }
}

=== FILE: printarea.dfy ===
/**
 * The print area of a sheet (`PrintArea`): a defined name `_xlnm.Print_Area`
 * scoped to the sheet's 0-based position in the workbook, whose text is the
 * quoted sheet name (each `'` doubled), `!`, and the absolute addresses of two
 * corners joined by `:`.
 *
 * Setting a print area removes the print areas scoped to the current sheet,
 * and only those, then appends one. The corners are written as given, not
 * normalised; the text overload parses a range, which normalises it, and
 * delegates.
 */
module PrintAreas {
  import opened Common
  import opened Address
  import opened Document
  import opened Csv

  const PrintAreaName: string := "_xlnm.Print_Area"

  /** A print area scoped to the sheet at position `id`. */
  predicate IsPrintAreaOf(d: DefinedName, id: nat) {
    d.name == Some(PrintAreaName) && d.localSheetId == Some(id)
  }

  /** The defined names without the print areas of sheet `id`, in order. */
  function WithoutPrintArea(names: seq<DefinedName>, id: nat): (r: seq<DefinedName>)
    ensures |r| <= |names|
  {
    if names == [] then []
    else
      var last := names[|names| - 1];
      WithoutPrintArea(names[..|names| - 1], id) + if IsPrintAreaOf(last, id) then [] else [last]
  }

  /** The names kept are exactly the names that are not print areas of sheet `id`. */
  lemma {:induction false} WithoutPrintAreaMembers(names: seq<DefinedName>, id: nat)
    ensures forall d :: d in WithoutPrintArea(names, id) <==> d in names && !IsPrintAreaOf(d, id)
  {
    if names != [] {
      var init := names[..|names| - 1];
      WithoutPrintAreaMembers(init, id);
      assert names == init + [names[|names| - 1]];
    }
  }

  /** Removing the print areas of a sheet twice removes nothing more. */
  lemma {:induction false} WithoutPrintAreaIdempotent(names: seq<DefinedName>, id: nat)
    ensures WithoutPrintArea(WithoutPrintArea(names, id), id) == WithoutPrintArea(names, id)
  {
    if names != [] {
      var init := names[..|names| - 1];
      var last := names[|names| - 1];
      var w := WithoutPrintArea(init, id);
      WithoutPrintAreaIdempotent(init, id);
      if IsPrintAreaOf(last, id) {
        assert WithoutPrintArea(names, id) == w + [] == w;
      } else {
        assert WithoutPrintArea(names, id) == w + [last];
        WithoutPrintAreaSnoc(w, last, id);
      }
    }
  }

  /** Removing the print areas of a sheet from a list extended by one name. */
  lemma WithoutPrintAreaSnoc(names: seq<DefinedName>, d: DefinedName, id: nat)
    ensures WithoutPrintArea(names + [d], id) == WithoutPrintArea(names, id) + if IsPrintAreaOf(d, id) then [] else [d]
  {
    assert (names + [d])[..|names|] == names;
  }

  /** The loop that collects the print areas of sheet `id` and removes them, keeping the order of the others. */
  method RemovePrintAreas(names: seq<DefinedName>, id: nat) returns (kept: seq<DefinedName>)
    ensures kept == WithoutPrintArea(names, id)
  {
    kept := [];
    var i := 0;
    while i < |names|
      invariant 0 <= i <= |names|
      invariant kept == WithoutPrintArea(names[..i], id)
    {
      assert names[..i + 1][..i] == names[..i];
      if !(names[i].name == Some(PrintAreaName) && names[i].localSheetId == Some(id)) {
        kept := kept + [names[i]];
      }
      i := i + 1;
    }
    assert names[..i] == names;
  }

  /** `FindIndex` on the sheet list: the first sheet whose name equals `name` (ordinally), or the list's length. */
  function SheetPosition(sheets: seq<SheetEntry>, name: Option<string>): (k: nat)
    ensures k <= |sheets|
    ensures k < |sheets| ==> sheets[k].name == name
    ensures forall j :: 0 <= j < k ==> sheets[j].name != name
  {
    if sheets == [] then 0
    else if sheets[0].name == name then 0
    else
      var k := SheetPosition(sheets[1..], name);
      assert forall j :: 1 <= j < k + 1 ==> sheets[j] == sheets[1..][j - 1];
      1 + k
  }

  /** The print-area text of two corners: the absolute addresses joined by `:`. */
  function AreaText(sx: int, sy: int, ex: int, ey: int): string
    requires sx >= 1 && ex >= 1
  {
    ToAbsoluteA1(sx, sy).value + ":" + ToAbsoluteA1(ex, ey).value
  }

  /**
   * The print-area formula: a sheet without a name makes the quoting throw a
   * `NullReferenceException`, a non-positive column makes `ToAbsoluteA1`
   * throw; otherwise the quoted name, `!` and the area.
   */
  function PrintAreaFormula(sheetName: Option<string>, sx: int, sy: int, ex: int, ey: int): (r: Result<string>)
    ensures sheetName.None? ==> r == Err(NullReference)
    ensures sheetName.Some? && (sx <= 0 || ex <= 0) ==> r == Err(ArgumentOutOfRange)
    ensures r.Ok? <==> sheetName.Some? && sx >= 1 && ex >= 1
    ensures r.Ok? ==> r.value == "'" + Doubled(sheetName.value, '\'') + "'!" + AreaText(sx, sy, ex, ey)
  {
    if sheetName.None? then Err(NullReference)
    else
      var a := ToAbsoluteA1(sx, sy);
      var b := ToAbsoluteA1(ex, ey);
      if a.Err? then Err(a.error)
      else if b.Err? then Err(b.error)
      else Ok("'" + Doubled(sheetName.value, '\'') + "'!" + a.value + ":" + b.value)
  }

  /**
   * `PrintArea(sx, sy, ex, ey)` on the workbook's defined names, given the
   * sheet list and the current sheet's name as the sheet manager reports it:
   * the outcome and the names afterwards. A missing `DefinedNames` element is
   * created first; the current sheet is looked up by name
   * (`InvalidOperationException` when it is not found); its print areas are
   * removed; the formula is built, which can throw; then one print area
   * scoped to the sheet's position is appended.
   */
  function SetPrintArea(names: Option<seq<DefinedName>>, sheets: seq<SheetEntry>, current: Result<Option<string>>,
                        sx: int, sy: int, ex: int, ey: int): (Outcome, seq<DefinedName>)
  {
    var ns := names.GetOr([]);
    if current.Err? then (Failed(current.error), ns)
    else
      var k := SheetPosition(sheets, current.value);
      if k == |sheets| then (Failed(InvalidOperation), ns)
      else
        var kept := WithoutPrintArea(ns, k);
        var f := PrintAreaFormula(current.value, sx, sy, ex, ey);
        if f.Err? then (Failed(f.error), kept)
        else (Done, kept + [DefinedName(Some(PrintAreaName), Some(k), f.value)])
  }

  /**
   * Setting a print area succeeds exactly when the current sheet is found by
   * name, has a name, and both columns are positive; the sheet then has
   * exactly one print area, the last name, whose text is the formula.
   */
  lemma PrintAreaSingle(names: Option<seq<DefinedName>>, sheets: seq<SheetEntry>, current: Result<Option<string>>,
                        sx: int, sy: int, ex: int, ey: int)
    ensures var r := SetPrintArea(names, sheets, current, sx, sy, ex, ey);
      r.0 == Done <==> current.Ok? && SheetPosition(sheets, current.value) < |sheets| && current.value.Some? && sx >= 1 && ex >= 1
    ensures var r := SetPrintArea(names, sheets, current, sx, sy, ex, ey);
      r.0 == Done ==>
        var k := SheetPosition(sheets, current.value);
        && |r.1| >= 1
        && (forall i :: 0 <= i < |r.1| ==> (IsPrintAreaOf(r.1[i], k) <==> i == |r.1| - 1))
        && r.1[|r.1| - 1].text == "'" + Doubled(current.value.value, '\'') + "'!" + AreaText(sx, sy, ex, ey)
  {
    var r := SetPrintArea(names, sheets, current, sx, sy, ex, ey);
    if r.0 == Done {
      var k := SheetPosition(sheets, current.value);
      var kept := WithoutPrintArea(names.GetOr([]), k);
      WithoutPrintAreaMembers(names.GetOr([]), k);
      assert forall i :: 0 <= i < |kept| ==> kept[i] in kept;
    }
  }

  /**
   * Whatever the outcome, once the current sheet is found every name that is
   * not one of its print areas is kept, in order: other sheets' print areas
   * and every other name are untouched.
   */
  lemma PrintAreaKeepsOthers(names: Option<seq<DefinedName>>, sheets: seq<SheetEntry>, current: Result<Option<string>>,
                             sx: int, sy: int, ex: int, ey: int)
    requires current.Ok? && SheetPosition(sheets, current.value) < |sheets|
    ensures var k := SheetPosition(sheets, current.value);
      WithoutPrintArea(SetPrintArea(names, sheets, current, sx, sy, ex, ey).1, k) == WithoutPrintArea(names.GetOr([]), k)
  {
    var k := SheetPosition(sheets, current.value);
    var kept := WithoutPrintArea(names.GetOr([]), k);
    WithoutPrintAreaIdempotent(names.GetOr([]), k);
    var f := PrintAreaFormula(current.value, sx, sy, ex, ey);
    var r := SetPrintArea(names, sheets, current, sx, sy, ex, ey);
    if f.Ok? {
      var d := DefinedName(Some(PrintAreaName), Some(k), f.value);
      assert r.1 == kept + [d];
      WithoutPrintAreaSnoc(kept, d, k);
      assert IsPrintAreaOf(d, k);
    } else {
      assert r.1 == kept;
    }
  }

  /** Setting the same print area again leaves the names as they are. */
  lemma PrintAreaIdempotent(names: Option<seq<DefinedName>>, sheets: seq<SheetEntry>, current: Result<Option<string>>,
                            sx: int, sy: int, ex: int, ey: int)
    requires SetPrintArea(names, sheets, current, sx, sy, ex, ey).0 == Done
    ensures var r := SetPrintArea(names, sheets, current, sx, sy, ex, ey);
      SetPrintArea(Some(r.1), sheets, current, sx, sy, ex, ey) == r
  {
    var k := SheetPosition(sheets, current.value);
    var kept := WithoutPrintArea(names.GetOr([]), k);
    var d := DefinedName(Some(PrintAreaName), Some(k), PrintAreaFormula(current.value, sx, sy, ex, ey).value);
    var r := SetPrintArea(names, sheets, current, sx, sy, ex, ey);
    assert r == (Done, kept + [d]);
    WithoutPrintAreaIdempotent(names.GetOr([]), k);
    WithoutPrintAreaSnoc(kept, d, k);
    assert WithoutPrintArea(kept + [d], k) == kept + [] == kept;
  }

  /**
   * The area a print area is written with reads back, through
   * `TryParseA1Range`, as the rectangle of its corners normalised to
   * top-left and bottom-right.
   */
  lemma AreaTextReadsBack(sx: int, sy: int, ex: int, ey: int)
    requires 1 <= sx <= INT_MAX && 1 <= ex <= INT_MAX && 1 <= sy <= INT_MAX && 1 <= ey <= INT_MAX
    ensures TryParseA1Range(AreaText(sx, sy, ex, ey)) == RangeParse(true, Min(sx, ex), Min(sy, ey), Max(sx, ex), Max(sy, ey))
  {
    TryParseA1RangeOfAbsolute(sx, sy, ex, ey);
  }

  /**
   * `PrintArea(string)`: blank text or text `TryParseA1Range` rejects is an
   * `ArgumentException` with nothing changed; otherwise the parsed, normalised
   * corners are handed to `PrintArea(sx, sy, ex, ey)`.
   */
  function SetPrintAreaText(names: Option<seq<DefinedName>>, sheets: seq<SheetEntry>, current: Result<Option<string>>,
                            a1Range: string): (r: (Outcome, Option<seq<DefinedName>>))
    ensures IsBlank(a1Range) ==> r == (Failed(Argument), names)
    ensures !TryParseA1Range(a1Range).ok ==> r == (Failed(Argument), names)
  {
    if IsBlank(a1Range) then (Failed(Argument), names)
    else
      var p := TryParseA1Range(a1Range);
      if !p.ok then (Failed(Argument), names)
      else
        var s := SetPrintArea(names, sheets, current, p.sx, p.sy, p.ex, p.ey);
        (s.0, Some(s.1))
  }

  /**
   * Setting a print area by the text of its corners does what setting it by
   * the normalised corners does: the two overloads agree.
   */
  lemma PrintAreaTextAgrees(names: Option<seq<DefinedName>>, sheets: seq<SheetEntry>, current: Result<Option<string>>,
                            sx: int, sy: int, ex: int, ey: int)
    requires 1 <= sx <= INT_MAX && 1 <= ex <= INT_MAX && 1 <= sy <= INT_MAX && 1 <= ey <= INT_MAX
    ensures var s := SetPrintArea(names, sheets, current, Min(sx, ex), Min(sy, ey), Max(sx, ex), Max(sy, ey));
      SetPrintAreaText(names, sheets, current, AreaText(sx, sy, ex, ey)) == (s.0, Some(s.1))
  {
    AreaTextReadsBack(sx, sy, ex, ey);
  }
}

=== FILE: rowdelete.dfy ===
/**
 * Deleting a block of rows (`RowDelete`), as a function of the rows of the
 * sheet data, and the loops that compute it.
 *
 * In order:
 * 1. every cell with a shared formula loses the formula's shared index,
 *    range reference and type, and keeps its text;
 * 2. every row whose index lies in the 1-based block `sy + 1 .. sy + count`
 *    is removed;
 * 3. every row with an index above the block moves up by `count`, and each of
 *    its cells gets the reference of its column in the new row.
 * The rewrite takes the column from `TryParseA1`'s out value, so a reference
 * that yields no column makes `ToA1` throw; the rows then stay as far as the
 * rewrite got.
 *
 * On a well-formed sheet nothing throws, the result is well-formed, and the
 * cell at a coordinate below the block is the cell that was `count` rows
 * further down.
 */
module RowDeletion {
  import opened Common
  import opened Address
  import opened Sheet
  import opened Csv

  // ---------------------------------------------------------------------------
  // Step 1: shared formulas
  // ---------------------------------------------------------------------------

  /** A cell without the shared-formula attributes of its formula, if that formula is shared. */
  function ClearShared(c: Cell): Cell {
    if IsSharedFormula(c) then c.(formula := Some(Formula(c.formula.value.text, None, None, None))) else c
  }

  function ClearRow(r: Row): (x: Row)
    ensures x.index == r.index && x.style == r.style && |x.cells| == |r.cells|
    ensures forall j :: 0 <= j < |r.cells| ==> x.cells[j] == ClearShared(r.cells[j])
  {
    r.(cells := seq(|r.cells|, j requires 0 <= j < |r.cells| => ClearShared(r.cells[j])))
  }

  function ClearAll(rows: seq<Row>): (x: seq<Row>)
    ensures |x| == |rows| && forall i :: 0 <= i < |rows| ==> x[i] == ClearRow(rows[i])
  {
    seq(|rows|, i requires 0 <= i < |rows| => ClearRow(rows[i]))
  }

  /** The loop over every cell of the sheet: shared formulas lose their shared attributes, nothing else changes. */
  method ClearSharedFormulas(rows: seq<Row>) returns (r: seq<Row>)
    ensures r == ClearAll(rows)
  {
    r := rows;
    var i := 0;
    while i < |r|
      invariant 0 <= i <= |r| == |rows|
      invariant forall k :: 0 <= k < i ==> r[k] == ClearRow(rows[k])
      invariant forall k :: i <= k < |r| ==> r[k] == rows[k]
    {
      var cells := r[i].cells;
      var j := 0;
      while j < |cells|
        invariant 0 <= j <= |cells| == |rows[i].cells|
        invariant forall k :: 0 <= k < j ==> cells[k] == ClearShared(rows[i].cells[k])
        invariant forall k :: j <= k < |cells| ==> cells[k] == rows[i].cells[k]
      {
        var c := cells[j];
        if c.formula.Some? && c.formula.value.formulaType == Some(Shared) {
          cells := cells[j := c.(formula := Some(c.formula.value.(sharedIndex := None, reference := None, formulaType := None)))];
        }
        j := j + 1;
      }
      r := r[i := r[i].(cells := cells)];
      i := i + 1;
    }
  }

  // ---------------------------------------------------------------------------
  // Step 2: removing the block
  // ---------------------------------------------------------------------------

  predicate InBlock(r: Row, start: int, end: int) {
    r.index.Some? && start <= r.index.value <= end
  }

  /** The rows outside the block, in order. */
  function WithoutBlock(rows: seq<Row>, start: int, end: int): (x: seq<Row>)
    ensures |x| <= |rows|
  {
    if rows == [] then []
    else (if InBlock(rows[0], start, end) then [] else [rows[0]]) + WithoutBlock(rows[1..], start, end)
  }

  /** Removing the block from a list extended by one row extends the result by that row unless it lies in the block. */
  lemma {:induction false} WithoutBlockSnoc(a: seq<Row>, h: Row, start: int, end: int)
    ensures WithoutBlock(a + [h], start, end) == WithoutBlock(a, start, end) + (if InBlock(h, start, end) then [] else [h])
  {
    if a == [] {
      assert ([] + [h])[1..] == [];
    } else {
      assert (a + [h])[1..] == a[1..] + [h];
      WithoutBlockSnoc(a[1..], h, start, end);
    }
  }

  /** Collects the rows of the block and removes them, keeping the order of the others. */
  method RemoveBlock(rows: seq<Row>, start: int, end: int) returns (kept: seq<Row>)
    ensures kept == WithoutBlock(rows, start, end)
  {
    kept := [];
    var i := 0;
    while i < |rows|
      invariant 0 <= i <= |rows|
      invariant kept == WithoutBlock(rows[..i], start, end)
    {
      assert rows[..i + 1] == rows[..i] + [rows[i]];
      WithoutBlockSnoc(rows[..i], rows[i], start, end);
      if !(rows[i].index.Some? && rows[i].index.value >= start && rows[i].index.value <= end) {
        kept := kept + [rows[i]];
      }
      i := i + 1;
    }
    assert rows[..i] == rows;
  }

  // ---------------------------------------------------------------------------
  // Step 3: moving the rows below the block up
  // ---------------------------------------------------------------------------

  /** `a` is `b` with possibly other cell references. */
  predicate SameButReferences(a: Row, b: Row) {
    a.style == b.style && |a.cells| == |b.cells|
    && forall j :: 0 <= j < |a.cells| ==> a.cells[j] == b.cells[j].(reference := a.cells[j].reference)
  }

  /** A cell moved to row `newIndex`: a cell without a reference is kept; otherwise nothing when `ToA1` throws. */
  function ShiftedCell(c: Cell, newIndex: UInt32): (x: Option<Cell>)
    ensures x.Some? ==> x.value == c.(reference := x.value.reference)
  {
    if c.reference.None? then Some(c)
    else
      var a1 := ToA1(TryParseA1(c.reference.value).col, UIntToInt(newIndex));
      if a1.Err? then None else Some(c.(reference := Some(a1.value)))
  }

  /** Position of the first cell whose reference makes `ToA1` throw, or `|cells|`. */
  function FirstFailedCell(cells: seq<Cell>, newIndex: UInt32): (k: nat)
    ensures k <= |cells|
    ensures k < |cells| ==> ShiftedCell(cells[k], newIndex).None?
    ensures forall j :: 0 <= j < k ==> ShiftedCell(cells[j], newIndex).Some?
  {
    if cells == [] || ShiftedCell(cells[0], newIndex).None? then 0
    else 1 + FirstFailedCell(cells[1..], newIndex)
  }

  /**
   * The cells of a moved row, and whether the rewrite got through them all:
   * the cells before the first throw are rewritten, the rest are left as
   * they were.
   */
  function ShiftedCells(cells: seq<Cell>, newIndex: UInt32): (x: (seq<Cell>, bool))
    ensures |x.0| == |cells|
  {
    var f := FirstFailedCell(cells, newIndex);
    (seq(|cells|, j requires 0 <= j < |cells| => if j < f then ShiftedCell(cells[j], newIndex).value else cells[j]), f == |cells|)
  }

  /** A row below the block moved up by `count`, and whether all its references could be rewritten. */
  function MovedRow(h: Row, count: nat, end: nat): (x: (Row, bool))
    requires h.index.Some? && h.index.value > end && count <= end + 1
  {
    var cells := ShiftedCells(h.cells, h.index.value - count);
    (Row(Some(h.index.value - count), h.style, cells.0), cells.1)
  }

  /** What the move does to one row: a row without an index or not below the block stays. */
  function RowOutcome(h: Row, count: nat, end: nat): (Row, bool)
    requires count <= end + 1
  {
    if h.index.None? || h.index.value <= end then (h, true) else MovedRow(h, count, end)
  }

  /** Position of the first row whose move throws, or `|rows|`. */
  function FirstFailedRow(rows: seq<Row>, count: nat, end: nat): (k: nat)
    requires count <= end + 1
    ensures k <= |rows|
    ensures k < |rows| ==> !RowOutcome(rows[k], count, end).1
    ensures forall j :: 0 <= j < k ==> RowOutcome(rows[j], count, end).1
  {
    if rows == [] || !RowOutcome(rows[0], count, end).1 then 0
    else 1 + FirstFailedRow(rows[1..], count, end)
  }

  /**
   * The rows after the move, and whether it got through them all: the rows
   * up to the first throw are moved (the one that throws keeps the
   * references rewritten before the throw), the rest are left as they were.
   */
  function ShiftedRows(rows: seq<Row>, count: nat, end: nat): (x: (seq<Row>, bool))
    requires count <= end + 1
    ensures |x.0| == |rows|
  {
    var f := FirstFailedRow(rows, count, end);
    (seq(|rows|, i requires 0 <= i < |rows| => if i <= f then RowOutcome(rows[i], count, end).0 else rows[i]), f == |rows|)
  }

  /** The first throw is at `j` when every cell before `j` is rewritten and the one at `j` throws. */
  lemma {:induction false} FirstFailedCellAt(cells: seq<Cell>, newIndex: UInt32, j: nat)
    requires j <= |cells|
    requires forall k :: 0 <= k < j ==> ShiftedCell(cells[k], newIndex).Some?
    requires j < |cells| ==> ShiftedCell(cells[j], newIndex).None?
    ensures FirstFailedCell(cells, newIndex) == j
  {
    if j > 0 {
      assert ShiftedCell(cells[0], newIndex).Some?;
      FirstFailedCellAt(cells[1..], newIndex, j - 1);
    }
  }

  /** A list rewritten up to `j`, stopping there when the cell at `j` throws, is the outcome `ShiftedCells` describes. */
  lemma ShiftedCellsUpTo(cells: seq<Cell>, newIndex: UInt32, r: seq<Cell>, j: nat)
    requires j <= |cells| == |r|
    requires forall k :: 0 <= k < j ==> ShiftedCell(cells[k], newIndex).Some? && r[k] == ShiftedCell(cells[k], newIndex).value
    requires j < |cells| ==> ShiftedCell(cells[j], newIndex).None?
    requires forall k :: j <= k < |cells| ==> r[k] == cells[k]
    ensures (r, j == |cells|) == ShiftedCells(cells, newIndex)
  {
    FirstFailedCellAt(cells, newIndex, j);
    assert r == ShiftedCells(cells, newIndex).0;
  }

  /** The first throw is at `i` when every row before `i` moves and the one at `i` throws. */
  lemma {:induction false} FirstFailedRowAt(rows: seq<Row>, count: nat, end: nat, i: nat)
    requires count <= end + 1 && i <= |rows|
    requires forall k :: 0 <= k < i ==> RowOutcome(rows[k], count, end).1
    requires i < |rows| ==> !RowOutcome(rows[i], count, end).1
    ensures FirstFailedRow(rows, count, end) == i
  {
    if i > 0 {
      assert RowOutcome(rows[0], count, end).1;
      FirstFailedRowAt(rows[1..], count, end, i - 1);
    }
  }

  /** A list moved up to `i`, the row at `i` included when it throws, is the outcome `ShiftedRows` describes. */
  lemma ShiftedRowsUpTo(rows: seq<Row>, count: nat, end: nat, r: seq<Row>, i: nat)
    requires count <= end + 1 && i <= |rows| == |r|
    requires forall k :: 0 <= k < i ==> RowOutcome(rows[k], count, end).1 && r[k] == RowOutcome(rows[k], count, end).0
    requires i < |rows| ==> !RowOutcome(rows[i], count, end).1 && r[i] == RowOutcome(rows[i], count, end).0
    requires forall k :: i < k < |rows| ==> r[k] == rows[k]
    ensures (r, i == |rows|) == ShiftedRows(rows, count, end)
  {
    FirstFailedRowAt(rows, count, end, i);
    assert r == ShiftedRows(rows, count, end).0;
  }

  /** The rewrite of one moved row's references, in place; `false` when a reference makes `ToA1` throw. */
  method ShiftCells(cells: seq<Cell>, newIndex: UInt32) returns (r: seq<Cell>, ok: bool)
    ensures (r, ok) == ShiftedCells(cells, newIndex)
  {
    r := cells;
    var j := 0;
    while j < |cells|
      invariant 0 <= j <= |cells| == |r|
      invariant forall k :: 0 <= k < j ==> ShiftedCell(cells[k], newIndex).Some? && r[k] == ShiftedCell(cells[k], newIndex).value
      invariant forall k :: j <= k < |cells| ==> r[k] == cells[k]
    {
      var c := ShiftedCell(cells[j], newIndex);
      if c.None? {
        ShiftedCellsUpTo(cells, newIndex, r, j);
        return r, false;
      }
      r := r[j := c.value];
      j := j + 1;
    }
    ShiftedCellsUpTo(cells, newIndex, r, j);
    ok := true;
  }

  /** One row below the block: its index drops by `count`, then its references are rewritten. */
  method MoveRow(row: Row, count: nat, end: nat) returns (moved: Row, ok: bool)
    requires row.index.Some? && row.index.value > end && count <= end + 1
    ensures (moved, ok) == MovedRow(row, count, end)
  {
    var newIndex := row.index.value - count;
    var cells;
    cells, ok := ShiftCells(row.cells, newIndex);
    moved := Row(Some(newIndex), row.style, cells);
  }

  /** The loop over the rows, in place: rows below the block move up by `count` and their references are rewritten. */
  method ShiftRows(rows: seq<Row>, count: nat, end: nat) returns (r: seq<Row>, ok: bool)
    requires count <= end + 1
    ensures (r, ok) == ShiftedRows(rows, count, end)
  {
    r := rows;
    var i := 0;
    while i < |rows|
      invariant 0 <= i <= |rows| == |r|
      invariant forall k :: 0 <= k < i ==> RowOutcome(rows[k], count, end).1 && r[k] == RowOutcome(rows[k], count, end).0
      invariant forall k :: i <= k < |rows| ==> r[k] == rows[k]
    {
      var row := rows[i];
      if row.index.Some? && row.index.value > end {
        var moved, cellsOk := MoveRow(row, count, end);
        r := r[i := moved];
        if !cellsOk {
          ShiftedRowsUpTo(rows, count, end, r, i);
          return r, false;
        }
      }
      i := i + 1;
    }
    ShiftedRowsUpTo(rows, count, end, r, i);
    ok := true;
  }

  // ---------------------------------------------------------------------------
  // The whole deletion
  // ---------------------------------------------------------------------------

  /** The rows after deleting the rows `sy + 1 .. sy + count`, and whether every reference could be rewritten. */
  function DeleteRows(rows: seq<Row>, sy: nat, count: nat): (seq<Row>, bool)
    requires count >= 1
  {
    ShiftedRows(Kept(rows, sy, count), count, sy + count)
  }

  /**
   * The three passes one after the other: the rows the deletion gives, and
   * whether every reference could be rewritten, which on a well-formed
   * sheet it always can, keeping the sheet well-formed.
   */
  method DeleteRowBlock(rows: seq<Row>, sy: nat, count: nat) returns (r: seq<Row>, ok: bool)
    requires count >= 1
    ensures (r, ok) == DeleteRows(rows, sy, count)
    ensures RowsWellFormed(rows) ==> ok && RowsWellFormed(r)
  {
    var cleared := ClearSharedFormulas(rows);
    var kept := RemoveBlock(cleared, sy + 1, sy + count);
    assert kept == Kept(rows, sy, count);
    r, ok := ShiftRows(kept, count, sy + count);
    assert (r, ok) == DeleteRows(rows, sy, count);
    if RowsWellFormed(rows) {
      DeleteRowsWellFormed(rows, sy, count);
    }
  }

  /** The rows the deletion keeps, shared formulas cleared, before the move. */
  function Kept(rows: seq<Row>, sy: nat, count: nat): seq<Row> {
    WithoutBlock(ClearAll(rows), sy + 1, sy + count)
  }

  /** A cell found before the deletion, as the deletion leaves it when it moves to row `row`. */
  function MovedTo(c: Option<Cell>, col: int, row: int): Option<Cell>
    requires col >= 1
  {
    if c.None? then None else Some(ClearShared(c.value).(reference := Some(A1(col, row))))
  }

  function Cleared(c: Option<Cell>): Option<Cell> {
    if c.None? then None else Some(ClearShared(c.value))
  }

  /** The rows kept are rows of the list, none of them in the block. */
  lemma {:induction false} WithoutBlockMembers(rows: seq<Row>, start: int, end: int)
    ensures forall r :: r in WithoutBlock(rows, start, end) ==> r in rows && !InBlock(r, start, end)
  {
    if rows != [] {
      WithoutBlockMembers(rows[1..], start, end);
    }
  }

  /** The move changes row indexes and cell references, and nothing else. */
  lemma ShiftedRowsSame(rows: seq<Row>, count: nat, end: nat)
    requires count <= end + 1
    ensures forall i :: 0 <= i < |rows| ==> SameButReferences(ShiftedRows(rows, count, end).0[i], rows[i])
  {
    var x := ShiftedRows(rows, count, end).0;
    forall i | 0 <= i < |rows| ensures SameButReferences(x[i], rows[i]) {
      var h := rows[i];
      if i <= FirstFailedRow(rows, count, end) && h.index.Some? && h.index.value > end {
        var n := h.index.value - count;
        var f := FirstFailedCell(h.cells, n);
        forall j | 0 <= j < |h.cells| ensures x[i].cells[j] == h.cells[j].(reference := x[i].cells[j].reference) {
          if j < f {
            assert x[i].cells[j] == ShiftedCell(h.cells[j], n).value;
          }
        }
      }
    }
  }

  /** No cell of the list holds a shared formula. */
  predicate NoShared(rows: seq<Row>) {
    forall i, j :: 0 <= i < |rows| && 0 <= j < |rows[i].cells| ==> !IsSharedFormula(rows[i].cells[j])
  }

  lemma KeptNoShared(rows: seq<Row>, sy: nat, count: nat)
    ensures NoShared(Kept(rows, sy, count))
  {
    var c := ClearAll(rows);
    WithoutBlockMembers(c, sy + 1, sy + count);
    var w := Kept(rows, sy, count);
    forall i, j | 0 <= i < |w| && 0 <= j < |w[i].cells| ensures !IsSharedFormula(w[i].cells[j]) {
      assert w[i] in c;
    }
  }

  lemma ShiftedRowsNoShared(w: seq<Row>, count: nat, end: nat)
    requires count <= end + 1 && NoShared(w)
    ensures NoShared(ShiftedRows(w, count, end).0)
  {
    ShiftedRowsSame(w, count, end);
    var r := ShiftedRows(w, count, end).0;
    forall i, j | 0 <= i < |r| && 0 <= j < |r[i].cells| ensures !IsSharedFormula(r[i].cells[j]) {
      assert SameButReferences(r[i], w[i]);
    }
  }

  /** The kept rows, moved, hold no shared formula. */
  lemma ShiftedKeptNoShared(rows: seq<Row>, sy: nat, count: nat)
    requires count >= 1
    ensures NoShared(ShiftedRows(Kept(rows, sy, count), count, sy + count).0)
  {
    KeptNoShared(rows, sy, count);
    ShiftedRowsNoShared(Kept(rows, sy, count), count, sy + count);
  }

  /** No cell keeps a shared formula, whether or not the rewrite got through. */
  lemma NoSharedAfterDelete(rows: seq<Row>, sy: nat, count: nat)
    requires count >= 1
    ensures NoShared(DeleteRows(rows, sy, count).0)
  {
    ShiftedKeptNoShared(rows, sy, count);
  }

  // ---------------------------------------------------------------------------
  // Lookups before and after
  // ---------------------------------------------------------------------------

  /** Two row lists whose rows match two indexes at the same places find them at the same position. */
  lemma {:induction false} RowPosCorresponds(m: seq<Row>, w: seq<Row>, a: int, b: int)
    requires |m| == |w|
    requires forall j :: 0 <= j < |m| ==> (RowHasIndex(m[j], a) <==> RowHasIndex(w[j], b))
    ensures RowPos(m, a) == RowPos(w, b)
  {
    if m != [] {
      RowPosCorresponds(m[1..], w[1..], a, b);
    }
  }

  /** Clearing shared formulas changes no row index and no reference, so every lookup finds the cleared form of what it found. */
  lemma ClearAllLookups(rows: seq<Row>, col: int, row: int)
    requires col >= 1
    ensures CellIn(ClearAll(rows), col, row) == Cleared(CellIn(rows, col, row))
    ensures RowStyleIn(ClearAll(rows), row) == RowStyleIn(rows, row)
  {
    var c := ClearAll(rows);
    RowPosCorresponds(c, rows, row, row);
    var k := RowPos(rows, row);
    if k < |rows| {
      var j := CellPos(rows[k].cells, A1(col, row));
      CellPosIs(c[k].cells, A1(col, row), j);
    }
  }

  /** Outside the block, removing it leaves every lookup as it was; inside it, no row is found. */
  lemma {:induction false} WithoutBlockRowPos(rows: seq<Row>, start: int, end: int, row: int)
    ensures var w := WithoutBlock(rows, start, end);
      if start <= row <= end then RowPos(w, row) == |w|
      else (RowPos(w, row) == |w| <==> RowPos(rows, row) == |rows|)
           && (RowPos(rows, row) < |rows| ==> w[RowPos(w, row)] == rows[RowPos(rows, row)])
  {
    if rows != [] {
      WithoutBlockRowPos(rows[1..], start, end, row);
      var w := WithoutBlock(rows, start, end);
      var t := WithoutBlock(rows[1..], start, end);
      if !InBlock(rows[0], start, end) {
        assert w == [rows[0]] + t && w[1..] == t;
      } else {
        assert w == t;
      }
    }
  }

  lemma WithoutBlockLookups(rows: seq<Row>, start: int, end: int, col: int, row: int)
    requires col >= 1
    ensures var w := WithoutBlock(rows, start, end);
      && CellIn(w, col, row) == (if start <= row <= end then None else CellIn(rows, col, row))
      && RowStyleIn(w, row) == (if start <= row <= end then None else RowStyleIn(rows, row))
  {
    WithoutBlockRowPos(rows, start, end, row);
    if !(start <= row <= end) {
      SameFoundRow(WithoutBlock(rows, start, end), rows, col, row);
    }
  }

  /** The rows kept find, outside the block, what the sheet found, with shared formulas cleared; inside it nothing. */
  lemma KeptLookups(rows: seq<Row>, sy: nat, count: nat, col: int, row: int)
    requires col >= 1
    ensures var w := Kept(rows, sy, count);
      && CellIn(w, col, row) == (if sy + 1 <= row <= sy + count then None else Cleared(CellIn(rows, col, row)))
      && RowStyleIn(w, row) == (if sy + 1 <= row <= sy + count then None else RowStyleIn(rows, row))
  {
    WithoutBlockLookups(ClearAll(rows), sy + 1, sy + count, col, row);
    ClearAllLookups(rows, col, row);
  }

  /** Every row has an index and the indexes strictly ascend: the row half of `RowsWellFormed`. */
  predicate Ordered(rows: seq<Row>) {
    && (forall i :: 0 <= i < |rows| ==> rows[i].index.Some?)
    && (forall i, j :: 0 <= i < j < |rows| ==> rows[i].index.value < rows[j].index.value)
  }

  /** The head of an ordered list lies below every later row, and the tail stays ordered. */
  lemma OrderedTail(rows: seq<Row>)
    requires Ordered(rows) && rows != []
    ensures Ordered(rows[1..])
    ensures forall r :: r in rows[1..] ==> rows[0].index.value < r.index.value
  {
    var t := rows[1..];
    forall i, j | 0 <= i < j < |t| ensures t[i].index.value < t[j].index.value {
      assert t[i] == rows[i + 1] && t[j] == rows[j + 1];
    }
    forall r | r in t ensures rows[0].index.value < r.index.value {
      var k :| 0 <= k < |t| && t[k] == r;
      assert r == rows[k + 1];
    }
  }

  /** A row below every row of an ordered list can be put in front of it. */
  lemma OrderedCons(h: Row, w: seq<Row>)
    requires Ordered(w) && h.index.Some?
    requires forall r :: r in w ==> h.index.value < r.index.value
    ensures Ordered([h] + w)
  {
    var x := [h] + w;
    forall i, j | 0 <= i < j < |x| ensures x[i].index.value < x[j].index.value {
      if i == 0 {
        assert x[j] in w;
      } else {
        assert x[i] == w[i - 1] && x[j] == w[j - 1];
      }
    }
  }

  lemma {:induction false} WithoutBlockOrdered(rows: seq<Row>, start: int, end: int)
    requires Ordered(rows)
    ensures Ordered(WithoutBlock(rows, start, end))
  {
    if rows != [] {
      var t := rows[1..];
      OrderedTail(rows);
      WithoutBlockOrdered(t, start, end);
      WithoutBlockMembers(t, start, end);
      if !InBlock(rows[0], start, end) {
        OrderedCons(rows[0], WithoutBlock(t, start, end));
      }
    }
  }

  /** Removing rows from a well-formed list leaves it well-formed. */
  lemma WithoutBlockWellFormed(rows: seq<Row>, start: int, end: int)
    requires RowsWellFormed(rows)
    ensures RowsWellFormed(WithoutBlock(rows, start, end))
  {
    assert Ordered(rows);
    WithoutBlockOrdered(rows, start, end);
    WithoutBlockMembers(rows, start, end);
    var w := WithoutBlock(rows, start, end);
    forall i | 0 <= i < |w| ensures CellsWellFormed(w[i].cells, w[i].index.value) {
      assert w[i] in rows;
    }
  }

  /** Clearing shared formulas keeps a well-formed list well-formed. */
  lemma ClearAllWellFormed(rows: seq<Row>)
    requires RowsWellFormed(rows)
    ensures RowsWellFormed(ClearAll(rows))
  {
    var c := ClearAll(rows);
    forall i | 0 <= i < |c| ensures CellsWellFormed(c[i].cells, c[i].index.value) {
      assert forall j :: 0 <= j < |c[i].cells| ==> c[i].cells[j].reference == rows[i].cells[j].reference;
    }
  }

  /** A canonical cell moves to the reference of its column in the new row. */
  lemma ShiftedCellsOfCanonical(cells: seq<Cell>, row: int, n: UInt32)
    requires CellsWellFormed(cells, row) && 1 <= n <= INT_MAX
    ensures ShiftedCells(cells, n).1
    ensures forall j :: 0 <= j < |cells| ==> ShiftedCells(cells, n).0[j] == cells[j].(reference := Some(A1(ColumnOf(cells[j]), n)))
  {
    forall j | 0 <= j < |cells| ensures ShiftedCell(cells[j], n) == Some(cells[j].(reference := Some(A1(ColumnOf(cells[j]), n)))) {
      assert CanonicalCell(cells[j], row);
    }
    assert FirstFailedCell(cells, n) == |cells|;
  }

  /** The moved cells are canonical in the new row and keep their columns, hence their order. */
  lemma MovedCellsWellFormed(cells: seq<Cell>, row: int, n: UInt32)
    requires CellsWellFormed(cells, row) && 1 <= n <= INT_MAX
    ensures CellsWellFormed(ShiftedCells(cells, n).0, n)
    ensures forall j :: 0 <= j < |cells| ==> ColumnOf(ShiftedCells(cells, n).0[j]) == ColumnOf(cells[j])
  {
    ShiftedCellsOfCanonical(cells, row, n);
    var x := ShiftedCells(cells, n).0;
    forall j | 0 <= j < |cells| ensures CanonicalCell(x[j], n) && ColumnOf(x[j]) == ColumnOf(cells[j]) {
      assert CanonicalCell(cells[j], row);
      CanonicalOfA1(ColumnOf(cells[j]), n);
    }
  }

  /** In a moved row, the cell of column `col` sits where it sat before the move, under the reference of its new place. */
  lemma MovedCellPos(cells: seq<Cell>, row: int, n: UInt32, col: int)
    requires CellsWellFormed(cells, row) && 1 <= n <= INT_MAX && 1 <= col <= INT_MAX
    ensures var j := CellPos(cells, A1(col, row));
      && CellPos(ShiftedCells(cells, n).0, A1(col, n)) == j
      && (j < |cells| ==> ShiftedCells(cells, n).0[j] == cells[j].(reference := Some(A1(col, n))))
  {
    MovedCellsWellFormed(cells, row, n);
    var x := ShiftedCells(cells, n).0;
    var k := CellPos(cells, A1(col, row));
    if cells != [] {
      assert CanonicalCell(cells[0], row);
      forall j | 0 <= j < |cells| ensures RefMatches(x[j], A1(col, n)) <==> RefMatches(cells[j], A1(col, row)) {
        assert CanonicalCell(cells[j], row) && CanonicalCell(x[j], n);
        CanonicalMatches(x[j], col, n);
        CanonicalMatches(cells[j], col, row);
      }
      CellPosIs(x, A1(col, n), k);
    }
    if k < |cells| {
      ShiftedCellsOfCanonical(cells, row, n);
      assert CanonicalCell(cells[k], row);
      CanonicalMatches(cells[k], col, row);
    }
  }

  /** The list the move works on: well-formed, with no row left in the block `sy + 1 .. sy + count`. */
  predicate Movable(w: seq<Row>, sy: nat, count: nat) {
    1 <= count && RowsWellFormed(w) && forall i :: 0 <= i < |w| ==> !InBlock(w[i], sy + 1, sy + count)
  }

  /** The rows of a well-formed list without rows in the block, each moved as `ShiftedRows` moves it. */
  predicate MovedRows(m: seq<Row>, w: seq<Row>, count: nat, end: nat)
    requires count <= end + 1
  {
    |m| == |w| && forall i :: 0 <= i < |w| ==>
      w[i].index.Some? && if w[i].index.value <= end then m[i] == w[i] else m[i] == MovedRow(w[i], count, end).0
  }

  /** A row below the block is moved up by `count`, keeping its style, with its cells rewritten for the new index. */
  lemma MovedRowAt(m: seq<Row>, w: seq<Row>, count: nat, end: nat, k: nat, n: UInt32)
    requires count <= end + 1 && MovedRows(m, w, count, end)
    requires k < |w| && w[k].index == Some(n + count) && n + count > end
    ensures m[k] == Row(Some(n), w[k].style, ShiftedCells(w[k].cells, n).0)
  {
  }

  /** A well-formed list is moved without a throw. */
  lemma ShiftedRowsOfWellFormed(w: seq<Row>, count: nat, end: nat)
    requires 1 <= count <= end && RowsWellFormed(w)
    ensures ShiftedRows(w, count, end).1 && MovedRows(ShiftedRows(w, count, end).0, w, count, end)
  {
    forall i | 0 <= i < |w| ensures RowOutcome(w[i], count, end).1 {
      var h := w[i];
      if h.index.value > end && h.cells != [] {
        assert CanonicalCell(h.cells[0], h.index.value);
        ShiftedCellsOfCanonical(h.cells, h.index.value, h.index.value - count);
      }
    }
    assert FirstFailedRow(w, count, end) == |w|;
  }

  /** Below the block, the row with index `row` after the move is the one that had index `row + count`; above it, the same row. */
  lemma MovedRowPos(m: seq<Row>, w: seq<Row>, sy: nat, count: nat, row: int)
    requires Movable(w, sy, count) && MovedRows(m, w, count, sy + count)
    ensures row <= sy ==> RowPos(m, row) == RowPos(w, row)
    ensures row > sy ==> RowPos(m, row) == RowPos(w, row + count)
  {
    if row <= sy {
      RowPosCorresponds(m, w, row, row);
    } else {
      RowPosCorresponds(m, w, row, row + count);
    }
  }

  /** The moved list of a well-formed list without rows in the block is well-formed. */
  lemma MovedRowsWellFormed(m: seq<Row>, w: seq<Row>, sy: nat, count: nat)
    requires Movable(w, sy, count) && MovedRows(m, w, count, sy + count)
    ensures RowsWellFormed(m)
  {
    forall i | 0 <= i < |m| ensures m[i].index.Some? && CellsWellFormed(m[i].cells, m[i].index.value) {
      var h := w[i];
      if h.index.value > sy + count && h.cells != [] {
        var n := h.index.value - count;
        assert CanonicalCell(h.cells[0], h.index.value);
        MovedRowAt(m, w, count, sy + count, i, n);
        MovedCellsWellFormed(h.cells, h.index.value, n);
      }
    }
    forall i, j | 0 <= i < j < |m| ensures m[i].index.value < m[j].index.value {
      assert w[i].index.value < w[j].index.value;
    }
  }

  /** The moved list finds, in a row above the block, what the list before the move found `count` rows further down, under its new reference. */
  lemma MovedLookup(m: seq<Row>, w: seq<Row>, sy: nat, count: nat, col: int, row: int)
    requires Movable(w, sy, count) && MovedRows(m, w, count, sy + count)
    requires IsCoord(col, row)
    ensures row <= sy ==> CellIn(m, col, row) == CellIn(w, col, row) && RowStyleIn(m, row) == RowStyleIn(w, row)
    ensures row > sy ==>
      && CellIn(m, col, row) == (if CellIn(w, col, row + count).None? then None
                                 else Some(CellIn(w, col, row + count).value.(reference := Some(A1(col, row)))))
      && RowStyleIn(m, row) == RowStyleIn(w, row + count)
  {
    MovedRowPos(m, w, sy, count, row);
    if row <= sy {
      SameFoundRow(m, w, col, row);
    } else {
      MovedLookupBelow(m, w, sy, count, col, row);
    }
  }

  /** The lookup in `m` at `row` is the lookup in `w` at `row + count` once the found rows correspond cell by cell. */
  lemma FoundBelow(m: seq<Row>, w: seq<Row>, count: nat, col: int, row: int)
    requires IsCoord(col, row) && |m| == |w| && RowPos(m, row) == RowPos(w, row + count)
    requires var k := RowPos(w, row + count);
      k < |w| ==>
        var j := CellPos(w[k].cells, A1(col, row + count));
        && m[k].style == w[k].style && |m[k].cells| == |w[k].cells| && CellPos(m[k].cells, A1(col, row)) == j
        && (j < |w[k].cells| ==> m[k].cells[j] == w[k].cells[j].(reference := Some(A1(col, row))))
    ensures CellIn(m, col, row) == (if CellIn(w, col, row + count).None? then None
                                    else Some(CellIn(w, col, row + count).value.(reference := Some(A1(col, row)))))
    ensures RowStyleIn(m, row) == RowStyleIn(w, row + count)
  {
  }

  lemma MovedLookupBelow(m: seq<Row>, w: seq<Row>, sy: nat, count: nat, col: int, row: int)
    requires Movable(w, sy, count) && MovedRows(m, w, count, sy + count)
    requires IsCoord(col, row) && row > sy
    requires RowPos(m, row) == RowPos(w, row + count)
    ensures CellIn(m, col, row) == (if CellIn(w, col, row + count).None? then None
                                    else Some(CellIn(w, col, row + count).value.(reference := Some(A1(col, row)))))
    ensures RowStyleIn(m, row) == RowStyleIn(w, row + count)
  {
    var k := RowPos(w, row + count);
    if k < |w| {
      assert w[k].index.value == row + count > sy + count;
      MovedCellPos(w[k].cells, row + count, row, col);
      MovedRowAt(m, w, count, sy + count, k, row);
    }
    FoundBelow(m, w, count, col, row);
  }

  /** On a well-formed sheet, the rows left after the removal are well-formed and none is in the block. */
  lemma KeptMovable(rows: seq<Row>, sy: nat, count: nat)
    requires count >= 1 && RowsWellFormed(rows)
    ensures Movable(Kept(rows, sy, count), sy, count)
  {
    var c := ClearAll(rows);
    ClearAllWellFormed(rows);
    WithoutBlockWellFormed(c, sy + 1, sy + count);
    WithoutBlockMembers(c, sy + 1, sy + count);
    var w := Kept(rows, sy, count);
    forall i | 0 <= i < |w| ensures !InBlock(w[i], sy + 1, sy + count) {
      assert w[i] in w;
    }
  }

  /** The move of a movable list gets through and leaves it well-formed. */
  lemma ShiftedRowsWellFormed(w: seq<Row>, sy: nat, count: nat)
    requires Movable(w, sy, count)
    ensures ShiftedRows(w, count, sy + count).1 && RowsWellFormed(ShiftedRows(w, count, sy + count).0)
  {
    ShiftedRowsOfWellFormed(w, count, sy + count);
    MovedRowsWellFormed(ShiftedRows(w, count, sy + count).0, w, sy, count);
  }

  /** The lookups in a movable list after the move, as `MovedLookup` states them. */
  lemma ShiftedRowsLookups(w: seq<Row>, sy: nat, count: nat, col: int, row: int)
    requires Movable(w, sy, count) && IsCoord(col, row)
    ensures var m := ShiftedRows(w, count, sy + count).0;
      && (row <= sy ==> CellIn(m, col, row) == CellIn(w, col, row) && RowStyleIn(m, row) == RowStyleIn(w, row))
      && (row > sy ==>
           && CellIn(m, col, row) == (if CellIn(w, col, row + count).None? then None
                                      else Some(CellIn(w, col, row + count).value.(reference := Some(A1(col, row)))))
           && RowStyleIn(m, row) == RowStyleIn(w, row + count))
  {
    ShiftedRowsOfWellFormed(w, count, sy + count);
    MovedLookup(ShiftedRows(w, count, sy + count).0, w, sy, count, col, row);
  }

  /**
   * On a well-formed sheet the deletion does not throw and keeps the sheet
   * well-formed: rows stay strictly ascending, and every cell is canonical
   * in its row.
   */
  lemma DeleteRowsWellFormed(rows: seq<Row>, sy: nat, count: nat)
    requires count >= 1 && RowsWellFormed(rows)
    ensures DeleteRows(rows, sy, count).1 && RowsWellFormed(DeleteRows(rows, sy, count).0)
  {
    KeptMovable(rows, sy, count);
    ShiftedRowsWellFormed(Kept(rows, sy, count), sy, count);
  }

  /**
   * What the deletion does, coordinate by coordinate, on a well-formed
   * sheet: in rows up to `sy` every cell and row style stays (shared formulas
   * cleared); in every later row the cell is the one that was `count` rows
   * further down, with the reference of its new place, and the row style is
   * the style of that row.
   */
  lemma DeleteRowsLookups(rows: seq<Row>, sy: nat, count: nat, col: int, row: int)
    requires count >= 1 && RowsWellFormed(rows) && IsCoord(col, row)
    ensures var r := DeleteRows(rows, sy, count).0;
      && CellIn(r, col, row) == (if row <= sy then Cleared(CellIn(rows, col, row)) else MovedTo(CellIn(rows, col, row + count), col, row))
      && RowStyleIn(r, row) == (if row <= sy then RowStyleIn(rows, row) else RowStyleIn(rows, row + count))
  {
    KeptMovable(rows, sy, count);
    ShiftedRowsLookups(Kept(rows, sy, count), sy, count, col, row);
    KeptLookups(rows, sy, count, col, if row <= sy then row else row + count);
  }
}

=== FILE: sheet.dfy ===
/**
 * The part of the OpenXML worksheet tree the core reads and writes: the rows
 * of `SheetData` with their cells, the `Columns` definitions and the
 * `MergeCells` list. A worksheet part is an object whose worksheet the core
 * replaces in place; the tree under it is a value.
 *
 * Lookups follow the core's own searches: the first row whose index matches,
 * the first cell whose reference matches ignoring case. `CellAt` is the cell
 * a coordinate denotes; the grid operations are specified through it.
 */
module Sheet {
  import opened Common
  import opened Address

  datatype CellType = SharedString | Boolean | Number | ErrorValue | Str | InlineStr | Date
  datatype FormulaType = Normal | ArrayFormula | DataTable | Shared

  /** `CellFormula`: its text and the shared-formula attributes `t`, `si` and `ref`. */
  datatype Formula = Formula(text: string, formulaType: Option<FormulaType>, sharedIndex: Option<UInt32>, reference: Option<string>)

  /** `Cell`: reference `r`, value `v`, type `t`, style `s` and formula `f`, each optional. */
  datatype Cell = Cell(reference: Option<string>, value: Option<string>, dataType: Option<CellType>, style: Option<UInt32>, formula: Option<Formula>)

  /** `Row`: index `r`, style `s` and its cells in document order. */
  datatype Row = Row(index: Option<UInt32>, style: Option<UInt32>, cells: seq<Cell>)

  /** `Column`: the span `min..max` and its style, each optional. */
  datatype Column = Column(min: Option<UInt32>, max: Option<UInt32>, style: Option<UInt32>)

  /** The elements of a worksheet the core touches; an absent element is `None`. */
  datatype Worksheet = Worksheet(sheetData: Option<seq<Row>>, columns: Option<seq<Column>>, mergeCells: Option<seq<Option<string>>>)

  /** A worksheet part: the object through which the worksheet is changed. */
  class WorksheetPart {
    var worksheet: Worksheet

    constructor (ws: Worksheet)
      ensures worksheet == ws
    {
      worksheet := ws;
    }
  }

  function NewCell(reference: string): Cell {
    Cell(Some(reference), None, None, None, None)
  }

  function NewRow(index: UInt32): Row {
    Row(Some(index), None, [])
  }

  function InsertAt<T>(s: seq<T>, k: nat, x: T): (r: seq<T>)
    requires k <= |s|
    ensures |r| == |s| + 1 && r[k] == x
    ensures forall i :: 0 <= i < k ==> r[i] == s[i]
    ensures forall i :: k < i < |r| ==> r[i] == s[i - 1]
  {
    s[..k] + [x] + s[k..]
  }

  // ---------------------------------------------------------------------------
  // Searches
  // ---------------------------------------------------------------------------

  predicate RowHasIndex(r: Row, index: int) {
    r.index.Some? && r.index.value == index
  }

  /** Position of the first row with index `index`, or `|rows|`. */
  function RowPos(rows: seq<Row>, index: int): (k: nat)
    ensures k <= |rows|
    ensures k < |rows| ==> RowHasIndex(rows[k], index)
    ensures forall j :: 0 <= j < k ==> !RowHasIndex(rows[j], index)
  {
    if rows == [] then 0
    else if RowHasIndex(rows[0], index) then 0
    else 1 + RowPos(rows[1..], index)
  }

  /** The first match is determined by where the matches are. */
  lemma RowPosIs(rows: seq<Row>, index: int, k: nat)
    requires k <= |rows|
    requires k < |rows| ==> RowHasIndex(rows[k], index)
    requires forall j :: 0 <= j < k ==> !RowHasIndex(rows[j], index)
    ensures RowPos(rows, index) == k
  {
  }

  /** Position of the first row with an index above `index`, or `|rows|`: where a new row goes. */
  function RowInsertPos(rows: seq<Row>, index: int): (k: nat)
    ensures k <= |rows|
    ensures k < |rows| ==> rows[k].index.Some? && rows[k].index.value > index
    ensures forall j :: 0 <= j < k ==> !(rows[j].index.Some? && rows[j].index.value > index)
  {
    if rows == [] then 0
    else if rows[0].index.Some? && rows[0].index.value > index then 0
    else 1 + RowInsertPos(rows[1..], index)
  }

  predicate RefMatches(c: Cell, reference: string) {
    c.reference.Some? && EqualsIgnoreCase(c.reference.value, reference)
  }

  /** Position of the first cell whose reference equals `reference` ignoring case, or `|cells|`. */
  function CellPos(cells: seq<Cell>, reference: string): (k: nat)
    ensures k <= |cells|
    ensures k < |cells| ==> RefMatches(cells[k], reference)
    ensures forall j :: 0 <= j < k ==> !RefMatches(cells[j], reference)
  {
    if cells == [] then 0
    else if RefMatches(cells[0], reference) then 0
    else 1 + CellPos(cells[1..], reference)
  }

  lemma CellPosIs(cells: seq<Cell>, reference: string, k: nat)
    requires k <= |cells|
    requires k < |cells| ==> RefMatches(cells[k], reference)
    requires forall j :: 0 <= j < k ==> !RefMatches(cells[j], reference)
    ensures CellPos(cells, reference) == k
  {
  }

  /** The A1 reference of a cell coordinate. */
  function A1(col: int, row: int): string
    requires col >= 1
  {
    ToA1(col, row).value
  }

  /** The cell at (`col`, `row`) among `rows`, as the core's lookups find it. */
  function CellIn(rows: seq<Row>, col: int, row: int): Option<Cell>
    requires col >= 1
  {
    var k := RowPos(rows, row);
    if k == |rows| then None
    else
      var j := CellPos(rows[k].cells, A1(col, row));
      if j == |rows[k].cells| then None else Some(rows[k].cells[j])
  }

  /** The cell a coordinate denotes in a worksheet: `GetOrCreateCell(col, row, create: false)`. */
  function CellAt(ws: Worksheet, col: int, row: int): Option<Cell>
    requires col >= 1
  {
    if ws.sheetData.None? then None else CellIn(ws.sheetData.value, col, row)
  }

  /** The style of the first row with index `row`, if any. */
  function RowStyleIn(rows: seq<Row>, row: int): Option<UInt32> {
    var k := RowPos(rows, row);
    if k == |rows| then None else rows[k].style
  }

  function RowStyleAt(ws: Worksheet, row: int): Option<UInt32> {
    if ws.sheetData.None? then None else RowStyleIn(ws.sheetData.value, row)
  }

  /** A cell coordinate the core can address: a positive `int` column and a positive `int` row. */
  predicate IsCoord(col: int, row: int) {
    1 <= col <= INT_MAX && 1 <= row <= INT_MAX
  }

  // ---------------------------------------------------------------------------
  // A1 references are told apart ignoring case
  // ---------------------------------------------------------------------------

  lemma UpperOfA1(col: int, row: int)
    requires col >= 1 && row >= 1
    ensures UpperString(A1(col, row)) == A1(col, row)
  {
    var l, d := ColumnLetters(col), NatToDecimal(row);
    var s := A1(col, row);
    assert s == l + d;
    forall i | 0 <= i < |s|
      ensures ToUpper(s[i]) == s[i]
    {
      if i < |l| {
        assert s[i] == l[i];
      } else {
        assert s[i] == d[i - |l|];
      }
    }
  }

  /** Two coordinates whose references are equal ignoring case are the same coordinate. */
  lemma A1Distinct(c1: int, r1: int, c2: int, r2: int)
    requires IsCoord(c1, r1) && IsCoord(c2, r2)
    requires EqualsIgnoreCase(A1(c1, r1), A1(c2, r2))
    ensures c1 == c2 && r1 == r2
  {
    UpperOfA1(c1, r1);
    UpperOfA1(c2, r2);
    TryParseA1OfToA1(c1, r1);
    TryParseA1OfToA1(c2, r2);
  }

  /** Ignoring case is an equivalence: two references matching a third match each other. */
  lemma RefMatchesTrans(c: Cell, a: string, b: string)
    requires RefMatches(c, a) && EqualsIgnoreCase(a, b)
    ensures RefMatches(c, b)
  {
  }

  // ---------------------------------------------------------------------------
  // Well-formed sheets: rows ascending by index, cells ascending by column
  // ---------------------------------------------------------------------------

  /** A reference is the canonical A1 text of a cell in row `row`. */
  predicate Canonical(reference: string, row: int) {
    var p := TryParseA1(reference);
    p.ok && p.row == row && ToA1(p.col, p.row) == Ok(reference)
  }

  predicate CanonicalCell(c: Cell, row: int) {
    c.reference.Some? && Canonical(c.reference.value, row)
  }

  /** The column a canonical cell is in. */
  function ColumnOf(c: Cell): int
    requires c.reference.Some?
  {
    TryParseA1(c.reference.value).col
  }

  predicate CellsWellFormed(cells: seq<Cell>, row: int) {
    && (forall i :: 0 <= i < |cells| ==> CanonicalCell(cells[i], row))
    && (forall i, j :: 0 <= i < j < |cells| ==> ColumnOf(cells[i]) < ColumnOf(cells[j]))
  }

  predicate RowsWellFormed(rows: seq<Row>) {
    && (forall i :: 0 <= i < |rows| ==> rows[i].index.Some? && CellsWellFormed(rows[i].cells, rows[i].index.value))
    && (forall i, j :: 0 <= i < j < |rows| ==> rows[i].index.value < rows[j].index.value)
  }

  /** Rows strictly ascending by index, each holding canonical cells strictly ascending by column. */
  predicate WellFormed(ws: Worksheet) {
    ws.sheetData.Some? ==> RowsWellFormed(ws.sheetData.value)
  }

  /** The canonical reference of coordinate (`col`, `row`). */
  lemma CanonicalOfA1(col: int, row: int)
    requires IsCoord(col, row)
    ensures Canonical(A1(col, row), row)
    ensures TryParseA1(A1(col, row)).col == col
  {
    TryParseA1OfToA1(col, row);
  }

  /** In a canonical cell of row `row`, matching the reference of (`col`, `row`) means being in column `col`. */
  lemma CanonicalMatches(c: Cell, col: int, row: int)
    requires IsCoord(col, row) && CanonicalCell(c, row)
    ensures RefMatches(c, A1(col, row)) <==> ColumnOf(c) == col
  {
    var p := TryParseA1(c.reference.value);
    TryParseA1OfToA1(col, row);
    assert c.reference.value == A1(p.col, row);
    if RefMatches(c, A1(col, row)) {
      A1Distinct(p.col, row, col, row);
    }
  }

  // ---------------------------------------------------------------------------
  // GetOrCreateRow
  // ---------------------------------------------------------------------------

  /** The rows after finding or inserting row `index`, and the row's position. */
  function RowsWithRow(rows: seq<Row>, index: UInt32): (r: (seq<Row>, nat))
    ensures r.1 < |r.0| && RowHasIndex(r.0[r.1], index)
  {
    var k := RowPos(rows, index);
    if k < |rows| then (rows, k)
    else
      var at := RowInsertPos(rows, index);
      (InsertAt(rows, at, NewRow(index)), at)
  }

  /** A row inserted where `GetOrCreateRow` inserts it keeps a well-formed sheet well-formed. */
  lemma RowsWithRowWellFormed(rows: seq<Row>, index: UInt32)
    requires RowsWellFormed(rows)
    ensures RowsWellFormed(RowsWithRow(rows, index).0)
  {
    var k := RowPos(rows, index);
    if k == |rows| {
      var at := RowInsertPos(rows, index);
      var r := InsertAt(rows, at, NewRow(index));
      forall i, j | 0 <= i < j < |r|
        ensures r[i].index.value < r[j].index.value
      {
        if j == at {
          assert r[i] == rows[i] && rows[i].index.value != index;
        } else if i == at {
          assert r[j] == rows[j - 1];
          if at < |rows| {
            assert j - 1 == at || rows[at].index.value < rows[j - 1].index.value;
          }
        } else if i > at {
          assert r[i] == rows[i - 1] && r[j] == rows[j - 1];
        } else if j > at {
          assert r[i] == rows[i] && r[j] == rows[j - 1];
        }
      }
    }
  }

  /** Where each row is found after a missing row has been inserted. */
  lemma RowPosAfterInsert(rows: seq<Row>, index: UInt32, row: int)
    requires RowPos(rows, index) == |rows|
    ensures var at := RowInsertPos(rows, index);
      RowPos(RowsWithRow(rows, index).0, row)
      == (if row == index then at else if RowPos(rows, row) < at then RowPos(rows, row) else RowPos(rows, row) + 1)
  {
    var at := RowInsertPos(rows, index);
    var r := RowsWithRow(rows, index).0;
    if row == index {
      RowPosIs(r, row, at);
    } else if RowPos(rows, row) < at {
      RowPosIs(r, row, RowPos(rows, row));
    } else {
      RowPosIs(r, row, RowPos(rows, row) + 1);
    }
  }

  /** Two row lists in which a row search finds the same row (or none) agree on that row's cells and style. */
  lemma SameFoundRow(a: seq<Row>, b: seq<Row>, col: int, row: int)
    requires col >= 1
    requires (RowPos(a, row) == |a|) == (RowPos(b, row) == |b|)
    requires RowPos(a, row) < |a| ==> a[RowPos(a, row)] == b[RowPos(b, row)]
    ensures CellIn(a, col, row) == CellIn(b, col, row) && RowStyleIn(a, row) == RowStyleIn(b, row)
  {
  }

  /** Inserting a missing row changes no coordinate's cell and no row's style. */
  lemma CellInAfterRowInsert(rows: seq<Row>, index: UInt32, col: int, row: int)
    requires RowPos(rows, index) == |rows| && col >= 1
    ensures CellIn(RowsWithRow(rows, index).0, col, row) == CellIn(rows, col, row)
    ensures RowStyleIn(RowsWithRow(rows, index).0, row) == RowStyleIn(rows, row)
  {
    RowPosAfterInsert(rows, index, row);
    var at := RowInsertPos(rows, index);
    var r := RowsWithRow(rows, index).0;
    var k, k2 := RowPos(rows, row), RowPos(r, row);
    if row == index {
      assert r[k2] == NewRow(index);
      assert CellIn(r, col, row) == None && RowStyleIn(r, row) == None;
    } else {
      if k < at {
        assert r[k2] == rows[k];
      } else if k < |rows| {
        assert r[k2] == rows[k];
      }
      SameFoundRow(r, rows, col, row);
    }
  }

  /**
   * Finding or inserting the row `index` keeps a well-formed sheet
   * well-formed, finds the row where `RowPos` looks for it, and changes no
   * coordinate's cell and no row's style.
   */
  lemma RowsWithRowKeeps(rows: seq<Row>, index: UInt32)
    ensures var (rows1, k) := RowsWithRow(rows, index);
      && (RowsWellFormed(rows) ==> RowsWellFormed(rows1)) && k == RowPos(rows1, index)
      && (forall c, r :: c >= 1 ==> CellIn(rows1, c, r) == CellIn(rows, c, r))
      && (forall r :: RowStyleIn(rows1, r) == RowStyleIn(rows, r))
  {
    if RowsWellFormed(rows) {
      RowsWithRowWellFormed(rows, index);
    }
    if RowPos(rows, index) == |rows| {
      RowsWithRowFrame(rows, index);
      RowPosAfterInsert(rows, index, index);
    }
  }

  /**
   * Inserting a missing row leaves every coordinate denoting the same cell
   * (the new row's coordinates denote none, before and after) and keeps
   * every row's style.
   */
  lemma RowsWithRowFrame(rows: seq<Row>, index: UInt32)
    requires RowPos(rows, index) == |rows|
    ensures forall col, row :: col >= 1 ==> CellIn(RowsWithRow(rows, index).0, col, row) == CellIn(rows, col, row)
    ensures forall row :: RowStyleIn(RowsWithRow(rows, index).0, row) == RowStyleIn(rows, row)
  {
    forall col, row | col >= 1
      ensures CellIn(RowsWithRow(rows, index).0, col, row) == CellIn(rows, col, row)
    {
      CellInAfterRowInsert(rows, index, col, row);
    }
    forall row
      ensures RowStyleIn(RowsWithRow(rows, index).0, row) == RowStyleIn(rows, row)
    {
      CellInAfterRowInsert(rows, index, 1, row);
    }
  }

  // ---------------------------------------------------------------------------
  // Changing one cell of one row
  // ---------------------------------------------------------------------------

  /** `rows` with `NewCell(reference)` inserted at position `at` of row `k`. */
  function RowsWithCell(rows: seq<Row>, k: nat, at: nat, reference: string): seq<Row>
    requires k < |rows| && at <= |rows[k].cells|
  {
    rows[k := rows[k].(cells := InsertAt(rows[k].cells, at, NewCell(reference)))]
  }

  /** `rows` with cell `j` of row `k` replaced by `c`. */
  function RowsWithCellReplaced(rows: seq<Row>, k: nat, j: nat, c: Cell): seq<Row>
    requires k < |rows| && j < |rows[k].cells|
  {
    rows[k := rows[k].(cells := rows[k].cells[j := c])]
  }

  /** Replacing a row by one with the same index moves no row search. */
  lemma RowPosReplace(rows: seq<Row>, k: nat, r: Row, row: int)
    requires k < |rows| && r.index == rows[k].index
    ensures RowPos(rows[k := r], row) == RowPos(rows, row)
    ensures RowStyleIn(rows[k := r], row) == (if RowPos(rows, row) == k then r.style else RowStyleIn(rows, row))
  {
    RowPosIs(rows[k := r], row, RowPos(rows, row));
  }

  /** The cell a coordinate denotes after a new cell is inserted into the row of (`col`, `row`). */
  lemma CellInAfterCellInsert(rows: seq<Row>, k: nat, at: nat, col: int, row: int, c: int, r: int)
    requires IsCoord(col, row) && IsCoord(c, r)
    requires k == RowPos(rows, row) && k < |rows|
    requires CellPos(rows[k].cells, A1(col, row)) == |rows[k].cells| && at <= |rows[k].cells|
    ensures CellIn(RowsWithCell(rows, k, at, A1(col, row)), c, r)
         == if c == col && r == row then Some(NewCell(A1(col, row))) else CellIn(rows, c, r)
  {
    var a, b := A1(col, row), A1(c, r);
    var nr := RowsWithCell(rows, k, at, a);
    var cells := rows[k].cells;
    var ncells := nr[k].cells;
    RowPosReplace(rows, k, nr[k], r);
    if r == row {
      if c == col {
        CellPosIs(ncells, a, at);
      } else {
        assert !RefMatches(NewCell(a), b) by {
          if RefMatches(NewCell(a), b) {
            A1Distinct(col, row, c, r);
          }
        }
        var j := CellPos(cells, b);
        var next: nat := j + 1;
        if j < at {
          CellPosIs(ncells, b, j);
        } else {
          CellPosIs(ncells, b, next);
        }
      }
    }
  }

  /** The cell a coordinate denotes after the cell of (`col`, `row`) is replaced by one with the same reference. */
  lemma CellInAfterReplace(rows: seq<Row>, k: nat, j: nat, x: Cell, col: int, row: int, c: int, r: int)
    requires IsCoord(col, row) && IsCoord(c, r)
    requires k == RowPos(rows, row) && k < |rows|
    requires j == CellPos(rows[k].cells, A1(col, row)) && j < |rows[k].cells|
    requires x.reference == rows[k].cells[j].reference
    ensures CellIn(RowsWithCellReplaced(rows, k, j, x), c, r)
         == if c == col && r == row then Some(x) else CellIn(rows, c, r)
  {
    var nr := RowsWithCellReplaced(rows, k, j, x);
    var cells := rows[k].cells;
    RowPosReplace(rows, k, nr[k], r);
    if r == row {
      CellPosIs(nr[k].cells, A1(c, r), CellPos(cells, A1(c, r)));
      if CellPos(cells, A1(c, r)) == j {
        assert EqualsIgnoreCase(A1(col, row), A1(c, r));
        A1Distinct(col, row, c, r);
      }
    }
  }

  /** Giving one row of a well-formed sheet new well-formed cells keeps the sheet well-formed. */
  lemma RowCellsWellFormed(rows: seq<Row>, k: nat, cells: seq<Cell>)
    requires k < |rows| && RowsWellFormed(rows)
    requires CellsWellFormed(cells, rows[k].index.value)
    ensures RowsWellFormed(rows[k := rows[k].(cells := cells)])
  {
    var nr := rows[k := rows[k].(cells := cells)];
    forall i | 0 <= i < |nr|
      ensures nr[i].index.Some? && CellsWellFormed(nr[i].cells, nr[i].index.value)
    {
      if i != k {
        assert nr[i] == rows[i];
      }
    }
    forall i, i' | 0 <= i < i' < |nr|
      ensures nr[i].index.value < nr[i'].index.value
    {
      assert nr[i].index == rows[i].index && nr[i'].index == rows[i'].index;
    }
  }

  /** Replacing a cell by one with the same reference keeps a sheet well-formed. */
  lemma ReplaceWellFormed(rows: seq<Row>, k: nat, j: nat, x: Cell)
    requires k < |rows| && j < |rows[k].cells|
    requires x.reference == rows[k].cells[j].reference
    requires RowsWellFormed(rows)
    ensures RowsWellFormed(RowsWithCellReplaced(rows, k, j, x))
  {
    var cells := rows[k].cells;
    var ncells := cells[j := x];
    assert forall i :: 0 <= i < |ncells| ==> ncells[i].reference == cells[i].reference;
    assert CellsWellFormed(ncells, rows[k].index.value) by {
      forall i | 0 <= i < |ncells|
        ensures CanonicalCell(ncells[i], rows[k].index.value)
      {
        assert CanonicalCell(cells[i], rows[k].index.value);
      }
      forall i, i' | 0 <= i < i' < |ncells|
        ensures ColumnOf(ncells[i]) < ColumnOf(ncells[i'])
      {
        assert ColumnOf(ncells[i]) == ColumnOf(cells[i]) && ColumnOf(ncells[i']) == ColumnOf(cells[i']);
      }
    }
    RowCellsWellFormed(rows, k, ncells);
  }

  /** In a well-formed sheet the cell a coordinate denotes carries exactly the coordinate's canonical reference. */
  lemma CellAtWellFormed(ws: Worksheet, col: int, row: int)
    requires IsCoord(col, row) && WellFormed(ws) && CellAt(ws, col, row).Some?
    ensures CellAt(ws, col, row).value.reference == Some(A1(col, row))
  {
    var rows := ws.sheetData.value;
    var k := RowPos(rows, row);
    var c := CellAt(ws, col, row).value;
    assert CanonicalCell(c, row);
    CanonicalMatches(c, col, row);
  }

  /**
   * `GetOrCreateRow` (the same routine in the grid and in the workbook
   * operations): the first row with the index, or a new empty row inserted
   * before the first row with a larger index, or appended.
   */
  method GetOrCreateRow(part: WorksheetPart, index: UInt32) returns (pos: nat)
    requires part.worksheet.sheetData.Some?
    modifies part
    ensures part.worksheet == old(part.worksheet).(sheetData := Some(RowsWithRow(old(part.worksheet).sheetData.value, index).0))
    ensures pos == RowsWithRow(old(part.worksheet).sheetData.value, index).1
    ensures pos < |part.worksheet.sheetData.value| && RowHasIndex(part.worksheet.sheetData.value[pos], index)
    ensures WellFormed(old(part.worksheet)) ==> WellFormed(part.worksheet)
  {
    var rows := part.worksheet.sheetData.value;
    var k := RowPos(rows, index);
    if k < |rows| {
      return k;
    }
    var at := RowInsertPos(rows, index);
    if RowsWellFormed(rows) {
      RowsWithRowWellFormed(rows, index);
    }
    part.worksheet := part.worksheet.(sheetData := Some(InsertAt(rows, at, NewRow(index))));
    pos := at;
  }
}

=== FILE: stylemanager.dfy ===
/**
 * The style manager: append-only tables of fonts, fills, borders and cell
 * formats in the workbook's stylesheet, and four memo dictionaries that map a
 * request to the index it was given. An identical request returns the same
 * index without appending; a new cell format is a copy of its base format
 * with only the requested components overridden.
 *
 * The memo dictionaries belong to one manager and start empty (nothing is
 * read back from an existing stylesheet), so deduplication holds within one
 * manager's lifetime; `Valid` states what the memo entries mean.
 */
module StyleManagement {
  import opened Common
  import opened StyleSpec
  import X = Styles
  import opened Document

  // ---------------------------------------------------------------------------
  // Building stylesheet elements from requests
  // ---------------------------------------------------------------------------

  function LineName(l: BorderLine): string {
    match l
    case NoLine => "None"
    case Thin => "Thin"
    case Medium => "Medium"
    case Thick => "Thick"
    case Dashed => "Dashed"
    case Dotted => "Dotted"
    case Double => "Double"
  }

  function BorderStyleName(s: X.BorderStyle): string {
    match s
    case Thin => "Thin"
    case Medium => "Medium"
    case Dashed => "Dashed"
    case Dotted => "Dotted"
    case Thick => "Thick"
    case Double => "Double"
    case Hair => "Hair"
    case MediumDashed => "MediumDashed"
    case DashDot => "DashDot"
    case MediumDashDot => "MediumDashDot"
    case DashDotDot => "DashDotDot"
    case MediumDashDotDot => "MediumDashDotDot"
    case SlantDashDot => "SlantDashDot"
  }

  /** `ToBorderStyle`: no style for `None`, otherwise the style of the same name. */
  function ToBorderStyle(line: BorderLine): (s: Option<X.BorderStyle>)
    ensures s.None? <==> line == NoLine
    ensures s.Some? ==> BorderStyleName(s.value) == LineName(line)
  {
    match line
    case NoLine => None
    case Thin => Some(X.Thin)
    case Medium => Some(X.Medium)
    case Thick => Some(X.Thick)
    case Dashed => Some(X.Dashed)
    case Dotted => Some(X.Dotted)
    case Double => Some(X.Double)
  }

  /** Different lines never share a border style. */
  lemma ToBorderStyleInjective(a: BorderLine, b: BorderLine)
    requires ToBorderStyle(a) == ToBorderStyle(b)
    ensures a == b
  {
  }

  /** The unchecked `(uint)` cast of an `int`. */
  function ToUInt(i: Int32): (u: UInt32)
    ensures i >= 0 ==> u == i
    ensures i < 0 ==> u == i + TWO_32
  {
    if i < 0 then i + TWO_32 else i
  }

  predicate NonEmpty(s: Option<string>) {
    s.Some? && s.value != ""
  }

  /** The font element built for a font request. */
  function BuildFont(spec: FontSpec): (f: X.Font)
    ensures f.name.Some? <==> spec.name != ""
    ensures f.name.Some? ==> f.name.value == spec.name
    ensures f.size.Some? <==> spec.size > 0.0
    ensures f.size.Some? ==> f.size.value == spec.size
    ensures f.bold == spec.bold && f.italic == spec.italic && f.underline == spec.underline
    ensures f.color.Some? <==> NonEmpty(spec.rgb) || spec.theme.Some? || spec.indexed.Some?
    ensures f.color.Some? ==> (f.color.value.rgb.Some? <==> NonEmpty(spec.rgb))
    ensures f.color.Some? && f.color.value.rgb.Some? ==> f.color.value.rgb == spec.rgb
  {
    var color :=
      if NonEmpty(spec.rgb) || spec.theme.Some? || spec.indexed.Some? then
        Some(X.Color(
          if NonEmpty(spec.rgb) then spec.rgb else None,
          if spec.theme.Some? then Some(ToUInt(spec.theme.value)) else None,
          if spec.indexed.Some? then Some(ToUInt(spec.indexed.value)) else None))
      else None;
    X.Font(
      if spec.name != "" then Some(spec.name) else None,
      if spec.size > 0.0 then Some(spec.size) else None,
      spec.bold, spec.italic, spec.underline, color)
  }

  /** The fill element built for a fill request: always a solid pattern, even for an empty colour. */
  function BuildFill(spec: FillSpec): (f: X.Fill)
    ensures f.pattern == X.Solid && f.foreground == spec.rgb
  {
    X.Fill(X.Solid, spec.rgb)
  }

  /** One edge: the mapped line style and a colour only when the colour text is non-empty. */
  function BuildEdge(e: BorderEdgeSpec): (edge: X.Edge)
    ensures edge.style == ToBorderStyle(e.line)
    ensures edge.color.Some? <==> NonEmpty(e.rgb)
    ensures edge.color.Some? ==> edge.color == e.rgb
  {
    X.Edge(ToBorderStyle(e.line), if NonEmpty(e.rgb) then e.rgb else None)
  }

  function BuildBorder(spec: BorderSpec): (b: X.Border)
    ensures b.left == BuildEdge(spec.left) && b.right == BuildEdge(spec.right)
    ensures b.top == BuildEdge(spec.top) && b.bottom == BuildEdge(spec.bottom)
  {
    X.Border(BuildEdge(spec.left), BuildEdge(spec.right), BuildEdge(spec.top), BuildEdge(spec.bottom))
  }

  /**
   * The cell format `GetOrCreateStyle` appends: a copy of `base` in which each
   * supplied component sets its id and `apply*` flag, and a supplied alignment
   * overwrites the horizontal and vertical values only when present, always
   * overwrites the wrap flag, and sets `applyAlignment`.
   */
  function DeriveFormat(base: X.CellFormat, fontId: Option<nat>, fillId: Option<nat>, borderId: Option<nat>,
                        alignment: Option<AlignmentSpec>): (r: X.CellFormat)
    ensures r.numberFormatId == base.numberFormatId && r.formatId == base.formatId
    ensures fontId.Some? ==> r.fontId == fontId && r.applyFont == Some(true)
    ensures fontId.None? ==> r.fontId == base.fontId && r.applyFont == base.applyFont
    ensures fillId.Some? ==> r.fillId == fillId && r.applyFill == Some(true)
    ensures fillId.None? ==> r.fillId == base.fillId && r.applyFill == base.applyFill
    ensures borderId.Some? ==> r.borderId == borderId && r.applyBorder == Some(true)
    ensures borderId.None? ==> r.borderId == base.borderId && r.applyBorder == base.applyBorder
    ensures alignment.None? ==> r.alignment == base.alignment && r.applyAlignment == base.applyAlignment
    ensures alignment.Some? ==> r.applyAlignment == Some(true) && r.alignment.Some?
    ensures alignment.Some? ==> r.alignment.value.wrapText == Some(alignment.value.wrapText)
    ensures alignment.Some? && alignment.value.h.Some? ==> r.alignment.value.horizontal == alignment.value.h
    ensures alignment.Some? && alignment.value.h.None? ==>
      r.alignment.value.horizontal == (if base.alignment.Some? then base.alignment.value.horizontal else None)
    ensures alignment.Some? && alignment.value.v.Some? ==> r.alignment.value.vertical == alignment.value.v
    ensures alignment.Some? && alignment.value.v.None? ==>
      r.alignment.value.vertical == (if base.alignment.Some? then base.alignment.value.vertical else None)
  {
    var f := if fontId.Some? then base.(fontId := fontId, applyFont := Some(true)) else base;
    var f := if fillId.Some? then f.(fillId := fillId, applyFill := Some(true)) else f;
    var f := if borderId.Some? then f.(borderId := borderId, applyBorder := Some(true)) else f;
    if alignment.None? then f
    else
      var a := alignment.value;
      var old_ := f.alignment.GetOr(X.Alignment(None, None, None));
      var h := if a.h.Some? then a.h else old_.horizontal;
      var v := if a.v.Some? then a.v else old_.vertical;
      f.(alignment := Some(X.Alignment(h, v, Some(a.wrapText))), applyAlignment := Some(true))
  }

  /** Deriving with no component copies the base format exactly. */
  lemma DeriveNothingIsCopy(base: X.CellFormat)
    ensures DeriveFormat(base, None, None, None, None) == base
  {
  }

  // ---------------------------------------------------------------------------
  // The default stylesheet and the required collections
  // ---------------------------------------------------------------------------

  const DefaultFont := X.Font(Some("Calibri"), Some(11.0), false, false, false, None)
  const NoneFill := X.Fill(X.PatternNone, None)
  const GrayFill := X.Fill(X.Gray125, None)

  /** `CreateDefaultStylesheet`: one font, the two required fills, one empty border, one empty format of each kind. */
  function CreateDefaultStylesheet(): (ss: X.Stylesheet)
    ensures X.Complete(ss)
    ensures ss.fonts.value.items == [DefaultFont]
    ensures ss.fills.value.items == [NoneFill, GrayFill]
    ensures ss.borders.value.items == [X.EmptyBorder]
    ensures ss.cellStyleFormats.value.items == [X.EmptyFormat] && ss.cellFormats.value.items == [X.EmptyFormat]
    ensures ss.fonts.value.count == Some(1) && ss.fills.value.count == Some(2) && ss.borders.value.count == Some(1)
    ensures ss.cellStyleFormats.value.count == Some(1) && ss.cellFormats.value.count == Some(1)
  {
    X.Stylesheet(
      Some(X.Counted([DefaultFont])),
      Some(X.Counted([NoneFill, GrayFill])),
      Some(X.Counted([X.EmptyBorder])),
      Some(X.Counted([X.EmptyFormat])),
      Some(X.Counted([X.EmptyFormat])))
  }

  /** A missing list becomes an empty one; a missing count becomes the number of children. */
  function Ensured<T>(c: Option<X.Collection<T>>): (r: X.Collection<T>)
    ensures c.Some? ==> r.items == c.value.items
    ensures c.None? ==> r.items == []
    ensures r.count.Some?
    ensures c.Some? && c.value.count.Some? ==> r.count == c.value.count
    ensures (c.None? || c.value.count.None?) ==> r.count == Some(|r.items|)
  {
    var x := c.GetOr(X.Collection([], None));
    if x.count.None? then x.(count := Some(|x.items|)) else x
  }

  /**
   * `EnsureCollections`: all five lists exist with a count; fewer than two
   * fills are replaced by the two required fills; an empty list of cell
   * formats gets one empty format. Existing children are otherwise kept.
   */
  function EnsureCollections(ss: X.Stylesheet): (r: X.Stylesheet)
    ensures X.Complete(r)
    ensures r.fonts.value == Ensured(ss.fonts) && r.borders.value == Ensured(ss.borders)
    ensures r.cellStyleFormats.value == Ensured(ss.cellStyleFormats)
    ensures |r.fills.value.items| >= 2 && |r.cellFormats.value.items| >= 1
    ensures |Ensured(ss.fills).items| >= 2 ==> r.fills.value == Ensured(ss.fills)
    ensures |Ensured(ss.fills).items| < 2 ==> r.fills.value == X.Collection([NoneFill, GrayFill], Some(2))
    ensures |Ensured(ss.cellFormats).items| >= 1 ==> r.cellFormats.value == Ensured(ss.cellFormats)
    ensures |Ensured(ss.cellFormats).items| == 0 ==> r.cellFormats.value == X.Collection([X.EmptyFormat], Some(1))
  {
    var fills := Ensured(ss.fills);
    var formats := Ensured(ss.cellFormats);
    X.Stylesheet(
      Some(Ensured(ss.fonts)),
      Some(if |fills.items| < 2 then X.Collection([NoneFill, GrayFill], Some(2)) else fills),
      Some(Ensured(ss.borders)),
      Some(Ensured(ss.cellStyleFormats)),
      Some(if |formats.items| == 0 then X.Collection(formats.items + [X.EmptyFormat], Some(1)) else formats))
  }

  /** Ensuring the collections twice changes nothing the first time did not. */
  lemma EnsureCollectionsIdempotent(ss: X.Stylesheet)
    ensures EnsureCollections(EnsureCollections(ss)) == EnsureCollections(ss)
  {
  }

  /** The default stylesheet already has every required collection. */
  lemma DefaultStylesheetIsEnsured()
    ensures EnsureCollections(CreateDefaultStylesheet()) == CreateDefaultStylesheet()
  {
  }

  // ---------------------------------------------------------------------------
  // The manager
  // ---------------------------------------------------------------------------

  /** Every memoised font id indexes the font built for its request. */
  predicate FontMemo(fonts: seq<X.Font>, cache: map<FontSpec, nat>) {
    forall f :: f in cache ==> cache[f] < |fonts| && fonts[cache[f]] == BuildFont(f)
  }

  predicate FillMemo(fills: seq<X.Fill>, cache: map<FillSpec, nat>) {
    forall f :: f in cache ==> cache[f] < |fills| && fills[cache[f]] == BuildFill(f)
  }

  predicate BorderMemo(borders: seq<X.Border>, cache: map<BorderSpec, nat>) {
    forall b :: b in cache ==> cache[b] < |borders| && borders[cache[b]] == BuildBorder(b)
  }

  /** The id a memo gives an optional request. */
  function IdOf<K>(k: Option<K>, cache: map<K, nat>): Option<nat> {
    if k.Some? && k.value in cache then Some(cache[k.value]) else None
  }

  /** Every memoised style id indexes the format derived from its key's base with its key's component ids. */
  predicate StyleMemo(formats: seq<X.CellFormat>, cache: map<StyleKey, nat>,
                      fonts: map<FontSpec, nat>, fills: map<FillSpec, nat>, borders: map<BorderSpec, nat>) {
    forall k :: k in cache ==>
      && cache[k] < |formats| && k.baseStyleIndex < |formats|
      && (k.font.Some? ==> k.font.value in fonts)
      && (k.fill.Some? ==> k.fill.value in fills)
      && (k.border.Some? ==> k.border.value in borders)
      && formats[cache[k]] == DeriveFormat(formats[k.baseStyleIndex], IdOf(k.font, fonts), IdOf(k.fill, fills), IdOf(k.border, borders), k.alignment)
  }

  /** The stylesheet is complete and every memo entry names the element its request describes. */
  predicate Consistent(ss: X.Stylesheet, fonts: map<FontSpec, nat>, fills: map<FillSpec, nat>,
                       borders: map<BorderSpec, nat>, styles: map<StyleKey, nat>) {
    && X.Complete(ss)
    && FontMemo(ss.fonts.value.items, fonts)
    && FillMemo(ss.fills.value.items, fills)
    && BorderMemo(ss.borders.value.items, borders)
    && StyleMemo(ss.cellFormats.value.items, styles, fonts, fills, borders)
  }

  /** Appending the font of a new request and memoising its index keeps the memos consistent. */
  lemma ConsistentAppendFont(ss: X.Stylesheet, fonts: map<FontSpec, nat>, fills: map<FillSpec, nat>,
                             borders: map<BorderSpec, nat>, styles: map<StyleKey, nat>, spec: FontSpec)
    requires Consistent(ss, fonts, fills, borders, styles) && spec !in fonts
    ensures Consistent(ss.(fonts := Some(X.Append(ss.fonts.value, BuildFont(spec)))),
                       fonts[spec := |ss.fonts.value.items|], fills, borders, styles)
  {
    var items := ss.fonts.value.items;
    StyleMemoGrow(ss.cellFormats.value.items, styles, fonts, fills, borders, fonts[spec := |items|], fills, borders);
    assert FontMemo(items + [BuildFont(spec)], fonts[spec := |items|]) by {
      forall f | f in fonts ensures (items + [BuildFont(spec)])[fonts[f]] == items[fonts[f]] { }
    }
  }

  /** Appending the fill of a new request and memoising its index keeps the memos consistent. */
  lemma ConsistentAppendFill(ss: X.Stylesheet, fonts: map<FontSpec, nat>, fills: map<FillSpec, nat>,
                             borders: map<BorderSpec, nat>, styles: map<StyleKey, nat>, spec: FillSpec)
    requires Consistent(ss, fonts, fills, borders, styles) && spec !in fills
    ensures Consistent(ss.(fills := Some(X.Append(ss.fills.value, BuildFill(spec)))),
                       fonts, fills[spec := |ss.fills.value.items|], borders, styles)
  {
    var items := ss.fills.value.items;
    StyleMemoGrow(ss.cellFormats.value.items, styles, fonts, fills, borders, fonts, fills[spec := |items|], borders);
    assert FillMemo(items + [BuildFill(spec)], fills[spec := |items|]) by {
      forall f | f in fills ensures (items + [BuildFill(spec)])[fills[f]] == items[fills[f]] { }
    }
  }

  /** Appending the border of a new request and memoising its index keeps the memos consistent. */
  lemma ConsistentAppendBorder(ss: X.Stylesheet, fonts: map<FontSpec, nat>, fills: map<FillSpec, nat>,
                               borders: map<BorderSpec, nat>, styles: map<StyleKey, nat>, spec: BorderSpec)
    requires Consistent(ss, fonts, fills, borders, styles) && spec !in borders
    ensures Consistent(ss.(borders := Some(X.Append(ss.borders.value, BuildBorder(spec)))),
                       fonts, fills, borders[spec := |ss.borders.value.items|], styles)
  {
    var items := ss.borders.value.items;
    StyleMemoGrow(ss.cellFormats.value.items, styles, fonts, fills, borders, fonts, fills, borders[spec := |items|]);
    assert BorderMemo(items + [BuildBorder(spec)], borders[spec := |items|]) by {
      forall b | b in borders ensures (items + [BuildBorder(spec)])[borders[b]] == items[borders[b]] { }
    }
  }

  /** Appending the derived format of a new key and memoising its index keeps the memos consistent. */
  lemma ConsistentAppendFormat(ss: X.Stylesheet, fonts: map<FontSpec, nat>, fills: map<FillSpec, nat>,
                               borders: map<BorderSpec, nat>, styles: map<StyleKey, nat>, key: StyleKey, cf: X.CellFormat)
    requires Consistent(ss, fonts, fills, borders, styles)
    requires key !in styles && key.baseStyleIndex < |ss.cellFormats.value.items|
    requires key.font.Some? ==> key.font.value in fonts
    requires key.fill.Some? ==> key.fill.value in fills
    requires key.border.Some? ==> key.border.value in borders
    requires cf == DeriveFormat(ss.cellFormats.value.items[key.baseStyleIndex], IdOf(key.font, fonts), IdOf(key.fill, fills),
                                IdOf(key.border, borders), key.alignment)
    ensures Consistent(ss.(cellFormats := Some(X.Append(ss.cellFormats.value, cf))),
                       fonts, fills, borders, styles[key := |ss.cellFormats.value.items|])
  {
    StyleMemoAppend(ss.cellFormats.value.items, styles, fonts, fills, borders, key, cf);
  }

  predicate Prefix<T(==)>(a: seq<T>, b: seq<T>) {
    |a| <= |b| && b[..|a|] == a
  }

  lemma PrefixTransitive<T>(a: seq<T>, b: seq<T>, c: seq<T>)
    requires Prefix(a, b) && Prefix(b, c)
    ensures Prefix(a, c)
  {
    assert c[..|a|] == c[..|b|][..|a|];
  }

  class StyleManager {
    const wb: Workbook
    var fontCache: map<FontSpec, nat>
    var fillCache: map<FillSpec, nat>
    var borderCache: map<BorderSpec, nat>
    var styleCache: map<StyleKey, nat>

    /** The stylesheet is complete and every memo entry names the element its request describes. */
    predicate Valid()
      reads this, wb
    {
      wb.stylesheet.Some? && Consistent(wb.stylesheet.value, fontCache, fillCache, borderCache, styleCache)
    }

    function Fonts(): seq<X.Font>
      reads this, wb
      requires wb.stylesheet.Some? && X.Complete(wb.stylesheet.value)
    {
      wb.stylesheet.value.fonts.value.items
    }

    function Fills(): seq<X.Fill>
      reads this, wb
      requires wb.stylesheet.Some? && X.Complete(wb.stylesheet.value)
    {
      wb.stylesheet.value.fills.value.items
    }

    function Borders(): seq<X.Border>
      reads this, wb
      requires wb.stylesheet.Some? && X.Complete(wb.stylesheet.value)
    {
      wb.stylesheet.value.borders.value.items
    }

    function Formats(): seq<X.CellFormat>
      reads this, wb
      requires wb.stylesheet.Some? && X.Complete(wb.stylesheet.value)
    {
      wb.stylesheet.value.cellFormats.value.items
    }

    /**
     * The constructor: a missing stylesheet is replaced by the default one,
     * the required collections are ensured, and the memos start empty.
     */
    constructor (wb: Workbook)
      modifies wb`stylesheet
      ensures this.wb == wb
      ensures wb.stylesheet == Some(EnsureCollections(old(wb.stylesheet).GetOr(CreateDefaultStylesheet())))
      ensures fontCache == map[] && fillCache == map[] && borderCache == map[] && styleCache == map[]
      ensures Valid()
    {
      this.wb := wb;
      var ss := if wb.stylesheet.None? then CreateDefaultStylesheet() else wb.stylesheet.value;
      wb.stylesheet := Some(EnsureCollections(ss));
      fontCache, fillCache, borderCache, styleCache := map[], map[], map[], map[];
    }

    /** `GetOrCreateFontId`: the memoised id, or the index of a newly appended font. */
    method GetOrCreateFontId(spec: FontSpec) returns (id: nat)
      requires Valid()
      modifies this`fontCache, wb`stylesheet
      ensures Valid()
      ensures spec in fontCache && id == fontCache[spec] && id < |Fonts()| && Fonts()[id] == BuildFont(spec)
      ensures Prefix(old(Fonts()), Fonts()) && Fills() == old(Fills()) && Borders() == old(Borders())
      ensures wb.stylesheet.value.cellFormats == old(wb.stylesheet.value.cellFormats)
      ensures wb.stylesheet.value.cellStyleFormats == old(wb.stylesheet.value.cellStyleFormats)
      ensures spec in old(fontCache) ==> fontCache == old(fontCache) && wb.stylesheet == old(wb.stylesheet)
      ensures spec !in old(fontCache) ==>
        && id == |old(Fonts())|
        && fontCache == old(fontCache)[spec := id]
        && wb.stylesheet == old(wb.stylesheet).(value := old(wb.stylesheet.value).(fonts := Some(X.Append(old(wb.stylesheet.value.fonts.value), BuildFont(spec)))))
    {
      if spec in fontCache {
        return fontCache[spec];
      }
      var ss := wb.stylesheet.value;
      id := |ss.fonts.value.items|;
      ConsistentAppendFont(ss, fontCache, fillCache, borderCache, styleCache, spec);
      wb.stylesheet := Some(ss.(fonts := Some(X.Append(ss.fonts.value, BuildFont(spec)))));
      fontCache := fontCache[spec := id];
    }

    /** `GetOrCreateFillId`: the memoised id, or the index of a newly appended solid fill. */
    method GetOrCreateFillId(spec: FillSpec) returns (id: nat)
      requires Valid()
      modifies this`fillCache, wb`stylesheet
      ensures Valid()
      ensures spec in fillCache && id == fillCache[spec] && id < |Fills()| && Fills()[id] == BuildFill(spec)
      ensures Prefix(old(Fills()), Fills()) && Fonts() == old(Fonts()) && Borders() == old(Borders())
      ensures wb.stylesheet.value.cellFormats == old(wb.stylesheet.value.cellFormats)
      ensures wb.stylesheet.value.cellStyleFormats == old(wb.stylesheet.value.cellStyleFormats)
      ensures spec in old(fillCache) ==> fillCache == old(fillCache) && wb.stylesheet == old(wb.stylesheet)
      ensures spec !in old(fillCache) ==>
        && id == |old(Fills())|
        && fillCache == old(fillCache)[spec := id]
        && wb.stylesheet == old(wb.stylesheet).(value := old(wb.stylesheet.value).(fills := Some(X.Append(old(wb.stylesheet.value.fills.value), BuildFill(spec)))))
    {
      if spec in fillCache {
        return fillCache[spec];
      }
      var ss := wb.stylesheet.value;
      id := |ss.fills.value.items|;
      ConsistentAppendFill(ss, fontCache, fillCache, borderCache, styleCache, spec);
      wb.stylesheet := Some(ss.(fills := Some(X.Append(ss.fills.value, BuildFill(spec)))));
      fillCache := fillCache[spec := id];
    }

    /** `GetOrCreateBorderId`: the memoised id, or the index of a newly appended border. */
    method GetOrCreateBorderId(spec: BorderSpec) returns (id: nat)
      requires Valid()
      modifies this`borderCache, wb`stylesheet
      ensures Valid()
      ensures spec in borderCache && id == borderCache[spec] && id < |Borders()| && Borders()[id] == BuildBorder(spec)
      ensures Prefix(old(Borders()), Borders()) && Fonts() == old(Fonts()) && Fills() == old(Fills())
      ensures wb.stylesheet.value.cellFormats == old(wb.stylesheet.value.cellFormats)
      ensures wb.stylesheet.value.cellStyleFormats == old(wb.stylesheet.value.cellStyleFormats)
      ensures spec in old(borderCache) ==> borderCache == old(borderCache) && wb.stylesheet == old(wb.stylesheet)
      ensures spec !in old(borderCache) ==>
        && id == |old(Borders())|
        && borderCache == old(borderCache)[spec := id]
        && wb.stylesheet == old(wb.stylesheet).(value := old(wb.stylesheet.value).(borders := Some(X.Append(old(wb.stylesheet.value.borders.value), BuildBorder(spec)))))
    {
      if spec in borderCache {
        return borderCache[spec];
      }
      var ss := wb.stylesheet.value;
      id := |ss.borders.value.items|;
      ConsistentAppendBorder(ss, fontCache, fillCache, borderCache, styleCache, spec);
      wb.stylesheet := Some(ss.(borders := Some(X.Append(ss.borders.value, BuildBorder(spec)))));
      borderCache := borderCache[spec := id];
    }

    /**
     * `GetOrCreateStyle`: a memoised key returns its id and changes nothing;
     * otherwise the base format must exist (else `ArgumentOutOfRangeException`
     * and nothing changes), the supplied components are interned, and exactly
     * one derived format is appended, whose index is returned and memoised.
     */
    method GetOrCreateStyle(baseStyleIndex: UInt32, font: Option<FontSpec>, fill: Option<FillSpec>,
                            border: Option<BorderSpec>, alignment: Option<AlignmentSpec>) returns (r: Result<nat>)
      requires Valid()
      modifies this`fontCache, this`fillCache, this`borderCache, this`styleCache, wb`stylesheet
      ensures Valid()
      ensures var key := StyleKey(baseStyleIndex, font, fill, border, alignment);
        key in old(styleCache) ==> r == Ok(old(styleCache)[key]) && Unchanged(old(wb.stylesheet), old(fontCache), old(fillCache), old(borderCache), old(styleCache))
      ensures var key := StyleKey(baseStyleIndex, font, fill, border, alignment);
        key !in old(styleCache) && baseStyleIndex >= |old(Formats())| ==>
          r == Err(ArgumentOutOfRange) && Unchanged(old(wb.stylesheet), old(fontCache), old(fillCache), old(borderCache), old(styleCache))
      ensures var key := StyleKey(baseStyleIndex, font, fill, border, alignment);
        key !in old(styleCache) && baseStyleIndex < |old(Formats())| ==>
          && r == Ok(|old(Formats())|)
          && Formats() == old(Formats()) + [DeriveFormat(old(Formats())[baseStyleIndex],
               IdOf(font, fontCache), IdOf(fill, fillCache), IdOf(border, borderCache), alignment)]
          && styleCache == old(styleCache)[key := r.value]
      ensures r.Ok? ==> var key := StyleKey(baseStyleIndex, font, fill, border, alignment);
        key in styleCache && styleCache[key] == r.value && r.value < |Formats()|
      ensures Prefix(old(Fonts()), Fonts()) && Prefix(old(Fills()), Fills())
      ensures Prefix(old(Borders()), Borders()) && Prefix(old(Formats()), Formats())
      ensures |Formats()| <= |old(Formats())| + 1
      ensures forall k :: k in old(styleCache) ==> k in styleCache && styleCache[k] == old(styleCache)[k]
      ensures wb.stylesheet.value.cellFormats.value.count == Some(|Formats()|) || Formats() == old(Formats())
      ensures old(wb.stylesheet.value.cellStyleFormats) == wb.stylesheet.value.cellStyleFormats
    {
      var key := StyleKey(baseStyleIndex, font, fill, border, alignment);
      if key in styleCache {
        return Ok(styleCache[key]);
      }
      var formats := wb.stylesheet.value.cellFormats.value;
      if baseStyleIndex >= |formats.items| {
        return Err(ArgumentOutOfRange);
      }
      var baseCf := formats.items[baseStyleIndex];
      var fontId, fillId, borderId := InternComponents(font, fill, border);
      var newCf := DeriveFormat(baseCf, fontId, fillId, borderId, alignment);
      var id := AppendFormat(key, newCf);
      return Ok(id);
    }

    /**
     * The end of `GetOrCreateStyle` on a miss: the derived format is appended
     * to the cell formats, the count is refreshed, and its index is memoised.
     */
    method AppendFormat(key: StyleKey, cf: X.CellFormat) returns (id: nat)
      requires Valid() && key !in styleCache && key.baseStyleIndex < |Formats()|
      requires key.font.Some? ==> key.font.value in fontCache
      requires key.fill.Some? ==> key.fill.value in fillCache
      requires key.border.Some? ==> key.border.value in borderCache
      requires cf == DeriveFormat(Formats()[key.baseStyleIndex], IdOf(key.font, fontCache), IdOf(key.fill, fillCache),
                                  IdOf(key.border, borderCache), key.alignment)
      modifies this`styleCache, wb`stylesheet
      ensures Valid()
      ensures id == |old(Formats())| && Formats() == old(Formats()) + [cf] && styleCache == old(styleCache)[key := id]
      ensures Fonts() == old(Fonts()) && Fills() == old(Fills()) && Borders() == old(Borders())
      ensures wb.stylesheet.value.cellFormats.value.count == Some(|Formats()|)
      ensures wb.stylesheet.value.cellStyleFormats == old(wb.stylesheet.value.cellStyleFormats)
    {
      var ss := wb.stylesheet.value;
      var formats := ss.cellFormats.value;
      ConsistentAppendFormat(ss, fontCache, fillCache, borderCache, styleCache, key, cf);
      wb.stylesheet := Some(ss.(cellFormats := Some(X.Append(formats, cf))));
      styleCache := styleCache[key := |formats.items|];
      id := |formats.items|;
    }

    /** The font, fill and border requests of a style interned in turn; absent ones get no id. */
    method InternComponents(font: Option<FontSpec>, fill: Option<FillSpec>, border: Option<BorderSpec>)
      returns (fontId: Option<nat>, fillId: Option<nat>, borderId: Option<nat>)
      requires Valid()
      modifies this`fontCache, this`fillCache, this`borderCache, wb`stylesheet
      ensures Valid()
      ensures font.Some? ==> font.value in fontCache
      ensures fill.Some? ==> fill.value in fillCache
      ensures border.Some? ==> border.value in borderCache
      ensures fontId == IdOf(font, fontCache) && fillId == IdOf(fill, fillCache) && borderId == IdOf(border, borderCache)
      ensures Prefix(old(Fonts()), Fonts()) && Prefix(old(Fills()), Fills()) && Prefix(old(Borders()), Borders())
      ensures wb.stylesheet.value.cellFormats == old(wb.stylesheet.value.cellFormats)
      ensures wb.stylesheet.value.cellStyleFormats == old(wb.stylesheet.value.cellStyleFormats)
    {
      fontId := InternFont(font);
      fillId := InternFill(fill);
      borderId := InternBorder(border);
    }

    /** A font request, when present, interned by `GetOrCreateFontId`. */
    method InternFont(font: Option<FontSpec>) returns (id: Option<nat>)
      requires Valid()
      modifies this`fontCache, wb`stylesheet
      ensures Valid()
      ensures font.Some? ==> font.value in fontCache
      ensures id == IdOf(font, fontCache)
      ensures Prefix(old(Fonts()), Fonts()) && Fills() == old(Fills()) && Borders() == old(Borders())
      ensures wb.stylesheet.value.cellFormats == old(wb.stylesheet.value.cellFormats)
      ensures wb.stylesheet.value.cellStyleFormats == old(wb.stylesheet.value.cellStyleFormats)
    {
      if font.Some? {
        var i := GetOrCreateFontId(font.value);
        return Some(i);
      }
      return None;
    }

    /** A fill request, when present, interned by `GetOrCreateFillId`. */
    method InternFill(fill: Option<FillSpec>) returns (id: Option<nat>)
      requires Valid()
      modifies this`fillCache, wb`stylesheet
      ensures Valid()
      ensures fill.Some? ==> fill.value in fillCache
      ensures id == IdOf(fill, fillCache)
      ensures Prefix(old(Fills()), Fills()) && Fonts() == old(Fonts()) && Borders() == old(Borders())
      ensures wb.stylesheet.value.cellFormats == old(wb.stylesheet.value.cellFormats)
      ensures wb.stylesheet.value.cellStyleFormats == old(wb.stylesheet.value.cellStyleFormats)
    {
      if fill.Some? {
        var i := GetOrCreateFillId(fill.value);
        return Some(i);
      }
      return None;
    }

    /** A border request, when present, interned by `GetOrCreateBorderId`. */
    method InternBorder(border: Option<BorderSpec>) returns (id: Option<nat>)
      requires Valid()
      modifies this`borderCache, wb`stylesheet
      ensures Valid()
      ensures border.Some? ==> border.value in borderCache
      ensures id == IdOf(border, borderCache)
      ensures Prefix(old(Borders()), Borders()) && Fonts() == old(Fonts()) && Fills() == old(Fills())
      ensures wb.stylesheet.value.cellFormats == old(wb.stylesheet.value.cellFormats)
      ensures wb.stylesheet.value.cellStyleFormats == old(wb.stylesheet.value.cellStyleFormats)
    {
      if border.Some? {
        var i := GetOrCreateBorderId(border.value);
        return Some(i);
      }
      return None;
    }

    /** The stylesheet and the four memos are as they were. */
    predicate Unchanged(ss: Option<X.Stylesheet>, fonts: map<FontSpec, nat>, fills: map<FillSpec, nat>,
                        borders: map<BorderSpec, nat>, styles: map<StyleKey, nat>)
      reads this, wb
    {
      wb.stylesheet == ss && fontCache == fonts && fillCache == fills && borderCache == borders && styleCache == styles
    }
  }

  /** A memoised style stays meaningful when the component memos only gain entries. */
  lemma StyleMemoGrow(formats: seq<X.CellFormat>, cache: map<StyleKey, nat>,
                      fonts: map<FontSpec, nat>, fills: map<FillSpec, nat>, borders: map<BorderSpec, nat>,
                      fonts2: map<FontSpec, nat>, fills2: map<FillSpec, nat>, borders2: map<BorderSpec, nat>)
    requires StyleMemo(formats, cache, fonts, fills, borders)
    requires forall f :: f in fonts ==> f in fonts2 && fonts2[f] == fonts[f]
    requires forall f :: f in fills ==> f in fills2 && fills2[f] == fills[f]
    requires forall b :: b in borders ==> b in borders2 && borders2[b] == borders[b]
    ensures StyleMemo(formats, cache, fonts2, fills2, borders2)
  {
    forall k | k in cache
      ensures IdOf(k.font, fonts2) == IdOf(k.font, fonts) && IdOf(k.fill, fills2) == IdOf(k.fill, fills)
      ensures IdOf(k.border, borders2) == IdOf(k.border, borders)
    {
    }
  }

  /** Appending the derived format of a new key keeps every memoised style meaningful. */
  lemma StyleMemoAppend(formats: seq<X.CellFormat>, cache: map<StyleKey, nat>,
                        fonts: map<FontSpec, nat>, fills: map<FillSpec, nat>, borders: map<BorderSpec, nat>,
                        key: StyleKey, cf: X.CellFormat)
    requires StyleMemo(formats, cache, fonts, fills, borders)
    requires key !in cache && key.baseStyleIndex < |formats|
    requires key.font.Some? ==> key.font.value in fonts
    requires key.fill.Some? ==> key.fill.value in fills
    requires key.border.Some? ==> key.border.value in borders
    requires cf == DeriveFormat(formats[key.baseStyleIndex], IdOf(key.font, fonts), IdOf(key.fill, fills), IdOf(key.border, borders), key.alignment)
    ensures StyleMemo(formats + [cf], cache[key := |formats|], fonts, fills, borders)
  {
    var f2 := formats + [cf];
    var c2 := cache[key := |formats|];
    forall k | k in c2
      ensures c2[k] < |f2| && k.baseStyleIndex < |f2|
      ensures f2[c2[k]] == DeriveFormat(f2[k.baseStyleIndex], IdOf(k.font, fonts), IdOf(k.fill, fills), IdOf(k.border, borders), k.alignment)
    {
      assert f2[k.baseStyleIndex] == formats[k.baseStyleIndex];
      if k != key {
        assert f2[c2[k]] == formats[cache[k]];
      }
    }
  }
}

=== FILE: styles.dfy ===
/**
 * The stylesheet elements (`styles.xml`) the style manager reads and appends
 * to: fonts, fills, borders, cell-style formats and cell formats (`cellXfs`,
 * section 18.8.10 of ECMA-376 Part 1), each list with its optional `count`
 * attribute.
 */
module Styles {
  import opened Common
  import StyleSpec

  /** `BorderStyleValues` of the spreadsheet schema. */
  datatype BorderStyle =
    | Thin | Medium | Dashed | Dotted | Thick | Double | Hair
    | MediumDashed | DashDot | MediumDashDot | DashDotDot | MediumDashDotDot | SlantDashDot

  /** `Color`: its `rgb`, `theme` and `indexed` attributes. */
  datatype Color = Color(rgb: Option<string>, theme: Option<UInt32>, indexed: Option<UInt32>)

  /** `Font` with the children the core writes: name, size, bold, italic, underline, colour. */
  datatype Font = Font(name: Option<string>, size: Option<real>, bold: bool, italic: bool, underline: bool, color: Option<Color>)

  datatype PatternType = PatternNone | Gray125 | Solid

  /** `Fill` holding a `PatternFill` and the `rgb` of its foreground colour, if any. */
  datatype Fill = Fill(pattern: PatternType, foreground: Option<string>)

  /** One border edge: its style attribute and the `rgb` of its colour child, each optional. */
  datatype Edge = Edge(style: Option<BorderStyle>, color: Option<string>)

  /** `Border` with its four edges; the diagonal edge is always empty. */
  datatype Border = Border(left: Edge, right: Edge, top: Edge, bottom: Edge)

  /** `Alignment` with the attributes the core writes. */
  datatype Alignment = Alignment(horizontal: Option<StyleSpec.Horizontal>, vertical: Option<StyleSpec.Vertical>, wrapText: Option<bool>)

  /** `CellFormat` (`xf`): component ids, the `apply*` flags, the alignment child and the attributes the core copies untouched. */
  datatype CellFormat = CellFormat(
    numberFormatId: Option<UInt32>,
    formatId: Option<UInt32>,
    fontId: Option<nat>,
    fillId: Option<nat>,
    borderId: Option<nat>,
    applyFont: Option<bool>,
    applyFill: Option<bool>,
    applyBorder: Option<bool>,
    applyAlignment: Option<bool>,
    alignment: Option<Alignment>)

  /** A list element of the stylesheet: its children and its `count` attribute. */
  datatype Collection<T> = Collection(items: seq<T>, count: Option<nat>)

  /** The five lists of the stylesheet; an absent list is `None`. */
  datatype Stylesheet = Stylesheet(
    fonts: Option<Collection<Font>>,
    fills: Option<Collection<Fill>>,
    borders: Option<Collection<Border>>,
    cellStyleFormats: Option<Collection<CellFormat>>,
    cellFormats: Option<Collection<CellFormat>>)

  const EmptyFormat := CellFormat(None, None, None, None, None, None, None, None, None, None)
  const EmptyEdge := Edge(None, None)
  const EmptyBorder := Border(EmptyEdge, EmptyEdge, EmptyEdge, EmptyEdge)

  /** A collection with `items` whose count attribute matches. */
  function Counted<T>(items: seq<T>): (c: Collection<T>)
    ensures c.items == items && c.count == Some(|items|)
  {
    Collection(items, Some(|items|))
  }

  /** `parent.AppendChild(x)` followed by `Count = ChildElements.Count`. */
  function Append<T>(c: Collection<T>, x: T): (r: Collection<T>)
    ensures r.items == c.items + [x] && r.count == Some(|c.items| + 1)
  {
    Counted(c.items + [x])
  }

  /** All five lists are present. */
  predicate Complete(ss: Stylesheet) {
    ss.fonts.Some? && ss.fills.Some? && ss.borders.Some? && ss.cellStyleFormats.Some? && ss.cellFormats.Some?
  }
}

=== FILE: stylespec.dfy ===
/**
 * The immutable style value objects that key the style manager's memo
 * dictionaries: font, fill, border edge, border, alignment and the style key
 * combining a base format with optional components. Each C# `Equals` is shown
 * to coincide with structural equality of the datatype, and each
 * `GetHashCode` is modelled with 32-bit wrap-around so that equal values are
 * shown to hash equally. The .NET hashes of `string` and `double` are not
 * specified by the library and are taken as parameters.
 */
module StyleSpec {
  import opened Common

  // ---------------------------------------------------------------------------
  // Values
  // ---------------------------------------------------------------------------

  /** A font request; `size` stands for the C# `double`. */
  datatype FontSpec = FontSpec(
    name: string,
    size: real,
    bold: bool,
    italic: bool,
    underline: bool,
    rgb: Option<string>,
    theme: Option<Int32>,
    indexed: Option<Int32>)

  /** A solid background request (`rgb` may be null). */
  datatype FillSpec = FillSpec(rgb: Option<string>)

  /** `BorderLine`, in declaration order. */
  datatype BorderLine = NoLine | Thin | Medium | Thick | Dashed | Dotted | Double

  datatype BorderEdgeSpec = BorderEdgeSpec(line: BorderLine, rgb: Option<string>)

  datatype BorderSpec = BorderSpec(left: BorderEdgeSpec, right: BorderEdgeSpec, top: BorderEdgeSpec, bottom: BorderEdgeSpec)

  /** The spreadsheet `HorizontalAlignmentValues`, in enum order. */
  datatype Horizontal = General | Left | HCenter | Right | Fill | Justify | CenterContinuous | HDistributed

  /** The spreadsheet `VerticalAlignmentValues`, in enum order. */
  datatype Vertical = Top | VCenter | Bottom | VJustify | VDistributed

  datatype AlignmentSpec = AlignmentSpec(h: Option<Horizontal>, v: Option<Vertical>, wrapText: bool)

  /** The memo key of a cell format: the base format index and the optional overrides. */
  datatype StyleKey = StyleKey(
    baseStyleIndex: UInt32,
    font: Option<FontSpec>,
    fill: Option<FillSpec>,
    border: Option<BorderSpec>,
    alignment: Option<AlignmentSpec>)

  /** The `FontSpec` constructor: a null name becomes the empty string, everything else is kept. */
  function NewFontSpec(name: Option<string>, size: real, bold: bool, italic: bool, underline: bool,
                       rgb: Option<string>, theme: Option<Int32>, indexed: Option<Int32>): (f: FontSpec)
    ensures name.None? ==> f.name == ""
    ensures name.Some? ==> f.name == name.value
    ensures f.size == size && f.bold == bold && f.italic == italic && f.underline == underline
    ensures f.rgb == rgb && f.theme == theme && f.indexed == indexed
  {
    FontSpec(name.GetOr(""), size, bold, italic, underline, rgb, theme, indexed)
  }

  // ---------------------------------------------------------------------------
  // Equality
  // ---------------------------------------------------------------------------

  /** `FontSpec.Equals`: all eight fields compared. */
  predicate FontEquals(a: FontSpec, b: FontSpec)
    ensures FontEquals(a, b) <==> a == b
  {
    a.name == b.name && a.size == b.size
    && a.bold == b.bold && a.italic == b.italic && a.underline == b.underline
    && a.rgb == b.rgb && a.theme == b.theme && a.indexed == b.indexed
  }

  /** `FillSpec.Equals`: exact, case-sensitive comparison of the colour text. */
  predicate FillEquals(a: FillSpec, b: FillSpec)
    ensures FillEquals(a, b) <==> a == b
  {
    a.rgb == b.rgb
  }

  /** `BorderEdgeSpec.Equals`: line and colour. */
  predicate EdgeEquals(a: BorderEdgeSpec, b: BorderEdgeSpec)
    ensures EdgeEquals(a, b) <==> a == b
  {
    a.line == b.line && a.rgb == b.rgb
  }

  /** `BorderSpec.Equals`: the four edges by `BorderEdgeSpec.Equals`. */
  predicate BorderEquals(a: BorderSpec, b: BorderSpec)
    ensures BorderEquals(a, b) <==> a == b
  {
    EdgeEquals(a.left, b.left) && EdgeEquals(a.right, b.right)
    && EdgeEquals(a.top, b.top) && EdgeEquals(a.bottom, b.bottom)
  }

  /** `AlignmentSpec.Equals`: both optional alignments and the wrap flag. */
  predicate AlignmentEquals(a: AlignmentSpec, b: AlignmentSpec)
    ensures AlignmentEquals(a, b) <==> a == b
  {
    a.h == b.h && a.v == b.v && a.wrapText == b.wrapText
  }

  /** `StyleKey.NullableEquals`: both absent, or both present and equal by `eq`. */
  predicate NullableEquals<T(==,!new)>(a: Option<T>, b: Option<T>, eq: (T, T) -> bool)
    requires forall x: T, y: T :: eq(x, y) <==> x == y
    ensures NullableEquals(a, b, eq) <==> a == b
  {
    (a.None? && b.None?) || (a.Some? && b.Some? && eq(a.value, b.value))
  }

  /** `StyleKey.Equals`: the same base and the same optional components. */
  predicate StyleKeyEquals(a: StyleKey, b: StyleKey)
    ensures StyleKeyEquals(a, b) <==> a == b
  {
    a.baseStyleIndex == b.baseStyleIndex
    && NullableEquals(a.font, b.font, FontEquals)
    && NullableEquals(a.fill, b.fill, FillEquals)
    && NullableEquals(a.border, b.border, BorderEquals)
    && NullableEquals(a.alignment, b.alignment, AlignmentEquals)
  }

  /** The fill comparison distinguishes colour texts that differ only in letter case. */
  lemma FillEqualsIsCaseSensitive()
    ensures !FillEquals(FillSpec(Some("FFFF0000")), FillSpec(Some("ffff0000")))
  {
    assert "FFFF0000"[1] != "ffff0000"[1];
  }

  // ---------------------------------------------------------------------------
  // Hash codes (unchecked 32-bit arithmetic)
  // ---------------------------------------------------------------------------

  /** One step `h * 31 + v` of the hash folds. */
  function Mix(h: Int32, v: Int32): Int32 {
    Wrap32(h * 31 + v)
  }

  function BoolHash(b: bool): Int32 {
    if b then 1 else 0
  }

  function NullableStringHash(s: Option<string>, stringHash: string -> Int32): Int32 {
    if s.Some? then stringHash(s.value) else 0
  }

  function NullableIntHash(i: Option<Int32>): Int32 {
    if i.Some? then i.value else 0
  }

  /** `FontSpec.GetHashCode`. */
  function FontHash(f: FontSpec, stringHash: string -> Int32, doubleHash: real -> Int32): Int32 {
    var h := Mix(17, stringHash(f.name));
    var h := Mix(h, doubleHash(f.size));
    var h := Mix(h, BoolHash(f.bold));
    var h := Mix(h, BoolHash(f.italic));
    var h := Mix(h, BoolHash(f.underline));
    var h := Mix(h, NullableStringHash(f.rgb, stringHash));
    var h := Mix(h, NullableIntHash(f.theme));
    Mix(h, NullableIntHash(f.indexed))
  }

  /** `FillSpec.GetHashCode`. */
  function FillHash(f: FillSpec, stringHash: string -> Int32): Int32 {
    NullableStringHash(f.rgb, stringHash)
  }

  function LineOrdinal(l: BorderLine): (n: nat)
    ensures n <= 6
  {
    match l
    case NoLine => 0
    case Thin => 1
    case Medium => 2
    case Thick => 3
    case Dashed => 4
    case Dotted => 5
    case Double => 6
  }

  /** The two's-complement bits of an `int`. */
  function Bits(i: Int32): bv32 {
    (if i < 0 then i + TWO_32 else i) as bv32
  }

  /** The `int` whose two's-complement bits are `b`. */
  function FromBits(b: bv32): Int32 {
    var u := b as int;
    if u <= INT_MAX then u else u - TWO_32
  }

  /** `BorderEdgeSpec.GetHashCode`: `(int)Line * 397` xor the colour hash. */
  function EdgeHash(e: BorderEdgeSpec, stringHash: string -> Int32): Int32 {
    FromBits(Bits(LineOrdinal(e.line) * 397) ^ Bits(NullableStringHash(e.rgb, stringHash)))
  }

  /** `BorderSpec.GetHashCode`. */
  function BorderHash(b: BorderSpec, stringHash: string -> Int32): Int32 {
    var h := Mix(17, EdgeHash(b.left, stringHash));
    var h := Mix(h, EdgeHash(b.right, stringHash));
    var h := Mix(h, EdgeHash(b.top, stringHash));
    Mix(h, EdgeHash(b.bottom, stringHash))
  }

  function HorizontalOrdinal(h: Horizontal): nat {
    match h
    case General => 0
    case Left => 1
    case HCenter => 2
    case Right => 3
    case Fill => 4
    case Justify => 5
    case CenterContinuous => 6
    case HDistributed => 7
  }

  function VerticalOrdinal(v: Vertical): nat {
    match v
    case Top => 0
    case VCenter => 1
    case Bottom => 2
    case VJustify => 3
    case VDistributed => 4
  }

  /** `AlignmentSpec.GetHashCode`: an absent alignment contributes -1. */
  function AlignmentHash(a: AlignmentSpec): Int32 {
    var h := Mix(17, if a.h.Some? then HorizontalOrdinal(a.h.value) else -1);
    var h := Mix(h, if a.v.Some? then VerticalOrdinal(a.v.value) else -1);
    Mix(h, BoolHash(a.wrapText))
  }

  /** The hash a present component contributes to the style key's hash; an absent one contributes 0. */
  function FontPart(f: Option<FontSpec>, stringHash: string -> Int32, doubleHash: real -> Int32): Int32 {
    if f.Some? then FontHash(f.value, stringHash, doubleHash) else 0
  }

  function FillPart(f: Option<FillSpec>, stringHash: string -> Int32): Int32 {
    if f.Some? then FillHash(f.value, stringHash) else 0
  }

  function BorderPart(b: Option<BorderSpec>, stringHash: string -> Int32): Int32 {
    if b.Some? then BorderHash(b.value, stringHash) else 0
  }

  function AlignmentPart(a: Option<AlignmentSpec>): Int32 {
    if a.Some? then AlignmentHash(a.value) else 0
  }

  /** `StyleKey.GetHashCode`; `uint.GetHashCode` is the unchecked cast to `int`. */
  function StyleKeyHash(k: StyleKey, stringHash: string -> Int32, doubleHash: real -> Int32): Int32 {
    var h := Mix(17, UIntToInt(k.baseStyleIndex));
    var h := Mix(h, FontPart(k.font, stringHash, doubleHash));
    var h := Mix(h, FillPart(k.fill, stringHash));
    var h := Mix(h, BorderPart(k.border, stringHash));
    Mix(h, AlignmentPart(k.alignment))
  }

  /**
   * Keys that `Equals` identifies hash alike, whatever the string and double
   * hashes are. `StyleKeyEquals` compares every part structurally, so the
   * equal keys are the same value and the hashes agree by construction.
   */
  lemma StyleKeyHashConsistent(a: StyleKey, b: StyleKey, stringHash: string -> Int32, doubleHash: real -> Int32)
    requires StyleKeyEquals(a, b)
    ensures StyleKeyHash(a, stringHash, doubleHash) == StyleKeyHash(b, stringHash, doubleHash)
  {
  }

  /** The fold of `Mix` over `vs`, from the hash `h`: what a chain of `h = h * 31 + v` steps computes. */
  function MixAll(h: Int32, vs: seq<Int32>): Int32
    decreases |vs|
  {
    if vs == [] then h else MixAll(Mix(h, vs[0]), vs[1..])
  }

  /** The exact value of the fold `h * 31 + v` over `vs`: the base-31 polynomial, with no wrap-around. */
  function Polynomial(h: int, vs: seq<int>): int
    decreases |vs|
  {
    if vs == [] then h else Polynomial(h * 31 + vs[0], vs[1..])
  }

  /**
   * Unchecked arithmetic may wrap at every step of the fold, yet the result
   * is the exact polynomial reduced to an `int` once, at the end.
   */
  lemma {:induction false} MixAllIsPolynomial(x: int, vs: seq<Int32>)
    ensures MixAll(Wrap32(x), vs) == Wrap32(Polynomial(x, vs))
    decreases |vs|
  {
    if vs != [] {
      Wrap32Step(x, 31, vs[0]);
      MixAllIsPolynomial(x * 31 + vs[0], vs[1..]);
    }
  }

  /** `StyleKey.GetHashCode` is the exact polynomial of its five parts, seeded with 17, reduced to an `int` once. */
  lemma StyleKeyHashIsPolynomial(k: StyleKey, stringHash: string -> Int32, doubleHash: real -> Int32)
    ensures StyleKeyHash(k, stringHash, doubleHash)
         == Wrap32(Polynomial(17, [UIntToInt(k.baseStyleIndex), FontPart(k.font, stringHash, doubleHash),
                                   FillPart(k.fill, stringHash), BorderPart(k.border, stringHash), AlignmentPart(k.alignment)]))
  {
    var v0, v1, v2 := UIntToInt(k.baseStyleIndex), FontPart(k.font, stringHash, doubleHash), FillPart(k.fill, stringHash);
    var v3, v4 := BorderPart(k.border, stringHash), AlignmentPart(k.alignment);
    MixAllIsPolynomial(17, [v0, v1, v2, v3, v4]);
    MixAll5(17, v0, v1, v2, v3, v4);
  }

  /** `FontSpec.GetHashCode` is the exact polynomial of its eight fields, seeded with 17, reduced to an `int` once. */
  lemma FontHashIsPolynomial(f: FontSpec, stringHash: string -> Int32, doubleHash: real -> Int32)
    ensures FontHash(f, stringHash, doubleHash)
         == Wrap32(Polynomial(17, [stringHash(f.name), doubleHash(f.size), BoolHash(f.bold), BoolHash(f.italic),
                                   BoolHash(f.underline), NullableStringHash(f.rgb, stringHash),
                                   NullableIntHash(f.theme), NullableIntHash(f.indexed)]))
  {
    var v0, v1, v2, v3 := stringHash(f.name), doubleHash(f.size), BoolHash(f.bold), BoolHash(f.italic);
    var v4, v5, v6, v7 := BoolHash(f.underline), NullableStringHash(f.rgb, stringHash), NullableIntHash(f.theme), NullableIntHash(f.indexed);
    var h4 := Mix(Mix(Mix(Mix(17, v0), v1), v2), v3);
    var h8 := Mix(Mix(Mix(Mix(h4, v4), v5), v6), v7);
    assert FontHash(f, stringHash, doubleHash) == h8;
    var vs := [v0, v1, v2, v3, v4, v5, v6, v7];
    assert vs == [v0, v1, v2, v3] + [v4, v5, v6, v7];
    MixAll4(17, v0, v1, v2, v3, [v4, v5, v6, v7]);
    MixAll4(h4, v4, v5, v6, v7, []);
    assert [v4, v5, v6, v7] + [] == [v4, v5, v6, v7];
    assert MixAll(17, vs) == h8;
    MixAllIsPolynomial(17, vs);
  }

  /** `BorderSpec.GetHashCode` is the exact polynomial of its four edge hashes, seeded with 17, reduced to an `int` once. */
  lemma BorderHashIsPolynomial(b: BorderSpec, stringHash: string -> Int32)
    ensures BorderHash(b, stringHash)
         == Wrap32(Polynomial(17, [EdgeHash(b.left, stringHash), EdgeHash(b.right, stringHash),
                                   EdgeHash(b.top, stringHash), EdgeHash(b.bottom, stringHash)]))
  {
    var v0, v1, v2, v3 := EdgeHash(b.left, stringHash), EdgeHash(b.right, stringHash), EdgeHash(b.top, stringHash), EdgeHash(b.bottom, stringHash);
    var h4 := Mix(Mix(Mix(Mix(17, v0), v1), v2), v3);
    assert BorderHash(b, stringHash) == h4;
    MixAll4(17, v0, v1, v2, v3, []);
    assert [v0, v1, v2, v3] + [] == [v0, v1, v2, v3];
    assert MixAll(17, [v0, v1, v2, v3]) == h4;
    MixAllIsPolynomial(17, [v0, v1, v2, v3]);
  }

  /**
   * `AlignmentSpec.GetHashCode` is the exact polynomial of its three fields
   * (an absent alignment counting -1), seeded with 17, reduced to an `int` once.
   */
  lemma AlignmentHashIsPolynomial(a: AlignmentSpec)
    ensures AlignmentHash(a)
         == Wrap32(Polynomial(17, [if a.h.Some? then HorizontalOrdinal(a.h.value) else -1,
                                   if a.v.Some? then VerticalOrdinal(a.v.value) else -1, BoolHash(a.wrapText)]))
  {
    var v0: Int32 := if a.h.Some? then HorizontalOrdinal(a.h.value) else -1;
    var v1: Int32 := if a.v.Some? then VerticalOrdinal(a.v.value) else -1;
    var v2 := BoolHash(a.wrapText);
    var h3 := Mix(Mix(Mix(17, v0), v1), v2);
    assert AlignmentHash(a) == h3;
    assert MixAll(17, [v0, v1, v2]) == h3 by {
      assert [v0, v1, v2][1..] == [v1, v2] && [v1, v2][1..] == [v2] && [v2][1..] == [];
      assert MixAll(17, [v0, v1, v2]) == MixAll(Mix(17, v0), [v1, v2]);
      assert MixAll(Mix(17, v0), [v1, v2]) == MixAll(Mix(Mix(17, v0), v1), [v2]);
      assert MixAll(Mix(Mix(17, v0), v1), [v2]) == MixAll(h3, []);
    }
    MixAllIsPolynomial(17, [v0, v1, v2]);
  }

  /** Four steps of the fold. */
  lemma MixAll4(h: Int32, a: Int32, b: Int32, c: Int32, d: Int32, rest: seq<Int32>)
    ensures MixAll(h, [a, b, c, d] + rest) == MixAll(Mix(Mix(Mix(Mix(h, a), b), c), d), rest)
  {
    var h1, h2, h3 := Mix(h, a), Mix(Mix(h, a), b), Mix(Mix(Mix(h, a), b), c);
    assert ([a, b, c, d] + rest)[1..] == [b, c, d] + rest;
    assert ([b, c, d] + rest)[1..] == [c, d] + rest;
    assert ([c, d] + rest)[1..] == [d] + rest;
    assert ([d] + rest)[1..] == rest;
    assert MixAll(h, [a, b, c, d] + rest) == MixAll(h1, [b, c, d] + rest);
    assert MixAll(h1, [b, c, d] + rest) == MixAll(h2, [c, d] + rest);
    assert MixAll(h2, [c, d] + rest) == MixAll(h3, [d] + rest);
  }

  /** Five steps of the fold. */
  lemma MixAll5(h: Int32, a: Int32, b: Int32, c: Int32, d: Int32, e: Int32)
    ensures MixAll(h, [a, b, c, d, e]) == Mix(Mix(Mix(Mix(Mix(h, a), b), c), d), e)
  {
    MixAll4(h, a, b, c, d, [e]);
    assert [a, b, c, d] + [e] == [a, b, c, d, e];
    assert [e][1..] == [];
  }
}

=== FILE: workbook.dfy ===
/**
 * The workbook part of an open document: its sheets (each with a name and the
 * worksheet part its relationship id resolves to), the shared-string table,
 * the stylesheet, the defined names, the calculation properties and whether a
 * calculation chain part exists. The workbook is an object every operation of
 * the core changes in place.
 *
 * The shared-string table is kept by a collaborator that is not part of this
 * model; it is modelled as interning: the same text always gets the same
 * index, and new text is appended.
 */
module Document {
  import opened Common
  import opened Sheet
  import opened Styles

  /** A `Sheet` element of the workbook: its name and its worksheet part. */
  datatype SheetEntry = SheetEntry(name: Option<string>, part: Option<WorksheetPart>)

  /** A `DefinedName`: name, sheet scope (a 0-based sheet position) and formula text. */
  datatype DefinedName = DefinedName(name: Option<string>, localSheetId: Option<nat>, text: string)

  datatype CalcMode = Auto | Manual | AutoNoTable

  /** `CalculationProperties`: the calculation mode and the full-calculation-on-load flag. */
  datatype CalcProperties = CalcProperties(mode: Option<CalcMode>, fullCalcOnLoad: Option<bool>)

  class Workbook {
    var sheets: seq<SheetEntry>
    var sharedStrings: seq<string>
    var stylesheet: Option<Stylesheet>
    var definedNames: Option<seq<DefinedName>>
    var calcPr: Option<CalcProperties>
    var hasCalcChain: bool

    constructor (sheets: seq<SheetEntry>, sharedStrings: seq<string>, stylesheet: Option<Stylesheet>,
                 definedNames: Option<seq<DefinedName>>, calcPr: Option<CalcProperties>, hasCalcChain: bool)
      ensures this.sheets == sheets && this.sharedStrings == sharedStrings && this.stylesheet == stylesheet
      ensures this.definedNames == definedNames && this.calcPr == calcPr && this.hasCalcChain == hasCalcChain
    {
      this.sheets := sheets;
      this.sharedStrings := sharedStrings;
      this.stylesheet := stylesheet;
      this.definedNames := definedNames;
      this.calcPr := calcPr;
      this.hasCalcChain := hasCalcChain;
    }

    /** Interns `text` and returns its index in the shared-string table. */
    method GetOrAddString(text: string) returns (index: nat)
      modifies this`sharedStrings
      ensures sharedStrings == Interned(old(sharedStrings), text)
      ensures index == StringIndex(sharedStrings, text) && index < |sharedStrings| && sharedStrings[index] == text
    {
      InternedIndex(sharedStrings, text);
      sharedStrings := Interned(sharedStrings, text);
      index := StringIndex(sharedStrings, text);
    }

    /** The shared string at `index`, or "" when `index` is out of range. */
    function GetStringByIndexOrEmpty(index: int): (s: string)
      reads this`sharedStrings
      ensures 0 <= index < |sharedStrings| ==> s == sharedStrings[index]
      ensures !(0 <= index < |sharedStrings|) ==> s == ""
    {
      if 0 <= index < |sharedStrings| then sharedStrings[index] else ""
    }
  }

  /** Position of the first occurrence of `text` in the table, or its length. */
  function StringIndex(table: seq<string>, text: string): (k: nat)
    ensures k <= |table|
    ensures k < |table| <==> text in table
    ensures k < |table| ==> table[k] == text
    ensures forall j :: 0 <= j < k ==> table[j] != text
  {
    if table == [] then 0 else if table[0] == text then 0 else 1 + StringIndex(table[1..], text)
  }

  /** The table after interning `text`: unchanged if present, otherwise extended by it. */
  function Interned(table: seq<string>, text: string): seq<string> {
    if text in table then table else table + [text]
  }

  /** Interning makes `text` present, and keeps the index of every text already present. */
  lemma {:induction false} InternedIndex(table: seq<string>, text: string)
    ensures text in Interned(table, text)
    ensures StringIndex(Interned(table, text), text) == StringIndex(table, text)
    ensures forall t :: t in table ==> StringIndex(Interned(table, text), t) == StringIndex(table, t)
  {
    if text !in table {
      var n := table + [text];
      assert n[|table|] == text;
      forall t | t in table ensures StringIndex(n, t) == StringIndex(table, t) {
        StringIndexPrefix(table, [text], t);
      }
      StringIndexPrefix(table, [text], text);
    }
  }

  lemma {:induction false} StringIndexPrefix(a: seq<string>, b: seq<string>, t: string)
    ensures StringIndex(a + b, t) == if t in a then StringIndex(a, t) else |a| + StringIndex(b, t)
  {
    if a != [] {
      assert (a + b)[0] == a[0];
      assert (a + b)[1..] == a[1..] + b;
      StringIndexPrefix(a[1..], b, t);
    } else {
      assert a + b == b;
    }
  }
}
